=== FILE: README.md ===
# 6thIntelligence chatbot services: a Dafny model

6thIntelligence is a FastAPI chatbot for a property business. Its answers are
grounded in a knowledge base and checked against a causal graph. The model
covers the deterministic logic behind the application's I/O:

- **The conversation tree.** Messages form a parent-pointer forest. The
  context chain is the walk from a message up to its root, read root first,
  with coarse-grained (summarised) nodes contributing their summary.
- **Causal verification.** The causal graph is a set of directed edges.
  Reachability is stated as an inductive path predicate and decided by a
  closure computation. There is a soft top-three re-ranking
  (`verify_mechanisms`) and a hard filter with a fallback (`filter_chunks`).
- **Knowledge-base chunking.** Text is cut into 1000-character windows that
  overlap by 100 characters and prefer to end at a line break. Retrieved
  documents are joined with `---`, and the chat endpoint splits them again.
- **Stateful services as state-transition functions over an explicit clock:**
  the TTL LRU response cache, the semantic cache, the per-IP rate limiter
  with blocking, and the human-handover queue.
- **Validators and classifiers:** input sanitising, SQL and prompt-injection
  detection, session-id and e-mail shapes, API-key masking, message
  sentiment and escalation priority.
- **Aggregations over stored records:** the feedback dashboard, the cost
  tracker (pricing lookup, free models, budget, suggested model, trend,
  projection) and the metrics service (hourly breakdown, per-model usage,
  response-time statistics, error rate, CSV export).

Each source component is one Dafny module. The file is named after the
component, e.g. `lru_cache.dfy` is `LruCache`.

Four modules hold the shared vocabulary:

- `Basics`: optional values, order-preserving filters, counts, sums, Python
  `xs[:k]`.
- `Text`: ASCII lower-casing, `split`/`strip`/`join`, `find`, decimal
  rendering, and the lexicographic order of Python strings.
- `Sorting`: a stable insertion sort by a total preorder, standing in for
  Python's stable `sort`.
- `Grouping`: dict-of-lists grouping in first-seen key order.

External oracles are parameters of the functions that use them. They are:

- regular-expression searches, one predicate per pattern family;
- the spaCy entity extractor;
- the TF-IDF similarity;
- the language-model summary;
- the clock (`now`, `today`, cut-off timestamps);
- freshly drawn uuids.

JSON files and database tables become sequences of records in storage order.

## Model

| member | source | states |
|---|---|---|
| ConversationTree.Walk | app/services/state_manager.py:30-41 | The messages visited by following `parent_id` from a node form the unique parent-link path (`IsChainFrom`). It is empty for an empty or unknown id and stops at a missing, empty or unknown parent. It terminates on every table whose parent links form no cycle, whatever order the rows were inserted in. |
| ConversationTree.FuelEnough | app/services/state_manager.py:33-41 | A parent walk that stops never visits a row twice, so it stops within as many steps as the table has rows. |
| ConversationTree.ChainUnique | app/services/state_manager.py:33-41 | Any sequence that satisfies the parent-link path conditions from a node is exactly the walk, so the chain is determined by the table. |
| ConversationTree.ContextChain | app/services/state_manager.py:25-44 | The chain has one entry per visited message and lists them in reverse order, root first. Each entry is the message's role with its summary when that is non-empty, otherwise its content. |
| ConversationTree.ChainEnds | app/services/state_manager.py:39-44 | For a known node the chain is non-empty. Its last entry is the requested node and its first is a message with no (known) parent. |
| ConversationTree.CreateNode | app/services/state_manager.py:46-78 | The new row gets the drawn node id, the given fields, no summary, and similarity 0.0 unless the parent id is present and found; then it gets the oracle's similarity to the parent's content. Coarse-graining is scheduled iff the similarity strictly exceeds the threshold. Existing rows are unchanged and the store stays valid. |
| ConversationTree.AddRow | app/services/state_manager.py:61-72 | Adding a row under an unused node id whose parent's chain names no row with that id keeps the table free of cycles, so every walk still ends. The row gets the next autoincrement key and no other row changes. |
| ConversationTree.InsertReply | app/routers/chat.py:275-284 | The assistant reply is stored under the node id drawn before streaming, as a child of the user's node. It has role `assistant`, the streamed text and token count, no summary and the column default similarity 0.0. Other rows are unchanged and the table stays free of cycles. |
| ConversationTree.ReplyChain | app/routers/chat.py:275-284 | The reply's context chain is the user node's chain followed by the reply's own entry. |
| ConversationTree.AdoptChain | app/routers/chat.py:195-316 | The reply's id is published in a header before its row is stored, so a follow-up may name it as its parent first. Once the row exists, every such follow-up's chain is the new row's chain followed by the chain it had before. |
| ConversationTree.ChainFrame | app/services/state_manager.py:61-72 | Inserting a row leaves unchanged the context chain of every other node whose walk reaches no row naming the new id. |
| ConversationTree.CreateRootChain | app/services/state_manager.py:46-78 | A node created without a parent has the one-entry chain `[{role, content}]`. |
| ConversationTree.CreateChildChain | app/services/state_manager.py:46-78 | A node created under an existing parent has the parent's chain followed by its own entry. |
| ConversationTree.CoarseGrain | app/services/state_manager.py:80-103 | Only the node's `summary` is written: content, role, parent and every other row are unchanged, so the table stays free of cycles. An unknown node, or one without a known parent, leaves the table as it was. |
| ConversationTree.CoarseGrainChain | app/services/state_manager.py:25-44 | Coarse-graining keeps every chain's length and roles. A summarised node's own chain now ends with its summary. |
| ConversationTree.SameShapeChain | app/services/state_manager.py:33-41 | Tables that agree on keys, parents and roles give chains of equal length with equal roles. |
| CausalGraph.Closure | app/services/causal_filter.py:39 | The search from a node set is a superset of it, within the graph's nodes, and closed under edges. |
| CausalGraph.ClosureSound | app/services/causal_filter.py:39 | Every node the search visits is reachable by a directed path. |
| CausalGraph.HasPathIff | app/services/causal_service.py:70 | The executable search holds exactly when a directed path from `a` to `b` exists (the meaning of `nx.has_path`). |
| CausalGraph.ReachesMono | app/services/causal_service.py:66-71 | A path in a subgraph is a path in the larger graph. |
| CausalGraph.Linked | app/services/causal_filter.py:38-39 | Two entities are linked iff both are nodes and a directed path joins them in one direction or the other. |
| CausalGraph.LinkedSymmetric | app/services/causal_filter.py:39 | Linkage does not depend on argument order. |
| CausalGraph.LinkedMono | app/services/causal_filter.py:34-41 | Adding nodes or edges never breaks a link. |
| CausalGraph.AddCausalLink | app/services/causal_service.py:86-88 | The new graph adds exactly the lower-cased endpoints and the edge between them, labelled with the mechanism. The old graph is a subgraph of it, and lower(cause) then reaches lower(effect). |
| CausalFilter.AnyLinked | app/services/causal_filter.py:37-40 | True iff some chunk entity is linked to the query entity. |
| CausalFilter.HasCausalPath | app/services/causal_filter.py:34-41 | True iff some (query entity, chunk entity) pair is linked. |
| CausalFilter.HasCausalPathSymmetric | app/services/causal_filter.py:39 | Swapping the query and chunk entity lists gives the same answer. |
| CausalFilter.HasCausalPathMono | app/services/causal_filter.py:34-41 | Adding nodes or edges never turns the test false. |
| CausalFilter.FilterChunks | app/services/causal_filter.py:43-59 | The output is always a subsequence of the input, and empty only for empty input. It is the whole input when the graph has no nodes, the extractor is missing or the query has no entities. When some chunk qualifies, the output is exactly the chunks with a causal path: each keeps its multiplicity and the input order. When none qualifies, the input is returned. |
| CausalService.Score | app/services/causal_service.py:62-71 | A chunk's score is the number of linked (query entity, chunk entity) pairs, with repetition, and is at most the product of the list lengths. |
| CausalService.ScorePositive | app/services/causal_service.py:62-71 | A score is positive exactly when the filter's path test holds for the same lists. |
| CausalService.ScoreMono | app/services/causal_service.py:66-71 | Adding nodes or edges never lowers a score. |
| CausalService.RankOrder | app/services/causal_service.py:76 | Ordering by descending score is a total preorder, so the stable sort is well defined. |
| CausalService.VerifyMechanisms | app/services/causal_service.py:48-77 | The output has min(3, n) elements, all from the input; with n ≤ 3 it is a permutation. Without an extractor or query entities it is the first three chunks in input order. Otherwise it is in non-increasing score order, and zero-score chunks are not removed. |
| CausalService.VerifyMechanismsIsHead | app/services/causal_service.py:76-77 | With ranking active, the result is the first min(3, n) elements of the stable score ranking. |
| CausalService.KeptOutscoreDropped | app/services/causal_service.py:76-77 | Every chunk kept scores at least as high as any chunk left out. |
| CausalService.VerifyMechanismsStable | app/services/causal_service.py:76 | Among chunks of equal score, the result holds a prefix of them in input order (the sort is stable). |
| Knowledge.ChunkIdInjective | app/services/knowledge_service.py:50 | Two chunk ids `"{doc_id}_{start}"` of one document are equal only for equal starts. |
| Knowledge.RFind | app/services/knowledge_service.py:43 | `rfind('\n', start, end)` gives the last newline index in the range, or -1 when there is none. |
| Knowledge.ChunkDocument | app/services/knowledge_service.py:20-69 | Empty text gives no chunks. Otherwise every chunk is the non-empty slice `text[start:end]` of at most 1000 characters. A chunk ends just after the window's last newline exactly when that newline lies more than 500 characters past the start. The first chunk starts at 0, each next one starts 100 before the previous end, the last ends at the text's end, and ids are pairwise distinct. |
| Knowledge.ChunksOverlap | app/services/knowledge_service.py:53-68 | Consecutive chunks overlap by exactly 100 characters: the last 100 of one are the first 100 of the next. |
| Knowledge.ChunkIdsDistinct | app/services/knowledge_service.py:50 | Chunk ids of a well-formed chunk list are pairwise distinct. |
| Knowledge.Batches | app/services/knowledge_service.py:74-79 | Batches are non-empty, at most 5000 long, full except the last, and absent only for no chunks. |
| Knowledge.BatchesFlatten | app/services/knowledge_service.py:75-84 | Concatenating the batches gives back the chunk list. |
| Knowledge.KeepStripped | app/routers/chat.py:154 | The chat endpoint's list comprehension keeps only non-empty stripped pieces. |
| Knowledge.ContextRoundTrip | app/services/knowledge_service.py:96-100 | Splitting the formatted context on `---`, stripping and dropping blanks (app/routers/chat.py:154) recovers the stripped, non-blank documents when none contains `---`. |
| LruCache.Lookup | app/services/cache_service.py:55-67 | The entry under a key is found iff the key is cached. |
| LruCache.LookupUnique | app/services/cache_service.py:17 | In a dictionary, a stored entry is the one found under its key. |
| LruCache.TtlOf | app/services/cache_service.py:86 | `ttl or default_ttl`: a missing or zero TTL means the default. |
| LruCache.Remove | app/services/cache_service.py:41-48 | `_remove` drops exactly the key from the cache and keeps every other entry in order. |
| LruCache.PopOldestIsRemove | app/services/cache_service.py:79-81 | Dropping the first entry is `_remove` of the first key. |
| LruCache.Evict | app/services/cache_service.py:79-81 | Eviction removes a prefix (the least recently used entries) until the size is below `max_size`. |
| LruCache.EvictOldest | app/services/cache_service.py:79-81 | The eviction loop keeps only the newest `max_size - 1` entries, or all of them when there are fewer than `max_size`. It drops entries only from the front. |
| LruCache.Set | app/services/cache_service.py:69-86 | With `max_size ≥ 1` the new entry is last (most recently used), holds the response, the time and the effective TTL, and the size is at most `max_size`. The earlier entries are a suffix of the old ones minus the key. Eviction stops as soon as there is room: exactly `min(others, max_size - 1)` old entries survive, where `others` counts the old entries under other keys. With `max_size ≤ 0` the eviction loop runs dry (`StopIteration`). The counters are unchanged. |
| LruCache.SetThenLookup | app/services/cache_service.py:69-86 | After `set(q, r)`, looking up q finds r. |
| LruCache.SetEvictsOldest | app/services/cache_service.py:78-81 | A surviving old key implies every later old key survived too: eviction goes oldest first. |
| LruCache.Get | app/services/cache_service.py:50-67 | A fresh hit returns the value, moves the key last and counts a hit. A miss or an expired entry (age above its TTL) returns None and counts a miss, and an expired entry is removed. Hits plus misses grow by exactly one. |
| LruCache.Invalidate | app/services/cache_service.py:88-105 | `None` empties the cache. A pattern removes exactly the entries whose value contains it, keeping the order of the rest. Counters are unchanged. |
| LruCache.AnyIn | app/services/cache_service.py:161-163 | The pattern scan holds iff some pattern occurs in the text. |
| LruCache.ShouldCache | app/services/cache_service.py:147-180 | False if any personal pattern occurs in the lower-cased query or the query is shorter than 10 characters. Otherwise true iff some property pattern occurs. |
| LruCache.StoreComputed | app/services/cache_service.py:191-193 | Caching the computed response on a miss makes the next lookup find it, stored at the current time with the caller's TTL, or the default when that is 0 (with `max_size ≥ 1`). |
| LruCache.GetOrSet | app/services/cache_service.py:182-195 | A fresh hit returns the cached value. Otherwise the computed response is returned, and it is stored iff `should_cache` holds, under the `ttl` argument (the default TTL when that is 0). Without that, the query is left uncached. |
| SemanticCache.Similarity | app/services/cache_service.py:209-218 | Word-set Jaccard index within [0, 1]. It is 0 when either side has no words, and otherwise 1 exactly for equal word sets. |
| SemanticCache.JaccardBounds | app/services/cache_service.py:215-218 | For non-empty word sets the intersection is at most the union, with equality iff the sets are equal. |
| SemanticCache.SimilaritySymmetric | app/services/cache_service.py:209-218 | The similarity is symmetric. |
| SemanticCache.SimilarityRefl | app/services/cache_service.py:209-218 | A query with a word is fully similar to itself. |
| SemanticCache.FindSimilar | app/services/cache_service.py:228-230 | Returns the response of the first stored query at or above the threshold, or None iff there is none. |
| SemanticCache.Get | app/services/cache_service.py:220-232 | An exact key returns its response; otherwise the first similar entry's. |
| SemanticCache.Put | app/services/cache_service.py:237 | Dictionary assignment: an existing key keeps its position, a new key goes last, other entries are unchanged. |
| SemanticCache.Trim | app/services/cache_service.py:239-244 | Above 200 entries the 50 oldest keys go, and the newest entry stays. |
| SemanticCache.Set | app/services/cache_service.py:234-244 | From a valid state: the size stays at most 200 and `get(q)` returns r. An update keeps the keys in place. An insert goes last, and into a full cache it first drops the 50 oldest keys. |
| SemanticCache.SetStores | app/services/cache_service.py:234-244 | The stored pair survives the trim. |
| SemanticCache.Clear | app/services/cache_service.py:246-249 | After `clear` every lookup misses. |
| RateLimiter.Cleanup | app/middleware/rate_limiter.py:30-35 | Removes exactly a leading run of times older than `now − 60`. The result is a suffix whose first time is within the window. |
| RateLimiter.CleanupSorted | app/middleware/rate_limiter.py:30-35 | On a non-decreasing list, exactly the times within the window remain. |
| RateLimiter.BlockDuration | app/middleware/rate_limiter.py:64-65 | `min(60·2^min(v,5), 3600)` lies between 120 and 1920 for v ≥ 1, and is 120 for v = 1. |
| RateLimiter.Admit | app/middleware/rate_limiter.py:61-90 | Reaching the general limit blocks the IP for the backoff duration and records nothing. Reaching the chat limit on `/api/chat` rejects without blocking. Otherwise the time is appended to the IP's window, and also to its chat window on `/api/chat`. Other IPs are untouched. |
| RateLimiter.Dispatch | app/middleware/rate_limiter.py:37-92 | A whitelisted IP passes with no state change. A blocked IP is rejected with the remaining whole seconds while `now` is before its unblock time. Otherwise the block entry is deleted, the windows are cleaned and the limit checks run. Settings and other IPs are unchanged. |
| RateLimiter.DispatchChecked | app/middleware/rate_limiter.py:45-90 | The same decision stated on the state before the call. A rejected request changes the windows only by cleanup, and a block lasts 120–1920 seconds. |
| RateLimiter.NewBounded | app/middleware/rate_limiter.py:13-21 | A new limiter holds no times. |
| RateLimiter.DispatchBounded | app/middleware/rate_limiter.py:62-90 | A time is appended only below the limit, so no IP ever holds more than `requests_per_minute` times. |
| RateLimiter.BlockIsTwoMinutes | app/middleware/rate_limiter.py:62-66 | In any reachable state the violation count is 1, so every block lasts exactly 120 seconds. |
| RateLimiter.AddToWhitelist | app/middleware/rate_limiter.py:94-96 | Set insertion with nothing else changed. For every path and time, the IP's next request then passes with no state change. |
| RateLimiter.RemoveFromWhitelist | app/middleware/rate_limiter.py:98-100 | Set deletion with nothing else changed; removing an absent IP is a no-op. |
| Security.HtmlEscape | app/services/security_service.py:72 | `html.escape` leaves no `<`, `>`, `"` or `'`. Text with none of `&<>"'` is returned unchanged. |
| Security.EscapeRoundTrip | app/services/security_service.py:72 | Unescaping the escaped text gives the text back: escaping loses nothing. |
| Security.RemoveXss | app/services/security_service.py:75-76 | Deleting pattern matches only removes characters. When none of the remaining patterns matches, the text is unchanged. |
| Security.SanitizeInput | app/services/security_service.py:63-81 | None or "" gives "". Otherwise the result contains no `<` or `>` and is single-spaced: no leading, trailing or repeated whitespace. Whitespace normalising keeps the words of the escaped, XSS-stripped text, in order and apart, and keeps its non-space characters in order. |
| Security.SanitizeKeepsText | app/services/security_service.py:64-81 | Legitimate text is preserved. With nothing to escape and no XSS pattern matching, the output has exactly the input's words, in order and apart, and exactly its non-space characters. Input that is already single-spaced comes back unchanged. |
| Text.CollapseSpaces | app/services/security_service.py:79 | `" ".join(s.split())` is single-spaced and splits into exactly the words of `s`, so words are never glued together or split apart. It keeps the non-space characters of `s`, in order, and returns already single-spaced text unchanged. |
| Text.WordsOfJoin | app/services/security_service.py:79 | Splitting non-empty, whitespace-free words joined by single spaces gives back exactly those words, so `split` undoes `" ".join`. |
| Security.MatchedFrom | app/services/security_service.py:92-96 | The indices of the patterns that match, in pattern order. |
| Security.DetectSqlInjection | app/services/security_service.py:83-98 | None or "" gives (False, []). The matched list holds exactly the SQL patterns that match the upper-cased text, and detection holds iff it is non-empty. |
| Security.MaxWeight | app/services/security_service.py:115-122 | The largest weight among the matched patterns, 0 iff none matched. |
| Security.Confidence | app/services/security_service.py:124-126 | The maximum weight, plus 0.1 per match beyond two, capped at 1.0. It lies in [0, 1]. |
| Security.DetectPromptInjection | app/services/security_service.py:100-129 | None or "" gives (False, 0.0, []). The matched list holds exactly the prompt patterns that match, confidence is in [0, 1] and is 0 iff nothing matched, and detection holds iff confidence > 0.6. |
| Security.HeavyPatternDetected | app/services/security_service.py:22-51 | Any single pattern of weight above 0.6 is enough for detection. |
| Security.FourMatchesDetected | app/services/security_service.py:118-127 | Four matched patterns are always enough for detection. |
| Security.CheckContentSafety | app/services/security_service.py:165-184 | Safe iff the text is empty or no harmful pattern matches. An unsafe verdict names the first matching pattern's reason. |
| Security.SecurityReport | app/services/security_service.py:186-211 | Overall risk is "high" iff SQL injection or prompt injection is detected or the content is unsafe, otherwise "low". Every reported field equals its detector's answer: the SQL flag and pattern count, the prompt flag, confidence and pattern count, and the content verdict and reason. The input length is `len(text)`. |
| Security.MatchGroupsIsUuid | app/services/security_service.py:136-141 | The group-by-group matcher accepts exactly the 8-4-4-4-12 lower-case hex shape. |
| Security.ValidateSessionId | app/services/security_service.py:131-141 | Accepts iff the id is non-empty and its lower-cased form is a uuid shape, optionally followed by one `\n` (Python's `$`). |
| Security.EmailShapeIff | app/services/security_service.py:145-149 | The executable check holds iff the text splits as local `@` domain `.` top-level domain with the pattern's character classes. |
| Security.ValidateEmail | app/services/security_service.py:143-149 | Accepts iff the address is non-empty and has the e-mail shape, optionally followed by one `\n`. |
| Security.ValidateEmailIff | app/services/security_service.py:147-149 | The same acceptance stated through the explicit split into local part, domain and top-level domain. |
| Security.MaskApiKey | app/services/security_service.py:159-163 | None or shorter than 10 gives "***"; otherwise the first 4 characters, "...", and the last 4. |
| Security.MaskHidesMiddle | app/services/security_service.py:159-163 | Keys that differ only in the middle mask identically. |
| Handover.TallyCount | app/services/handover_service.py:55-70 | A word-list tally adds the step once per listed word present. |
| Handover.KeywordTallyCount | app/services/handover_service.py:63-66 | The keyword tally is −0.2 times the number of urgent or high keywords present. |
| Handover.Clamp | app/services/handover_service.py:72 | The clamp lands in [−1, 1] and is the identity there. |
| Handover.AnalyzeSentiment | app/services/handover_service.py:44-72 | Empty input gives 0.0. Otherwise the score is the clamp of −0.3 per negative indicator, −0.2 per urgent or high keyword and +0.2 per positive word present, and it always lies in [−1, 1]. |
| Handover.SentimentSign | app/services/handover_service.py:55-72 | A negative score needs a negative indicator or a raised keyword; a positive one needs a positive word. |
| Handover.Highest | app/services/handover_service.py:93-101 | The highest-ranked priority among the matched keywords, never below the starting one. |
| Handover.DetectEscalationNeed | app/services/handover_service.py:74-124 | Empty input gives (False, "", "normal"). The priority is always known, and a handover is needed iff some reason was collected. The priority is "urgent" iff an urgent keyword matched, and "normal" iff no keyword matched and neither sentiment nor repetition raised it. The reason is the collected reasons joined with ", ". |
| Handover.Reasons | app/services/handover_service.py:91-122 | One `keyword:<word>` per keyword present in the lower-cased message, in list order, then `negative_sentiment` if the score is below −0.5, then `repeated_issues` if the history repeats. |
| Handover.Escalate | app/services/handover_service.py:91-124 | Needs a handover iff a keyword matched, the sentiment is negative or issues repeat. The priority is urgent iff an urgent keyword matched, normal iff nothing raised it, and the reason joins the collected reasons with ", ". |
| Handover.TopUrgent | app/services/handover_service.py:93-101 | The top keyword priority is urgent iff an urgent keyword matched. |
| Handover.TopNormal | app/services/handover_service.py:93-101 | The top keyword priority stays normal iff no raised keyword matched. |
| Handover.NextId | app/services/handover_service.py:175-180 | 1 for an empty store, otherwise one more than the largest id. |
| Handover.Create | app/services/handover_service.py:126-173 | The new record has the next id, status pending, no assignee, and is appended last. Unique ids stay unique. |
| Handover.Get | app/services/handover_service.py:202-208 | Finds a record with the id iff one exists. |
| Handover.Pending | app/services/handover_service.py:197-200 | Exactly the pending records, in storage order. |
| Handover.Assign | app/services/handover_service.py:210-227 | An absent id returns None with the store unchanged. Otherwise only the first record with the id changes: its status becomes assigned and its assignee is set. |
| Handover.ResolvedNotes | app/services/handover_service.py:236-237 | Notes are appended after "\nResolution: " when given; otherwise they are unchanged. |
| Handover.Resolve | app/services/handover_service.py:229-248 | An absent id returns None with the store unchanged. Otherwise only the first record with the id changes, and the returned record is that record with status resolved, the resolution time set and the notes extended. Every other field, the assignee included, is kept. |
| Handover.AssignThenGet | app/services/handover_service.py:202-227 | With unique ids, looking up an assigned id returns the updated record. |
| Handover.StorePreservesUniqueIds | app/services/handover_service.py:210-248 | Assign and resolve keep ids unique. |
| Handover.CountsAddUp | app/services/handover_service.py:369-405 | For records with known statuses and priorities, the per-status counts and the per-priority counts each add up to the total. |
| Handover.HandoverStats | app/services/handover_service.py:365-405 | An empty store gives all zeros. A record with an unknown status or priority makes the call fail (the source's `KeyError`). Otherwise pending + assigned + resolved = total. Each status count, and each priority's count, equals the number of records with that status or priority. |
| HandoverRouter.ListHandovers | app/routers/handover.py:25-51 | A limit above 100 fails validation. Otherwise the results are drawn from the records that match the status and priority filters, never more copies than there are, and are sorted by priority rank, then `created_at`. A negative limit drops that many from the end (Python slicing), otherwise min(limit, matches) are returned. Every returned record comes no later in that order than every match left out. `total` is the filtered count before truncation, and a limit of at least the number of matches returns all of them. The list is a prefix of the stable queue sort of the matches, so among equal rank and time the stored order decides which are shown. |
| HandoverRouter.SortQueue | app/routers/handover.py:42-46 | The sort is a permutation ordered by rank, then creation time. |
| HandoverRouter.SortQueueStable | app/routers/handover.py:42-46 | Records equal in rank and creation time keep their stored order. |
| HandoverRouter.PendingQueue | app/routers/handover.py:53-62 | Exactly the pending records, ordered by rank only, with `count` equal to the list length. |
| HandoverRouter.PendingStable | app/routers/handover.py:56-60 | Pending records of equal rank keep their stored order. |
| HandoverRouter.DetectEscalation | app/routers/handover.py:152-172 | A missing history is an empty one. The reported need, reason and priority are those of `detect_escalation_need` for the message and that history, and the sentiment is `analyze_sentiment` of the message, in [−1, 1]. |
| HandoverRouter.ShortHistoryIgnored | app/services/handover_service.py:110-119 | A history of four messages or fewer never changes the verdict. |
| Feedback.Submit | app/services/feedback_service.py:33-75 | A rating outside 1..5 is rejected with nothing stored. Otherwise the record gets an id above every stored id (1 for an empty store), is appended, and validity is kept. |
| Feedback.Window | app/services/feedback_service.py:99-101 | A record is in the window iff it was created at or after the cut-off; without a cut-off the window is the whole list. |
| Feedback.WindowExact | app/services/feedback_service.py:99-101 | The window is a subsequence of the records, and each record created at or after the cut-off occurs in it as often as in the input. |
| Feedback.Mean | app/services/feedback_service.py:103-107 | 0.0 for no records. Otherwise the mean times the count is the rating sum, and the mean lies within [1, 5] for valid ratings. |
| Feedback.AverageRating | app/services/feedback_service.py:90-107 | The mean rating of the window, 0.0 when it is empty, within [1, 5] for a valid store. |
| Feedback.Distribution | app/services/feedback_service.py:120-125 | Keys 1..5 are always present, and every key holds the number of records with that rating. |
| Feedback.RatingDistribution | app/services/feedback_service.py:109-125 | For a valid store the keys are exactly 1..5 and the values add up to the number of records considered. |
| Feedback.FiveWay | app/services/feedback_service.py:120-125 | The five rating counts of valid records add up to the record count. |
| Feedback.CategoryBreakdown | app/services/feedback_service.py:160-185 | One row per category ("general" when none is given), categories distinct, and every record's category has a row. Each row's count is the number of records in that category, and its average is the mean of their ratings (before rounding). |
| Feedback.CategoriesFirstSeen | app/services/feedback_service.py:172-176 | Categories come in the order the window first shows them, as the keys of the dict filled in one pass. |
| Feedback.Latest | app/services/feedback_service.py:203-208 | The last-feedback time is a record's time and is at or after every other. |
| Feedback.Comments | app/services/feedback_service.py:205-206 | Every listed comment is non-empty and is some record's comment, and every record's non-empty comment is listed. |
| Feedback.CommentsExact | app/services/feedback_service.py:205-206 | There is one comment per record with a non-empty comment, and the i-th comment is the i-th such record's comment, in storage order. |
| Feedback.SessionRows | app/services/feedback_service.py:196-213 | One row per session, sessions distinct, and every record's session has a row. Each row's count is the session's record count and its average is the mean of that session's ratings. Each row is built from exactly that session's records, so its comments are their non-empty comments and its last-feedback time is their latest. |
| Feedback.SessionsFirstSeen | app/services/feedback_service.py:199-206 | Sessions come in the order the records first show them. |
| Feedback.LowRatingSessions | app/services/feedback_service.py:187-226 | The rows are session rows with average ≤ threshold, never more copies than there are, in ascending average order. A negative limit drops that many from the end; otherwise min(limit, qualifying rows) are returned. Every row returned has an average at most that of every qualifying row left out. A limit of at least the number of qualifying rows returns all of them. |
| Feedback.LowestRows | app/services/feedback_service.py:215-226 | The same selection stated for any list of session rows: filter by threshold, stable sort by average, Python slice by the limit. |
| Feedback.NewestFirstIsPreorder | app/services/feedback_service.py:245 | Newest-first by `created_at` is a total preorder. |
| Feedback.RecentComments | app/services/feedback_service.py:228-247 | The records are stored records with a non-empty comment within the optional rating bounds, never more copies than there are, newest first. A negative limit drops that many from the end; otherwise min(limit, qualifying records) are returned. Every record returned is at least as new as every qualifying record left out. A limit of at least the number of qualifying records returns all of them. |
| Feedback.Trend | app/services/feedback_service.py:271-281 | `insufficient_data` iff either group is empty; otherwise improving, declining or stable by a mean gap of more than 0.2 either way. |
| Feedback.FeedbackSummary | app/services/feedback_service.py:249-292 | An empty store gives the zero summary. Otherwise: the total; satisfaction as the percentage of ratings ≥ 4, within [0, 100]; the count of records in the last seven days, which with the older ones partitions the store; the trend of the two groups; the all-time average; the rating distribution and category breakdown over all records; the count of ratings ≤ 2. |
| Feedback.RecentOlderPartition | app/services/feedback_service.py:268-269 | Every record is either at or after the cut-off, or before it. |
| Cost.PricingTableWellFormed | app/services/cost_service.py:13-36 | Every price in the table is non-negative. |
| Cost.PriceIn | app/services/cost_service.py:58-73 | An exact key gives its price. Otherwise the first entry in table order whose lower-cased key contains, or is contained in, the lower-cased model gives its price. Otherwise the default 1.0/2.0 applies. |
| Cost.CalculateCost | app/services/cost_service.py:52-79 | Before rounding, cost = in·pin/10⁶ + out·pout/10⁶ at the price `PriceIn` picks from the pricing table: the exact key, else the first partial match in table order, else the default price. It is non-negative for non-negative token counts. |
| Cost.CostMonotone | app/services/cost_service.py:76-79 | Cost is monotone in both token counts. |
| Cost.FirstKeyInOrderWins | app/services/cost_service.py:62-71 | The loose match takes the first key in table order: a dated `openai/gpt-4o-mini-…` model is charged the `openai/gpt-4` input price. |
| Cost.FirstLooseCharge | app/services/cost_service.py:62-71 | A model that is no exact key is charged the price of the first key, in table order, that it partially matches (either lower-cased name contains the other). |
| Cost.FreeModels | app/services/cost_service.py:226-229 | Exactly the keys whose two prices are 0. |
| Cost.GetFreeModels | app/services/cost_service.py:226-229 | The five free entries, in table order. |
| Cost.FreeModelsCostNothing | app/services/cost_service.py:31-35 | Every free model costs 0 for any token counts. |
| Cost.CheckBudgetAvailable | app/services/cost_service.py:212-224 | Available iff monthly cost plus the estimate is at most the limit (the default limit when none is set). |
| Cost.BudgetMonotone | app/services/cost_service.py:224 | A cheaper month or estimate stays within budget. |
| Cost.PickFree | app/services/cost_service.py:242-248 | The first free model mentioning "gemma", else the first free model. |
| Cost.SuggestModel | app/services/cost_service.py:231-254 | When either preference is set, the result is `google/gemma-3n-e2b-it:free`. Otherwise it is `openai/gpt-4o-mini` iff the budget allows 0.01, else the gemma model. It is always a priced model. |
| Cost.DailyCostsSum | app/services/cost_service.py:190-210 | The per-day totals hold, for every date, the sum of that date's usage costs. |
| Cost.CostTrend | app/services/cost_service.py:190-210 | days+1 entries on consecutive dates ending today, each with that day's total, and 0 for a day without usage. |
| Cost.MissingDaysCostNothing | app/services/cost_service.py:203-208 | A date with no usage records costs 0 in the trend. |
| Cost.EstimateMonthlyProjection | app/services/cost_service.py:279-293 | The projection times the day of the month equals the monthly cost times 30; the day-0 branch gives 0. |
| Cost.ProjectionAtLeastSpent | app/services/cost_service.py:283-293 | On days 1..30 the projection is at least the amount spent, and equal on day 30. |
| Metrics.RecordTokenUsage | app/services/metrics_service.py:26-36 | A token-usage record stores the inputs and total = tokens_in + tokens_out. |
| Metrics.HourLabelRoundTrip | app/services/metrics_service.py:154 | Reading back the hour from `f"{hour:02d}:00"` gives the hour. |
| Metrics.HourLabelsAscend | app/services/metrics_service.py:152-154 | Labels of increasing hours are distinct and ascend as strings. |
| Metrics.HourlyBreakdown | app/services/metrics_service.py:150-156 | 24 entries "00:00".."23:00" in order. An hour without data counts 0; otherwise it counts the last value given for it (dict comprehension). |
| Metrics.ModelUsageStats | app/services/metrics_service.py:162-182 | One row per model, models distinct. `calls` is the number of token-usage records of the model and is positive; `tokens` is the sum of their totals. Every usage record's model has a row. |
| Metrics.ModelsFirstSeen | app/services/metrics_service.py:173-176 | Models come in the order the usage records first show them, as the keys of `model_stats`. |
| Metrics.RecordedUsageCounted | app/services/metrics_service.py:26-36 | Logging one more usage adds one call and tokens_in + tokens_out tokens to its model's row. |
| Metrics.ResponseTimes | app/services/metrics_service.py:189-200 | One value per response-time record at or after the cut-off: the i-th value is the i-th such record's, in log order. |
| Metrics.P95Index | app/services/metrics_service.py:207 | `int(count * 0.95)` is floor(95·count/100), which is below the count when the count is positive. |
| Metrics.ResponseTimeStats | app/services/metrics_service.py:184-215 | No data gives all zeros with count 0. Otherwise the count is the number of recent response records; min and max are values that bound all others; the average is the mean, also between them. The p95 is a recorded value with fewer than `int(count * 0.95)`+1 values below it and more than `int(count * 0.95)` values at or below it: the element at that index of the sorted list. |
| Metrics.SortedRank | app/services/metrics_service.py:205-208 | In a sorted permutation of the values, the element at index i has at most i values strictly below it and more than i values at or below it. |
| Metrics.MeanReal | app/services/metrics_service.py:210 | The mean times the count is the sum. |
| Metrics.MeanRealBounds | app/services/metrics_service.py:210 | The mean of values within [lo, hi] is within [lo, hi]. |
| Metrics.GetErrorRate | app/services/metrics_service.py:217-248 | Counts only records at or after the cut-off. The rate is 0 with no requests, otherwise the percentage of errors. `errors_by_type` has distinct types, per-type counts that are positive and correct, and they add up to `error_count`. The types come in the order the recent errors first show them, as in the dict. |
| Metrics.ErrorTypesFirstSeen | app/services/metrics_service.py:232-235 | The error types are listed in first-seen order: every error of a later type comes after some error of each earlier type. |
| Grouping.GroupByFirstSeen | app/services/metrics_service.py:235 | Buckets built in one pass come in first-seen key order, like the keys of a Python dict. |
| Metrics.ErrorTypesListed | app/services/metrics_service.py:232-235 | Every recent error's type appears in `errors_by_type`. |
| Metrics.ExportDates | app/services/metrics_service.py:329 | `sorted(set(...))`: each date of either side exactly once, in ascending order. |
| Metrics.CsvRows | app/services/metrics_service.py:329-332 | For each date, the sessions and message values given for it, 0 when a side has none. |
| Metrics.ExportCsv | app/services/metrics_service.py:327-333 | Split at newlines, the CSV is the header followed by one line per exported date with that date's values, provided no date contains a newline. |

## Left out

- Persistence: the JSON files, the SQLAlchemy queries and the networkx JSON (de)serialisation. Stores are passed in and returned as values, and query results are sequences in the order the query returns them.
- I/O and the network: the handover e-mail and webhook notifications, logging, and the language-model call that writes a summary (its text is a parameter).
- Concurrency: the locks in the caches and the rate limiter, and `asyncio.create_task`. Every operation is sequential, and `create_node` reports whether it would schedule coarse-graining instead of starting a task.
- Hashing: the LRU cache keys its entries by the query itself, not its md5 digest. This assumes no two queries collide.
- Regular expressions: the SQL, prompt-injection, XSS and harmful-content patterns are one uninterpreted search per pattern. Removing XSS matches is a deletion by an oracle-given mask. The uuid and e-mail patterns are modelled exactly.
- spaCy, the TF-IDF similarity and Chroma's embeddings and ranking are parameters.
- Floating point: all arithmetic is exact over `real`, and `round(x, n)` is not modelled. Results are stated before rounding, and the low-rating sort orders by the unrounded average.
- Clock: `time.time()`, `utcnow()`, the cut-offs and today's date are parameters. Timestamps in the rate limiter and caches are reals. ISO strings are compared lexicographically, as the source does.
- `LRUCache.get_stats`, `reset_stats` and `_cleanup_expired`: statistics formatting and a maintenance pass that no modelled operation calls.
- `RateLimitMiddleware._get_client_ip` and `get_stats`: header parsing and reporting; the client IP is a parameter.
- `get_feedback_trends`, `get_session_feedback` and `get_feedback_by_id` are outside the modelled feedback operations.
- Cost service: `get_daily_cost`, `get_monthly_cost`, `get_cost_breakdown_by_model`, `record_usage`, `_check_budget_alerts` and `get_usage_summary` are file reading and reporting. The monthly total and the usage records are inputs.
- Metrics service: the record buffer and its flush, `get_daily_stats`, `get_conversation_quality_metrics`, `get_realtime_metrics` and the JSON branch of `export_metrics` are database queries and serialisation. Their rows are inputs.
- Unparseable metric log lines are skipped by the source; the model's log holds only the parsed records.
- Handover average resolution time: it needs datetime parsing; the other statistics are modelled.
- Metrics.ModelUsageStats: a usage record whose stored model is `None` is grouped under `None`, as the source's `metric.get("model", "unknown")` returns the stored `None`; the "unknown" default for a missing key is not modelled.
- Cost.CalculateCost: the result is not rounded to 6 decimals.
- Feedback.FeedbackSummary: for an empty store the source's dictionary lacks the last-seven-days and low-rating keys; the model reports 0 for both.
- Feedback.Mean: stated before `round(…, 2)`.
- Metrics.ResponseTimeStats: `int(count * 0.95)` is taken as the exact floor of 95·count/100, ignoring binary floating-point error in the product.
- ConversationTree.CreateNode: the similarity is stored exactly as the oracle returns it; the TF-IDF fallback to 0.0 on an exception is part of the oracle.
- Text.Lower: ASCII case mapping only, standing in for Python's Unicode `lower()`. A non-ASCII upper-case letter such as 'Ä' stays as it is, where Python lower-cases it.
- Security.DetectSqlInjection: `Text.Upper` maps ASCII letters only, where Python's `upper()` also maps 'ä' to 'Ä', 'ı' to 'I' and 'ß' to 'SS'. A pattern that matches the Python upper-casing only through such a letter is not reported by the model.
- Security.DetectPromptInjection, Security.CheckContentSafety and Security.ValidateSessionId: they search the ASCII lower-casing of the text (see Text.Lower).
- Handover.AnalyzeSentiment, Handover.DetectEscalationNeed and HandoverRouter.DetectEscalation: keyword and indicator checks run on the ASCII lower-casing of the message, so a keyword written with non-ASCII capitals is not recognised.
- SemanticCache.Similarity, LruCache.ShouldCache, Cost.PriceIn and CausalGraph.AddCausalLink: they compare ASCII lower-casings, so two strings that differ only in non-ASCII letter case count as different.
- ConversationTree.AddRow, ConversationTree.InsertReply and ConversationTree.CreateNode: an insert that would close a cycle of parent links is excluded by precondition (`ClosesNoCycle`). The source would store such a row, and its parent walk would then never end. A freshly drawn uuid that nobody references always satisfies the condition. The reply's pre-drawn id is published before its row is stored, so follow-ups may already name it; they are not ancestors of the user node, so the condition holds there too.
- ConversationTree.Walk and ConversationTree.ContextChain: defined only on tables whose parent links form no cycle. The source would not terminate on a cyclic table.
- ConversationTree.InsertReply: a duplicate `node_id` violates the column's unique constraint and the source's commit fails; the model requires the id to be unused.

=== FILE: basics.dfy ===
/** Small shared vocabulary: optional values, sums and counts over
    sequences, order-preserving filters and Python's `xs[:k]` slice. */
module Basics {

  datatype Option<+T> = None | Some(value: T) {
    function GetOr(default: T): T {
      match this
      case Some(v) => v
      case None => default
    }
  }

  /** Python truthiness of an optional string: neither `None` nor `""`. */
  predicate Truthy(o: Option<string>) {
    o.Some? && o.value != ""
  }

  /** Order-preserving filter (a Python list comprehension with an `if`). */
  function Filter<T>(xs: seq<T>, p: T -> bool): (r: seq<T>)
    ensures |r| <= |xs|
    ensures forall x :: x in r ==> x in xs && p(x)
    ensures forall x :: x in xs && p(x) ==> x in r
    decreases |xs|
  {
    if |xs| == 0 then []
    else if p(xs[|xs| - 1]) then Filter(xs[..|xs| - 1], p) + [xs[|xs| - 1]]
    else Filter(xs[..|xs| - 1], p)
  }

  lemma {:induction false} FilterAppend<T>(xs: seq<T>, ys: seq<T>, p: T -> bool)
    ensures Filter(xs + ys, p) == Filter(xs, p) + Filter(ys, p)
    decreases |ys|
  {
    if |ys| == 0 {
      assert xs + ys == xs;
    } else {
      var ys' := ys[..|ys| - 1];
      assert (xs + ys)[..|xs + ys| - 1] == xs + ys';
      FilterAppend(xs, ys', p);
    }
  }

  lemma {:induction false} FilterNone<T>(xs: seq<T>, p: T -> bool)
    requires forall x :: x in xs ==> !p(x)
    ensures Filter(xs, p) == []
    decreases |xs|
  {
    if |xs| > 0 {
      FilterNone(xs[..|xs| - 1], p);
    }
  }

  /** Filtering a prefix yields a prefix of the filtered whole. */
  lemma FilterPrefix<T>(xs: seq<T>, k: nat, p: T -> bool)
    requires k <= |xs|
    ensures |Filter(xs[..k], p)| <= |Filter(xs, p)|
    ensures Filter(xs[..k], p) == Filter(xs, p)[..|Filter(xs[..k], p)|]
  {
    assert xs == xs[..k] + xs[k..];
    FilterAppend(xs[..k], xs[k..], p);
  }

  /** Appending to a concatenation regroups; stated over names so that a
      caller's sequences need not be unfolded. */
  lemma Regroup<T>(whole: seq<T>, mid: seq<T>, a: seq<T>, b: seq<T>, rest: seq<T>, e: seq<T>)
    requires whole == mid + e && mid == a + b && rest == b + e
    ensures whole == a + rest
  {
  }

  lemma PrefixMultiset<T>(xs: seq<T>, k: nat)
    requires k <= |xs|
    ensures multiset(xs[..k]) <= multiset(xs)
  {
    assert xs == xs[..k] + xs[k..];
  }

  lemma ProperSubsetSmaller<T>(a: set<T>, b: set<T>)
    requires a < b
    ensures |a| < |b|
  {
    assert !(b <= a);
    var x :| x in b && x !in a;
    assert b == (b - {x}) + {x};
    SubsetNotLarger(a, b - {x});
  }

  lemma {:induction false} SubsetNotLarger<T>(a: set<T>, b: set<T>)
    requires a <= b
    ensures |a| <= |b|
    decreases |a|
  {
    if a != {} {
      var x :| x in a;
      SubsetNotLarger(a - {x}, b - {x});
    }
  }

  predicate Distinct<T(==)>(xs: seq<T>) {
    forall i, j :: 0 <= i < j < |xs| ==> xs[i] != xs[j]
  }

  /** Dropping a prefix keeps a sequence free of duplicates. */
  lemma DistinctSuffix<T>(xs: seq<T>, k: nat)
    requires k <= |xs| && Distinct(xs)
    ensures Distinct(xs[k..])
  {
    var ys := xs[k..];
    forall i, j | 0 <= i < j < |ys|
      ensures ys[i] != ys[j]
    {
      assert ys[i] == xs[k + i] && ys[j] == xs[k + j];
    }
  }

  /** Filtering keeps a sequence free of duplicates. */
  lemma {:induction false} FilterDistinct<T>(xs: seq<T>, p: T -> bool)
    requires Distinct(xs)
    ensures Distinct(Filter(xs, p))
    decreases |xs|
  {
    if |xs| > 0 {
      var init, x := xs[..|xs| - 1], xs[|xs| - 1];
      FilterDistinct(init, p);
      assert x !in init;
    }
  }

  lemma {:induction false} FilterAll<T>(xs: seq<T>, p: T -> bool)
    requires forall x :: x in xs ==> p(x)
    ensures Filter(xs, p) == xs
    decreases |xs|
  {
    if |xs| > 0 {
      FilterAll(xs[..|xs| - 1], p);
    }
  }

  /** Filtering keeps the relative order of the elements it keeps. */
  lemma {:induction false} FilterKeepsOrder<T>(xs: seq<T>, p: T -> bool, i: nat, j: nat, a: nat, b: nat)
    requires Distinct(xs)
    requires i < j < |xs|
    requires a < |Filter(xs, p)| && b < |Filter(xs, p)|
    requires Filter(xs, p)[a] == xs[i] && Filter(xs, p)[b] == xs[j]
    ensures a < b
    decreases |xs|
  {
    var init, x := xs[..|xs| - 1], xs[|xs| - 1];
    var f := Filter(init, p);
    FilterDistinct(xs, p);
    FilterDistinct(init, p);
    assert xs[i] != x;
    if p(x) {
      assert Filter(xs, p) == f + [x];
      if j == |xs| - 1 {
        assert b == |f|;
      } else {
        assert xs[j] != x;
        FilterKeepsOrder(init, p, i, j, a, b);
      }
    } else {
      FilterKeepsOrder(init, p, i, j, a, b);
    }
  }

  function NotEq<T(==)>(y: T): T -> bool {
    x => x != y
  }

  /** Removing the first element of a duplicate-free sequence by value drops
      exactly that position. */
  lemma {:induction false} FilterOutHead<T>(xs: seq<T>)
    requires Distinct(xs) && |xs| > 0
    ensures Filter(xs, NotEq(xs[0])) == xs[1..]
    decreases |xs|
  {
    if |xs| > 1 {
      var init := xs[..|xs| - 1];
      FilterOutHead(init);
      assert init[1..] + [xs[|xs| - 1]] == xs[1..];
    } else {
      assert Filter(xs[..0], NotEq(xs[0])) == [];
    }
  }

  /** `a` is what remains of `b` after dropping some of its first elements. */
  predicate IsSuffix<T(==)>(a: seq<T>, b: seq<T>) {
    |a| <= |b| && a == b[|b| - |a|..]
  }

  /** Dropping the first elements of a filtered sequence keeps everything
      that comes later than an element it keeps. */
  lemma SuffixOfFilterKeepsLater<T>(xs: seq<T>, p: T -> bool, kept: seq<T>, i: nat, j: nat)
    requires Distinct(xs) && IsSuffix(kept, Filter(xs, p))
    requires i < j < |xs| && xs[i] in kept && p(xs[j])
    ensures xs[j] in kept
  {
    var f := Filter(xs, p);
    var k := |f| - |kept|;
    assert kept == f[k..];
    var a :| 0 <= a < |kept| && kept[a] == xs[i];
    assert f[k + a] == xs[i];
    assert xs[j] in xs;
    var b :| 0 <= b < |f| && f[b] == xs[j];
    FilterKeepsOrder(xs, p, i, j, k + a, b);
    assert 0 <= b - k < |kept| && kept[b - k] == f[b];
  }

  /** Number of elements satisfying `p`. */
  function Count<T>(xs: seq<T>, p: T -> bool): nat {
    |Filter(xs, p)|
  }

  /** `Count` is positive exactly when some element qualifies. */
  lemma CountPositive<T>(xs: seq<T>, p: T -> bool)
    ensures Count(xs, p) > 0 <==> exists j :: 0 <= j < |xs| && p(xs[j])
  {
    if Count(xs, p) > 0 {
      var f := Filter(xs, p);
      assert f[0] in f;
    }
  }

  /** When every element satisfies exactly one of three conditions, their
      counts add up to the length. */
  lemma {:induction false} CountThree<T>(xs: seq<T>, p: T -> bool, q: T -> bool, r: T -> bool)
    requires forall x :: x in xs ==>
      (p(x) && !q(x) && !r(x)) || (!p(x) && q(x) && !r(x)) || (!p(x) && !q(x) && r(x))
    ensures Count(xs, p) + Count(xs, q) + Count(xs, r) == |xs|
    decreases |xs|
  {
    if |xs| > 0 {
      CountThree(xs[..|xs| - 1], p, q, r);
    }
  }

  /** A weaker condition never counts fewer elements. */
  lemma {:induction false} CountMono<T>(xs: seq<T>, p: T -> bool, q: T -> bool)
    requires forall x :: p(x) ==> q(x)
    ensures Count(xs, p) <= Count(xs, q)
    decreases |xs|
  {
    if |xs| > 0 {
      CountMono(xs[..|xs| - 1], p, q);
    }
  }

  /** `a` is obtained from `b` by deleting elements: no reordering, no duplication. */
  predicate IsSubsequence<T(==)>(a: seq<T>, b: seq<T>)
    decreases |b|
  {
    if |a| == 0 then true
    else if |b| == 0 then false
    else if a[0] == b[0] then IsSubsequence(a[1..], b[1..])
    else IsSubsequence(a, b[1..])
  }

  lemma {:induction false} SubsequenceRefl<T>(a: seq<T>)
    ensures IsSubsequence(a, a)
    decreases |a|
  {
    if |a| > 0 {
      SubsequenceRefl(a[1..]);
    }
  }

  lemma {:induction false} SubsequenceSnoc<T>(a: seq<T>, b: seq<T>, x: T)
    requires IsSubsequence(a, b)
    ensures IsSubsequence(a, b + [x])
    ensures IsSubsequence(a + [x], b + [x])
    decreases |b|
  {
    if |a| == 0 {
      if |b| == 0 {
        assert ([] + [x])[1..] == [];
      } else {
        assert (b + [x])[1..] == b[1..] + [x];
        SubsequenceSnoc(a, b[1..], x);
      }
    } else {
      assert (b + [x])[1..] == b[1..] + [x];
      assert (a + [x])[1..] == a[1..] + [x];
      if a[0] == b[0] {
        SubsequenceSnoc(a[1..], b[1..], x);
      } else {
        SubsequenceSnoc(a, b[1..], x);
      }
    }
  }

  lemma {:induction false} FilterIsSubsequence<T>(xs: seq<T>, p: T -> bool)
    ensures IsSubsequence(Filter(xs, p), xs)
    decreases |xs|
  {
    if |xs| > 0 {
      var init := xs[..|xs| - 1];
      FilterIsSubsequence(init, p);
      SubsequenceSnoc(Filter(init, p), init, xs[|xs| - 1]);
      assert init + [xs[|xs| - 1]] == xs;
    }
  }

  /** A count depends only on the multiset of elements counted. */
  lemma {:induction false} CountPerm<T>(a: seq<T>, b: seq<T>, p: T -> bool)
    requires multiset(a) == multiset(b)
    ensures Count(a, p) == Count(b, p)
    decreases |a|
  {
    if |a| == 0 {
      assert |b| == |multiset(b)| == 0;
    } else {
      var init, x := a[..|a| - 1], a[|a| - 1];
      assert a == init + [x];
      assert x in multiset(b);
      var j :| 0 <= j < |b| && b[j] == x;
      var b' := RemoveAt(b, j);
      CountPerm(init, b', p);
      CountRemoveAt(b, j, p);
      FilterAppend(init, [x], p);
    }
  }

  /** `b` without its `j`-th element, which the multiset of `b` then lacks. */
  function RemoveAt<T>(b: seq<T>, j: nat): (r: seq<T>)
    requires j < |b|
    ensures multiset(r) == multiset(b) - multiset{b[j]}
  {
    assert b == b[..j] + [b[j]] + b[j + 1..];
    b[..j] + b[j + 1..]
  }

  lemma CountRemoveAt<T>(b: seq<T>, j: nat, p: T -> bool)
    requires j < |b|
    ensures Count(b, p) == Count(RemoveAt(b, j), p) + (if p(b[j]) then 1 else 0)
  {
    assert b == b[..j] + [b[j]] + b[j + 1..];
    FilterAppend(b[..j], [b[j]], p);
    FilterAppend(b[..j] + [b[j]], b[j + 1..], p);
    FilterAppend(b[..j], b[j + 1..], p);
    assert Filter([b[j]], p) == if p(b[j]) then [b[j]] else [] by {
      assert [b[j]][..0] == [];
    }
  }

  /** `r` is exactly what a comprehension `[x for x in xs if p(x)]` keeps:
      every copy of every qualifying element, in order, and nothing else
      (a subsequence holds nothing from outside `xs`). */
  predicate FilteredFrom<T(==)>(r: seq<T>, xs: seq<T>, p: T -> bool) {
    && IsSubsequence(r, xs)
    && forall x :: x in xs ==> multiset(r)[x] == if p(x) then multiset(xs)[x] else 0
  }

  lemma {:induction false} FilterExact<T>(xs: seq<T>, p: T -> bool)
    ensures FilteredFrom(Filter(xs, p), xs, p)
    decreases |xs|
  {
    FilterIsSubsequence(xs, p);
    if |xs| > 0 {
      var init, x := xs[..|xs| - 1], xs[|xs| - 1];
      FilterExact(init, p);
      assert xs == init + [x];
      assert multiset(xs) == multiset(init) + multiset{x};
    }
  }

  function SumInt(xs: seq<int>): int
    decreases |xs|
  {
    if |xs| == 0 then 0 else SumInt(xs[..|xs| - 1]) + xs[|xs| - 1]
  }

  function SumReal(xs: seq<real>): real
    decreases |xs|
  {
    if |xs| == 0 then 0.0 else SumReal(xs[..|xs| - 1]) + xs[|xs| - 1]
  }

  lemma {:induction false} SumRealBounds(xs: seq<real>, lo: real, hi: real)
    requires forall i :: 0 <= i < |xs| ==> lo <= xs[i] <= hi
    ensures |xs| as real * lo <= SumReal(xs) <= |xs| as real * hi
    decreases |xs|
  {
    if |xs| > 0 {
      var n := (|xs| - 1) as real;
      SumRealBounds(xs[..|xs| - 1], lo, hi);
      assert |xs| as real * hi == n * hi + hi;
      assert |xs| as real * lo == n * lo + lo;
    }
  }

  /** Python's `xs[:k]` for an int `k`: a negative `k` counts from the end. */
  function PyTake<T>(xs: seq<T>, k: int): (r: seq<T>)
    ensures k >= 0 ==> |r| == if k < |xs| then k else |xs|
    ensures k < 0 ==> |r| == if |xs| + k > 0 then |xs| + k else 0
    ensures r == xs[..|r|]
  {
    if k >= 0 then (if k < |xs| then xs[..k] else xs)
    else if |xs| + k > 0 then xs[..|xs| + k]
    else []
  }

  function Max(a: int, b: int): int {
    if a >= b then a else b
  }

  function Min(a: int, b: int): int {
    if a <= b then a else b
  }

  function MaxReal(a: real, b: real): real {
    if a >= b then a else b
  }

  function MinReal(a: real, b: real): real {
    if a <= b then a else b
  }

  /** The largest element of a non-empty sequence. */
  function MaxOf(xs: seq<int>): (m: int)
    requires |xs| > 0
    ensures forall i :: 0 <= i < |xs| ==> xs[i] <= m
    ensures exists i :: 0 <= i < |xs| && xs[i] == m
    decreases |xs|
  {
    if |xs| == 1 then xs[0]
    else
      var m := MaxOf(xs[..|xs| - 1]);
      assert forall i :: 0 <= i < |xs| - 1 ==> xs[..|xs| - 1][i] == xs[i];
      Max(m, xs[|xs| - 1])
  }

  /** The stores' id allocation: one more than the largest id, 1 for none. */
  function NextFreeId(ids: seq<int>): (r: int)
    ensures |ids| == 0 ==> r == 1
    ensures forall i :: 0 <= i < |ids| ==> ids[i] < r
    ensures |ids| > 0 ==> exists i :: 0 <= i < |ids| && ids[i] == r - 1
  {
    if |ids| == 0 then 1 else MaxOf(ids) + 1
  }

  lemma {:induction false} SumIntBounds(xs: seq<int>, lo: int, hi: int)
    requires forall i :: 0 <= i < |xs| ==> lo <= xs[i] <= hi
    ensures |xs| * lo <= SumInt(xs) <= |xs| * hi
    decreases |xs|
  {
    if |xs| > 0 {
      var n := |xs| - 1;
      SumIntBounds(xs[..n], lo, hi);
      assert |xs| * hi == n * hi + hi;
      assert |xs| * lo == n * lo + lo;
    }
  }

  /** `s / n` as a real. */
  function Quotient(s: int, n: int): (q: real)
    requires n > 0
    ensures q * n as real == s as real
  {
    s as real / n as real
  }

  /** A mean of values within `[lo, hi]` lies within `[lo, hi]`. */
  lemma MeanBounds(s: int, n: int, lo: int, hi: int)
    requires n > 0 && n * lo <= s <= n * hi
    ensures lo as real <= s as real / n as real <= hi as real
  {
    var m := s as real / n as real;
    assert m * n as real == s as real;
    assert (n * lo) as real == n as real * lo as real;
    assert (n * hi) as real == n as real * hi as real;
  }

  /** Filtering twice is filtering once by both conditions. */
  lemma {:induction false} FilterFilter<T>(xs: seq<T>, p: T -> bool, q: T -> bool, pq: T -> bool)
    requires forall x :: pq(x) == (p(x) && q(x))
    ensures Filter(Filter(xs, p), q) == Filter(xs, pq)
    decreases |xs|
  {
    if |xs| > 0 {
      FilterFilter(xs[..|xs| - 1], p, q, pq);
    }
  }

  /** `list(dict.fromkeys(xs))`: the first occurrence of each element. */
  function Dedup<T(==,!new)>(xs: seq<T>): (r: seq<T>)
    ensures Distinct(r)
    ensures forall x :: x in r <==> x in xs
    decreases |xs|
  {
    if |xs| == 0 then []
    else
      var init := Dedup(xs[..|xs| - 1]);
      var x := xs[|xs| - 1];
      assert forall y :: y in xs <==> y in xs[..|xs| - 1] || y == x;
      if x in init then init else init + [x]
  }

  /** An element occurring at two positions occurs twice in the multiset. */
  lemma TwiceInMultiset<T>(ys: seq<T>, i: nat, j: nat)
    requires i < j < |ys| && ys[i] == ys[j]
    ensures multiset(ys)[ys[i]] >= 2
  {
    assert ys == ys[..j] + [ys[j]] + ys[j + 1..];
    assert ys[i] in ys[..j];
  }

  /** An element of a sequence without duplicates occurs once. */
  lemma {:induction false} DistinctOnce<T>(xs: seq<T>, x: T)
    requires Distinct(xs)
    ensures multiset(xs)[x] <= 1
    decreases |xs|
  {
    if |xs| > 0 {
      var init := xs[..|xs| - 1];
      assert xs == init + [xs[|xs| - 1]];
      DistinctOnce(init, x);
      if x == xs[|xs| - 1] {
        assert x !in init;
      }
    }
  }

  /** A permutation of a sequence without duplicates has none either. */
  lemma DistinctPerm<T>(xs: seq<T>, ys: seq<T>)
    requires Distinct(xs) && multiset(xs) == multiset(ys)
    ensures Distinct(ys)
  {
    forall i, j | 0 <= i < j < |ys|
      ensures ys[i] != ys[j]
    {
      if ys[i] == ys[j] {
        TwiceInMultiset(ys, i, j);
        DistinctOnce(xs, ys[i]);
      }
    }
  }

  /** Entry `i` is the last entry for key `k`. */
  predicate LastAt<K(==), V>(rows: seq<(K, V)>, k: K, i: int) {
    0 <= i < |rows| && rows[i].0 == k && forall j :: i < j < |rows| ==> rows[j].0 != k
  }

  /** `{k: v for k, v in rows}.get(k, default)`: the last entry wins. */
  function LastValue<K(==), V>(rows: seq<(K, V)>, k: K, default: V): (v: V)
    ensures (forall i :: 0 <= i < |rows| ==> rows[i].0 != k) ==> v == default
    ensures forall i :: LastAt(rows, k, i) ==> v == rows[i].1
    decreases |rows|
  {
    if |rows| == 0 then default
    else if rows[|rows| - 1].0 == k then rows[|rows| - 1].1
    else
      var init := rows[..|rows| - 1];
      assert forall i :: LastAt(rows, k, i) ==> LastAt(init, k, i);
      LastValue(init, k, default)
  }

  /** `part / whole * 100`: `part` as a percentage of `whole`. */
  function Percent(part: nat, whole: nat): (p: real)
    requires 0 < whole
    ensures p * whole as real == 100.0 * part as real
    ensures part <= whole ==> 0.0 <= p <= 100.0
  {
    var q := part as real / whole as real;
    assert q * whole as real == part as real;
    assert part <= whole ==> 0.0 <= q <= 1.0 by {
      if part <= whole {
        MeanBounds(part, whole, 0, 1);
      }
    }
    q * 100.0
  }
}

=== FILE: causal_filter.dfy ===
/** `CausalFilter`: keep only the retrieved chunks that some query entity is
    causally linked to, falling back to the whole input when the filter
    would keep nothing. */
module CausalFilter {
  import opened Basics
  import opened CausalGraph

  /** The entity extractor (spaCy NER plus nouns, lower-cased): an opaque
      function of the text. `None` stands for a model that failed to load. */
  type Extractor = string -> seq<string>

  /** Some chunk entity of `cs` is linked to `q`. */
  function AnyLinked(g: Graph, q: string, cs: seq<string>): (r: bool)
    ensures r <==> exists j :: 0 <= j < |cs| && Linked(g, q, cs[j])
    decreases |cs|
  {
    if |cs| == 0 then false
    else Linked(g, q, cs[|cs| - 1]) || AnyLinked(g, q, cs[..|cs| - 1])
  }

  /** `has_causal_path`: the nested loops return at the first linked pair. */
  function HasCausalPath(g: Graph, qs: seq<string>, cs: seq<string>): (r: bool)
    ensures r <==> exists i, j :: 0 <= i < |qs| && 0 <= j < |cs| && Linked(g, qs[i], cs[j])
    decreases |qs|
  {
    if |qs| == 0 then false
    else AnyLinked(g, qs[|qs| - 1], cs) || HasCausalPath(g, qs[..|qs| - 1], cs)
  }

  /** The test does not depend on which list holds the query entities. */
  lemma HasCausalPathSymmetric(g: Graph, qs: seq<string>, cs: seq<string>)
    ensures HasCausalPath(g, qs, cs) == HasCausalPath(g, cs, qs)
  {
    if HasCausalPath(g, qs, cs) {
      var i, j :| 0 <= i < |qs| && 0 <= j < |cs| && Linked(g, qs[i], cs[j]);
      LinkedSymmetric(g, qs[i], cs[j]);
    }
    if HasCausalPath(g, cs, qs) {
      var j, i :| 0 <= j < |cs| && 0 <= i < |qs| && Linked(g, cs[j], qs[i]);
      LinkedSymmetric(g, cs[j], qs[i]);
    }
  }

  /** Adding nodes or edges to the graph never turns a path test false. */
  lemma HasCausalPathMono(g: Graph, h: Graph, qs: seq<string>, cs: seq<string>)
    requires SubGraph(g, h)
    requires HasCausalPath(g, qs, cs)
    ensures HasCausalPath(h, qs, cs)
  {
    var i, j :| 0 <= i < |qs| && 0 <= j < |cs| && Linked(g, qs[i], cs[j]);
    LinkedMono(g, h, qs[i], cs[j]);
  }

  function Relevant(g: Graph, qs: seq<string>, ents: Extractor): string -> bool {
    c => HasCausalPath(g, qs, ents(c))
  }

  /** Whether the filter runs at all: the graph has nodes, the extractor is
      loaded and the query yields at least one entity. */
  predicate Active(g: Graph, nlp: Option<Extractor>, query: string) {
    |g.nodes| > 0 && nlp.Some? && |nlp.value(query)| > 0
  }

  /** `filter_chunks`. */
  function FilterChunks(g: Graph, nlp: Option<Extractor>, query: string, chunks: seq<string>): (r: seq<string>)
    ensures IsSubsequence(r, chunks)
    ensures |r| == 0 <==> |chunks| == 0
    ensures !Active(g, nlp, query) ==> r == chunks
    ensures Active(g, nlp, query) && (exists j :: 0 <= j < |chunks| && Relevant(g, nlp.value(query), nlp.value)(chunks[j])) ==>
      forall c :: c in r <==> c in chunks && HasCausalPath(g, nlp.value(query), nlp.value(c))
    ensures Active(g, nlp, query) && (exists j :: 0 <= j < |chunks| && Relevant(g, nlp.value(query), nlp.value)(chunks[j])) ==>
      FilteredFrom(r, chunks, Relevant(g, nlp.value(query), nlp.value))
    ensures Active(g, nlp, query) && (forall j :: 0 <= j < |chunks| ==> !Relevant(g, nlp.value(query), nlp.value)(chunks[j])) ==> r == chunks
  {
    if |g.nodes| == 0 || nlp.None? then
      SubsequenceRefl(chunks);
      chunks
    else
      var qs := nlp.value(query);
      if |qs| == 0 then
        SubsequenceRefl(chunks);
        chunks
      else
        var p := Relevant(g, qs, nlp.value);
        var relevant := Filter(chunks, p);
        CountPositive(chunks, p);
        if |relevant| > 0 then
          FilterIsSubsequence(chunks, p);
          FilterExact(chunks, p);
          relevant
        else
          SubsequenceRefl(chunks);
          chunks
  }
}

=== FILE: causal_graph.dfy ===
/** The causal knowledge graph shared by `CausalService` and `CausalFilter`:
    a directed graph (a networkx `DiGraph`) whose nodes are lower-cased entity
    names and whose edges carry a `mechanism` label. */
module CausalGraph {
  import opened Basics
  import opened Text

  datatype Graph = Graph(nodes: set<string>, mechanism: map<(string, string), string>) {
    /** Both endpoints of every edge are nodes. */
    predicate Valid() {
      forall e :: e in mechanism ==> e.0 in nodes && e.1 in nodes
    }
  }

  const Empty: Graph := Graph({}, map[])

  /** `p` is a walk along edges of `g` (a single node is a walk of length 0). */
  ghost predicate IsPath(g: Graph, p: seq<string>) {
    && |p| >= 1
    && (forall i :: 0 <= i < |p| ==> p[i] in g.nodes)
    && (forall i :: 0 <= i < |p| - 1 ==> (p[i], p[i + 1]) in g.mechanism)
  }

  /** Directed reachability, the meaning of `nx.has_path(g, a, b)`. */
  ghost predicate Reaches(g: Graph, a: string, b: string) {
    exists p :: IsPath(g, p) && p[0] == a && p[|p| - 1] == b
  }

  /** One breadth step: the nodes at the head of an edge leaving `r`. */
  function Successors(g: Graph, r: set<string>): set<string> {
    set e | e in g.mechanism && e.0 in r && e.1 in g.nodes :: e.1
  }

  /** The least superset of `r` closed under edges: what a graph search from
      `r` visits. */
  function Closure(g: Graph, r: set<string>): (c: set<string>)
    requires r <= g.nodes
    ensures r <= c <= g.nodes
    ensures forall e :: e in g.mechanism && e.0 in c && e.1 in g.nodes ==> e.1 in c
    decreases |g.nodes - r|
  {
    var next := r + Successors(g, r);
    if next == r then r
    else
      ProperSubsetSmaller(g.nodes - next, g.nodes - r);
      Closure(g, next)
  }

  /** `nx.has_path(g, a, b)` for a node `a`. */
  function HasPath(g: Graph, a: string, b: string): bool
    requires a in g.nodes
  {
    b in Closure(g, {a})
  }

  lemma ReachesStep(g: Graph, a: string, x: string, y: string)
    requires Reaches(g, a, x)
    requires (x, y) in g.mechanism && y in g.nodes
    ensures Reaches(g, a, y)
  {
    var p :| IsPath(g, p) && p[0] == a && p[|p| - 1] == x;
    var q := p + [y];
    assert IsPath(g, q) && q[0] == a && q[|q| - 1] == y;
  }

  /** Everything the search visits is reachable. */
  lemma {:induction false} ClosureSound(g: Graph, a: string, r: set<string>)
    requires r <= g.nodes
    requires forall x :: x in r ==> Reaches(g, a, x)
    ensures forall x :: x in Closure(g, r) ==> Reaches(g, a, x)
    decreases |g.nodes - r|
  {
    var next := r + Successors(g, r);
    if next != r {
      forall y | y in next
        ensures Reaches(g, a, y)
      {
        if y !in r {
          var e :| e in g.mechanism && e.0 in r && e.1 in g.nodes && e.1 == y;
          ReachesStep(g, a, e.0, y);
        }
      }
      ProperSubsetSmaller(g.nodes - next, g.nodes - r);
      ClosureSound(g, a, next);
    }
  }

  /** A walk that starts in an edge-closed set never leaves it. */
  lemma {:induction false} PathStaysClosed(g: Graph, c: set<string>, p: seq<string>)
    requires forall e :: e in g.mechanism && e.0 in c && e.1 in g.nodes ==> e.1 in c
    requires IsPath(g, p) && p[0] in c
    ensures p[|p| - 1] in c
    decreases |p|
  {
    if |p| > 1 {
      var q := p[..|p| - 1];
      assert IsPath(g, q);
      PathStaysClosed(g, c, q);
      assert (p[|p| - 2], p[|p| - 1]) in g.mechanism;
    }
  }

  /** The executable search decides reachability exactly. */
  lemma HasPathIff(g: Graph, a: string, b: string)
    requires a in g.nodes
    ensures HasPath(g, a, b) <==> Reaches(g, a, b)
  {
    assert IsPath(g, [a]);
    ClosureSound(g, a, {a});
    if Reaches(g, a, b) {
      var p :| IsPath(g, p) && p[0] == a && p[|p| - 1] == b;
      PathStaysClosed(g, Closure(g, {a}), p);
    }
  }

  /** `g` is contained in `h`: every node and every edge of `g` is in `h`. */
  predicate SubGraph(g: Graph, h: Graph) {
    g.nodes <= h.nodes && g.mechanism.Keys <= h.mechanism.Keys
  }

  lemma ReachesMono(g: Graph, h: Graph, a: string, b: string)
    requires SubGraph(g, h)
    requires Reaches(g, a, b)
    ensures Reaches(h, a, b)
  {
    var p :| IsPath(g, p) && p[0] == a && p[|p| - 1] == b;
    assert IsPath(h, p);
  }

  /** The relation both services test for a pair of entities: both are nodes
      and a directed path joins them in one direction or the other. */
  function Linked(g: Graph, a: string, b: string): (r: bool)
    ensures r <==> a in g.nodes && b in g.nodes && (Reaches(g, a, b) || Reaches(g, b, a))
  {
    if a in g.nodes && b in g.nodes then
      HasPathIff(g, a, b);
      HasPathIff(g, b, a);
      HasPath(g, a, b) || HasPath(g, b, a)
    else false
  }

  lemma LinkedSymmetric(g: Graph, a: string, b: string)
    ensures Linked(g, a, b) == Linked(g, b, a)
  {
  }

  /** Adding nodes or edges never breaks a link. */
  lemma LinkedMono(g: Graph, h: Graph, a: string, b: string)
    requires SubGraph(g, h)
    requires Linked(g, a, b)
    ensures Linked(h, a, b)
  {
    if Reaches(g, a, b) {
      ReachesMono(g, h, a, b);
    } else {
      ReachesMono(g, h, b, a);
    }
  }

  /** `add_causal_link`: both endpoints are lower-cased; re-adding an edge
      replaces its mechanism. */
  function AddCausalLink(g: Graph, cause: string, effect: string, mechanism: string): (h: Graph)
    requires g.Valid()
    ensures h.Valid()
    ensures SubGraph(g, h)
    ensures h.nodes == g.nodes + {Lower(cause), Lower(effect)}
    ensures h.mechanism.Keys == g.mechanism.Keys + {(Lower(cause), Lower(effect))}
    ensures h.mechanism[(Lower(cause), Lower(effect))] == mechanism
    ensures Reaches(h, Lower(cause), Lower(effect))
  {
    var c, e := Lower(cause), Lower(effect);
    var h := Graph(g.nodes + {c, e}, g.mechanism[(c, e) := mechanism]);
    assert IsPath(h, [c, e]);
    h
  }
}

=== FILE: causal_service.dfy ===
/** `CausalService.verify_mechanisms`: a soft re-ranking of retrieved chunks
    by how many (query entity, chunk entity) pairs the causal graph links,
    keeping the best three. Nothing is filtered out. */
module CausalService {
  import opened Basics
  import opened Sorting
  import opened CausalGraph
  import opened CausalFilter

  /** Number of chunk entities of `cs` linked to `q`. */
  function LinkCount(g: Graph, q: string, cs: seq<string>): nat {
    Count(cs, c => Linked(g, q, c))
  }

  /** The score of a chunk: every linked (query entity, chunk entity) pair
      adds one, repetitions included. */
  function Score(g: Graph, qs: seq<string>, cs: seq<string>): (s: nat)
    ensures s <= |qs| * |cs|
    decreases |qs|
  {
    if |qs| == 0 then 0
    else
      var n := |qs| - 1;
      assert |qs| * |cs| == n * |cs| + |cs|;
      Score(g, qs[..n], cs) + LinkCount(g, qs[n], cs)
  }

  /** A chunk scores above zero exactly when the filter's path test holds. */
  lemma {:induction false} ScorePositive(g: Graph, qs: seq<string>, cs: seq<string>)
    ensures Score(g, qs, cs) > 0 <==> HasCausalPath(g, qs, cs)
    decreases |qs|
  {
    if |qs| > 0 {
      var n := |qs| - 1;
      ScorePositive(g, qs[..n], cs);
      CountPositive(cs, c => Linked(g, qs[n], c));
    }
  }

  /** Adding nodes or edges never lowers a score. */
  lemma {:induction false} ScoreMono(g: Graph, h: Graph, qs: seq<string>, cs: seq<string>)
    requires SubGraph(g, h)
    ensures Score(g, qs, cs) <= Score(h, qs, cs)
    decreases |qs|
  {
    if |qs| > 0 {
      var n := |qs| - 1;
      ScoreMono(g, h, qs[..n], cs);
      forall c | Linked(g, qs[n], c)
        ensures Linked(h, qs[n], c)
      {
        LinkedMono(g, h, qs[n], c);
      }
      CountMono(cs, c => Linked(g, qs[n], c), c => Linked(h, qs[n], c));
    }
  }

  /** The sort key of a chunk for a given list of query entities. */
  function ScoreOf(g: Graph, qs: seq<string>, ents: Extractor): string -> int {
    c => Score(g, qs, ents(c))
  }

  /** Best first; `sort(key=score, reverse=True)` keeps ties in input order. */
  function RankOrder(g: Graph, qs: seq<string>, ents: Extractor): (le: (string, string) -> bool)
    ensures TotalPreorder(le)
  {
    ByKeyIsPreorder(ScoreOf(g, qs, ents));
    ByKeyDesc(ScoreOf(g, qs, ents))
  }

  /** All chunks in ranking order. */
  function Ranked(g: Graph, qs: seq<string>, ents: Extractor, chunks: seq<string>): seq<string> {
    SortBy(chunks, RankOrder(g, qs, ents))
  }

  /** Whether the ranking runs: the extractor is loaded and the query has
      entities. Otherwise the first three chunks come back as they are. */
  predicate Ranks(nlp: Option<Extractor>, query: string) {
    nlp.Some? && |nlp.value(query)| > 0
  }

  /** `verify_mechanisms`. Sorting the chunks by their score is the same as
      sorting the (chunk, score) pairs by the score and then projecting, since
      the score is a function of the chunk text. */
  function VerifyMechanisms(g: Graph, nlp: Option<Extractor>, query: string, chunks: seq<string>): (r: seq<string>)
    ensures |r| == Min(3, |chunks|)
    ensures multiset(r) <= multiset(chunks)
    ensures |chunks| <= 3 ==> multiset(r) == multiset(chunks)
    ensures !Ranks(nlp, query) ==> r == chunks[..|r|]
    ensures Ranks(nlp, query) ==> SortedBy(r, RankOrder(g, nlp.value(query), nlp.value))
  {
    var k := Min(3, |chunks|);
    if nlp.None? || |nlp.value(query)| == 0 then
      PrefixMultiset(chunks, k);
      PyTake(chunks, 3)
    else
      var s := Ranked(g, nlp.value(query), nlp.value, chunks);
      PrefixMultiset(s, k);
      SortedPrefix(s, RankOrder(g, nlp.value(query), nlp.value), k);
      PyTake(s, 3)
  }

  /** The result is the head of the ranking. */
  lemma VerifyMechanismsIsHead(g: Graph, nlp: Option<Extractor>, query: string, chunks: seq<string>)
    requires Ranks(nlp, query)
    ensures var s := Ranked(g, nlp.value(query), nlp.value, chunks);
      VerifyMechanisms(g, nlp, query, chunks) == s[..Min(3, |chunks|)]
  {
  }

  /** Top three: any chunk left out scores no higher than any chunk kept. */
  lemma KeptOutscoreDropped(g: Graph, nlp: Option<Extractor>, query: string, chunks: seq<string>, c: string)
    requires Ranks(nlp, query)
    requires c in chunks && c !in VerifyMechanisms(g, nlp, query, chunks)
    ensures var key := ScoreOf(g, nlp.value(query), nlp.value);
      forall x :: x in VerifyMechanisms(g, nlp, query, chunks) ==> key(x) >= key(c)
  {
    var qs, ents := nlp.value(query), nlp.value;
    var s := Ranked(g, qs, ents, chunks);
    var r := VerifyMechanisms(g, nlp, query, chunks);
    VerifyMechanismsIsHead(g, nlp, query, chunks);
    assert c in multiset(s);
    var j :| 0 <= j < |s| && s[j] == c;
    assert j >= |r|;
    forall x | x in r
      ensures ScoreOf(g, qs, ents)(x) >= ScoreOf(g, qs, ents)(c)
    {
      var i :| 0 <= i < |r| && r[i] == x;
      assert RankOrder(g, qs, ents)(s[i], s[j]);
    }
  }

  /** Ties keep input order: among chunks ranked equal to `e`, the result
      holds a prefix of them in their input order. */
  lemma VerifyMechanismsStable(g: Graph, nlp: Option<Extractor>, query: string, chunks: seq<string>, e: string)
    requires Ranks(nlp, query)
    ensures var p := EquivTo(RankOrder(g, nlp.value(query), nlp.value), e);
      var f := Filter(chunks, p);
      var fr := Filter(VerifyMechanisms(g, nlp, query, chunks), p);
      |fr| <= |f| && fr == f[..|fr|]
  {
    var le := RankOrder(g, nlp.value(query), nlp.value);
    var p := EquivTo(le, e);
    var s := Ranked(g, nlp.value(query), nlp.value, chunks);
    var k := Min(3, |chunks|);
    VerifyMechanismsIsHead(g, nlp, query, chunks);
    SortStable(chunks, le, e);
    FilterPrefix(s, k, p);
  }
}

=== FILE: conversation_tree.dfy ===
/** The conversation tree kept by `StateManager`: every message row carries a
    unique `node_id` and an optional `parent_id`, so the rows form a
    parent-pointer forest. The context handed to the language model is the
    path from a node up to its root, read root first, with coarse-grained
    (summarised) nodes contributing their summary instead of their text. */
module ConversationTree {
  import opened Basics

  type NodeId = string

  /** A row of the `messages` table; `row` is the autoincrement primary key. */
  datatype Message = Message(
    row: nat,
    session: string,
    nodeId: NodeId,
    parent: Option<NodeId>,
    role: string,
    content: string,
    tokens: int,
    summary: Option<string>,
    similarity: real)

  /** The table, keyed by `node_id`; `nextRow` is the next autoincrement value. */
  datatype Store = Store(msgs: map<NodeId, Message>, nextRow: nat)

  /** One `{"role": ..., "content": ...}` context entry. */
  datatype Entry = Entry(role: string, content: string)

  /** Where the `while curr_id` walk stops after a message with this parent. */
  predicate Stops(st: Store, p: Option<NodeId>) {
    !Truthy(p) || p.value !in st.msgs
  }

  /** The number of rows the walk from `id` visits, when it stops within
      `fuel` parent steps; `None` when it needs more. */
  function Depth(st: Store, id: NodeId, fuel: nat): Option<nat>
    decreases fuel
  {
    if id == "" || id !in st.msgs then Some(0)
    else if Stops(st, st.msgs[id].parent) then Some(1)
    else if fuel == 0 then None
    else match Depth(st, st.msgs[id].parent.value, fuel - 1)
      case None => None
      case Some(d) => Some(d + 1)
  }

  /** The walk from `id` stops after some number of parent steps. */
  ghost predicate Finite(st: Store, id: NodeId) {
    exists fuel: nat :: Depth(st, id, fuel).Some?
  }

  /** Rows are keyed by their own node id, and following parent links from
      any row stops: the links form no cycle. A walk that stops visits each
      row at most once (`FuelEnough`), so as many steps as there are rows
      always suffice. Nothing orders parents before children, since a row
      may name as its parent a node id that is inserted only later. The
      source keeps no visited set, so on a cycle its walk would not
      terminate. */
  predicate Valid(st: Store) {
    && (forall k :: k in st.msgs ==> st.msgs[k].nodeId == k)
    && (forall k {:trigger Depth(st, k, |st.msgs|)} :: k in st.msgs ==> Depth(st, k, |st.msgs|).Some?)
  }

  /** More fuel never changes a depth that was already found. */
  lemma {:induction false} DepthMono(st: Store, id: NodeId, f: nat, g: nat)
    requires f <= g && Depth(st, id, f).Some?
    ensures Depth(st, id, g) == Depth(st, id, f)
    decreases f
  {
    if id != "" && id in st.msgs && !Stops(st, st.msgs[id].parent) {
      DepthMono(st, st.msgs[id].parent.value, f - 1, g - 1);
    }
  }

  /** The rows a stopping walk visits: as many as its depth, each with a
      depth no greater. Since a row's depth is unique, no row is visited
      twice. */
  lemma {:induction false} Visited(st: Store, id: NodeId, f: nat) returns (rows: set<NodeId>)
    requires Depth(st, id, f).Some?
    ensures rows <= st.msgs.Keys
    ensures |rows| == Depth(st, id, f).value
    ensures forall x :: x in rows ==> Depth(st, x, f).Some? && Depth(st, x, f).value <= Depth(st, id, f).value
    decreases f
  {
    if id == "" || id !in st.msgs {
      rows := {};
    } else if Stops(st, st.msgs[id].parent) {
      rows := {id};
    } else {
      var p := st.msgs[id].parent.value;
      var d := Depth(st, id, f).value;
      var above := Visited(st, p, f - 1);
      forall x | x in above
        ensures Depth(st, x, f).Some? && Depth(st, x, f).value <= d - 1
      {
        DepthMono(st, x, f - 1, f);
      }
      assert id !in above;
      rows := above + {id};
    }
  }

  /** A walk of depth d needs only d - 1 parent steps. */
  lemma {:induction false} LeastFuel(st: Store, id: NodeId, f: nat)
    requires Depth(st, id, f).Some? && Depth(st, id, f).value > 0
    ensures Depth(st, id, Depth(st, id, f).value - 1) == Depth(st, id, f)
    decreases f
  {
    if !Stops(st, st.msgs[id].parent) {
      LeastFuel(st, st.msgs[id].parent.value, f - 1);
    }
  }

  /** Any walk that stops does so within as many steps as there are rows. */
  lemma FuelEnough(st: Store, id: NodeId, f: nat)
    requires Depth(st, id, f).Some?
    ensures Depth(st, id, |st.msgs|) == Depth(st, id, f)
  {
    var rows := Visited(st, id, f);
    SubsetNotLarger(rows, st.msgs.Keys);
    if Depth(st, id, f).value > 0 {
      LeastFuel(st, id, f);
      DepthMono(st, id, Depth(st, id, f).value - 1, |st.msgs|);
    }
  }

  /** Distance measure of the walk: the number of rows left to visit. */
  function Rank(st: Store, id: NodeId): nat
    requires Valid(st)
  {
    if id == "" || id !in st.msgs then 0 else Depth(st, id, |st.msgs|).value
  }

  /** One step up the walk lowers the rank. */
  lemma RankStep(st: Store, id: NodeId)
    requires Valid(st)
    requires id != "" && id in st.msgs && !Stops(st, st.msgs[id].parent)
    ensures Rank(st, st.msgs[id].parent.value) < Rank(st, id)
  {
    var p := st.msgs[id].parent.value;
    assert Depth(st, id, |st.msgs|).Some?;
    DepthMono(st, p, |st.msgs| - 1, |st.msgs|);
  }

  /** `a` names `b` as its parent and the walk goes on from `a` to `b`. */
  predicate Linked(st: Store, a: Message, b: Message) {
    !Stops(st, a.parent) && a.parent.value == b.nodeId
  }

  /** `w` is the path that follows parent links from `id`, stopping at a
      missing or falsy parent or at an id that is not in the table. */
  predicate IsChainFrom(st: Store, id: NodeId, w: seq<Message>) {
    && ((id == "" || id !in st.msgs) <==> |w| == 0)
    && (|w| > 0 ==> w[0] == st.msgs[id])
    && (forall i :: 0 <= i < |w| ==> w[i].nodeId in st.msgs && st.msgs[w[i].nodeId] == w[i])
    && (forall i, j {:trigger w[i], w[j]} :: 0 <= i < |w| && 0 <= j < |w| && j == i + 1 ==> Linked(st, w[i], w[j]))
    && (|w| > 0 ==> Stops(st, w[|w| - 1].parent))
  }

  /** The messages visited by the walk, leaf first. */
  function Walk(st: Store, id: NodeId): (w: seq<Message>)
    requires Valid(st)
    ensures IsChainFrom(st, id, w)
    decreases Rank(st, id)
  {
    if id == "" || id !in st.msgs then []
    else
      var m := st.msgs[id];
      if Stops(st, m.parent) then [m]
      else
        RankStep(st, id);
        var rest := Walk(st, m.parent.value);
        assert rest[0] == st.msgs[m.parent.value];
        assert IsChainFrom(st, id, [m] + rest) by {
          var w := [m] + rest;
          forall i, j | 0 <= i < |w| && 0 <= j < |w| && j == i + 1
            ensures Linked(st, w[i], w[j])
          {
            if i > 0 {
              assert w[i] == rest[i - 1] && w[j] == rest[j - 1];
            }
          }
        }
        [m] + rest
  }

  /** The parent-link path from a node is unique: any sequence satisfying
      `IsChainFrom` is the walk. */
  lemma {:induction false} ChainUnique(st: Store, id: NodeId, w: seq<Message>)
    requires Valid(st)
    requires IsChainFrom(st, id, w)
    ensures w == Walk(st, id)
    decreases |w|
  {
    if |w| > 1 {
      var m := st.msgs[id];
      assert w[0] == m && Linked(st, w[0], w[1]);
      var rest := w[1..];
      forall i, j | 0 <= i < |rest| && 0 <= j < |rest| && j == i + 1
        ensures Linked(st, rest[i], rest[j])
      {
        assert rest[i] == w[i + 1] && rest[j] == w[j + 1];
      }
      assert IsChainFrom(st, m.parent.value, rest);
      ChainUnique(st, m.parent.value, rest);
    }
  }

  /** The content a message contributes: its summary when non-empty. */
  function EntryOf(m: Message): Entry {
    Entry(m.role, if Truthy(m.summary) then m.summary.value else m.content)
  }

  /** `get_context_chain`: the entries of the walk, root first. */
  function ContextChain(st: Store, id: NodeId): (r: seq<Entry>)
    requires Valid(st)
    ensures |r| == |Walk(st, id)|
    ensures forall i :: 0 <= i < |r| ==> r[i] == EntryOf(Walk(st, id)[|r| - 1 - i])
    decreases Rank(st, id)
  {
    if id == "" || id !in st.msgs then []
    else
      var m := st.msgs[id];
      if Stops(st, m.parent) then [EntryOf(m)]
      else
        RankStep(st, id);
        ContextChain(st, m.parent.value) + [EntryOf(m)]
  }

  /** The chain ends with the requested node and starts with a root: a
      message whose parent is absent or unknown. */
  lemma ChainEnds(st: Store, id: NodeId)
    requires Valid(st)
    requires id != "" && id in st.msgs
    ensures var r := ContextChain(st, id);
      && |r| > 0
      && r[|r| - 1] == EntryOf(st.msgs[id])
      && exists k :: k in st.msgs && Stops(st, st.msgs[k].parent) && r[0] == EntryOf(st.msgs[k])
  {
    var w := Walk(st, id);
    var root := w[|w| - 1];
    assert root.nodeId in st.msgs && Stops(st, st.msgs[root.nodeId].parent);
  }

  /** The similarity score is an external model; it is only consulted when
      the parent exists. */
  type Similarity = (string, string) -> real

  /** What `create_node` leaves behind: the new table, the new node id, the
      similarity stored with it and whether coarse-graining was scheduled. */
  datatype Created = Created(store: Store, nodeId: NodeId, similarity: real, scheduled: bool)

  /** A freshly drawn uuid: non-empty, unused and referenced by nobody. */
  predicate Fresh(st: Store, id: NodeId) {
    id != "" && id !in st.msgs
    && forall k :: k in st.msgs ==> st.msgs[k].parent != Some(id)
  }

  /** Linking a new row `id` under `parent` closes no cycle: the row is not
      its own parent, and no row on the parent's chain already names `id`
      as its parent. */
  predicate ClosesNoCycle(st: Store, id: NodeId, parent: Option<NodeId>)
    requires Valid(st)
  {
    parent != Some(id)
    && (Stops(st, parent) || forall x :: x in Walk(st, parent.value) ==> x.parent != Some(id))
  }

  /** The `INSERT` of a row with a new node id: it gets the next
      autoincrement key, and the table stays valid. */
  function AddRow(st: Store, m: Message): (r: Store)
    requires Valid(st)
    requires m.nodeId != "" && m.nodeId !in st.msgs
    requires ClosesNoCycle(st, m.nodeId, m.parent)
    ensures Valid(r)
    ensures r.msgs == st.msgs[m.nodeId := m.(row := st.nextRow)]
    ensures r.nextRow == st.nextRow + 1
  {
    var id := m.nodeId;
    var r := Store(st.msgs[id := m.(row := st.nextRow)], st.nextRow + 1);
    assert Finite(r, id) by {
      if Stops(r, m.parent) {
        assert Depth(r, id, 0).Some?;
      } else {
        var p := m.parent.value;
        OldRowFinite(st, r, id, p);
        var f: nat :| Depth(r, p, f).Some?;
        assert Depth(r, id, f + 1).Some?;
      }
    }
    forall k | k in r.msgs
      ensures Depth(r, k, |r.msgs|).Some?
    {
      if k != id {
        OldRowFinite(st, r, id, k);
      }
      var f: nat :| Depth(r, k, f).Some?;
      FuelEnough(r, k, f);
    }
    r
  }

  /** After a row `newId` is added, the walk from an old row still stops:
      either the new row's own walk stops, or the old walk never reaches a
      row that names `newId`. */
  lemma OldRowFinite(st: Store, post: Store, newId: NodeId, k: NodeId)
    requires Valid(st)
    requires newId != "" && newId !in st.msgs && newId in post.msgs
    requires post.msgs == st.msgs[newId := post.msgs[newId]]
    requires k in st.msgs
    requires Finite(post, newId) || forall x :: x in Walk(st, k) ==> x.parent != Some(newId)
    ensures Finite(post, k)
    decreases Rank(st, k)
  {
    var m := st.msgs[k];
    assert post.msgs[k] == m;
    if k == "" {
      assert Depth(post, k, 0).Some?;
    } else if Stops(st, m.parent) {
      assert Walk(st, k) == [m];
      if m.parent == Some(newId) {
        assert m in Walk(st, k);
        var f: nat :| Depth(post, newId, f).Some?;
        assert Depth(post, k, f + 1).Some?;
      } else {
        assert Depth(post, k, 0).Some?;
      }
    } else {
      var p := m.parent.value;
      RankStep(st, k);
      assert Walk(st, k) == [m] + Walk(st, p);
      OldRowFinite(st, post, newId, p);
      var f: nat :| Depth(post, p, f).Some?;
      assert Depth(post, k, f + 1).Some?;
    }
  }

  /** `create_node`: stores a row under a freshly drawn uuid with its
      similarity to the parent's content (0.0 when the parent id is empty or
      unknown), and schedules coarse-graining when that similarity exceeds the
      threshold. */
  function CreateNode(st: Store, session: string, parent: Option<NodeId>, role: string,
                      content: string, tokens: int, freshId: NodeId, sim: Similarity,
                      threshold: real): (r: Created)
    requires Valid(st)
    requires Fresh(st, freshId) && parent != Some(freshId)
    ensures Valid(r.store)
    ensures r.nodeId == freshId
    ensures r.store.msgs.Keys == st.msgs.Keys + {freshId}
    ensures forall k :: k in st.msgs ==> r.store.msgs[k] == st.msgs[k]
    ensures var m := r.store.msgs[freshId];
      && m.parent == parent && m.role == role && m.content == content
      && m.session == session && m.tokens == tokens && m.summary == None
      && m.similarity == r.similarity
    ensures Stops(st, parent) ==> r.similarity == 0.0
    ensures !Stops(st, parent) ==> r.similarity == sim(content, st.msgs[parent.value].content)
    ensures r.scheduled <==> r.similarity > threshold
  {
    var similarity := if Truthy(parent) && parent.value in st.msgs
      then sim(content, st.msgs[parent.value].content) else 0.0;
    var m := Message(st.nextRow, session, freshId, parent, role, content, tokens, None, similarity);
    FreshClosesNoCycle(st, freshId, parent);
    Created(AddRow(st, m), freshId, similarity, similarity > threshold)
  }

  /** A node id nobody references cannot close a cycle. */
  lemma FreshClosesNoCycle(st: Store, id: NodeId, parent: Option<NodeId>)
    requires Valid(st) && Fresh(st, id) && parent != Some(id)
    ensures ClosesNoCycle(st, id, parent)
  {
    if !Stops(st, parent) {
      forall x | x in Walk(st, parent.value)
        ensures x.parent != Some(id)
      {
        var w := Walk(st, parent.value);
        var i :| 0 <= i < |w| && w[i] == x;
        assert st.msgs[x.nodeId] == x;
      }
    }
  }

  /** The chat endpoint's own insert of the assistant reply once the stream
      ends: the node id was drawn before streaming and already handed to the
      client, the parent is the user's node, and the similarity keeps its
      column default 0.0. */
  function InsertReply(st: Store, session: string, replyId: NodeId, userNode: NodeId,
                       content: string, tokens: int): (r: Store)
    requires Valid(st)
    requires replyId != "" && replyId !in st.msgs
    requires ClosesNoCycle(st, replyId, Some(userNode))
    ensures Valid(r)
    ensures r.msgs.Keys == st.msgs.Keys + {replyId}
    ensures forall k :: k in st.msgs ==> r.msgs[k] == st.msgs[k]
    ensures var m := r.msgs[replyId];
      && m.nodeId == replyId && m.parent == Some(userNode) && m.role == "assistant"
      && m.content == content && m.session == session && m.tokens == tokens
      && m.summary == None && m.similarity == 0.0
  {
    AddRow(st, Message(st.nextRow, session, replyId, Some(userNode), "assistant", content, tokens, None, 0.0))
  }

  /** Inserting a row changes no existing chain that does not reach a row
      naming the new id. */
  lemma {:induction false} ChainFrame(st: Store, post: Store, newId: NodeId, m: Message, id: NodeId)
    requires Valid(st) && Valid(post)
    requires newId != "" && newId !in st.msgs
    requires post.msgs == st.msgs[newId := m]
    requires id != newId
    requires forall x :: x in Walk(st, id) ==> x.parent != Some(newId)
    ensures ContextChain(post, id) == ContextChain(st, id)
    decreases Rank(st, id)
  {
    if id != "" && id in st.msgs {
      var n := st.msgs[id];
      assert post.msgs[id] == n;
      assert Walk(st, id)[0] == n;
      if !Stops(st, n.parent) {
        RankStep(st, id);
        assert Walk(st, id) == [n] + Walk(st, n.parent.value);
        ChainFrame(st, post, newId, m, n.parent.value);
      } else {
        assert Stops(post, n.parent);
      }
    }
  }

  /** Rows that named the new id as their parent before it existed now
      reach it: their chains are the new row's chain followed by what they
      had before. */
  lemma {:induction false} AdoptChain(st: Store, post: Store, newId: NodeId, m: Message, k: NodeId)
    requires Valid(st) && Valid(post)
    requires newId != "" && newId !in st.msgs
    requires post.msgs == st.msgs[newId := m]
    requires k in st.msgs
    requires exists x :: x in Walk(st, k) && x.parent == Some(newId)
    ensures ContextChain(post, k) == ContextChain(post, newId) + ContextChain(st, k)
    decreases Rank(st, k)
  {
    var n := st.msgs[k];
    assert post.msgs[k] == n;
    assert k != "";
    var x :| x in Walk(st, k) && x.parent == Some(newId);
    if Stops(st, n.parent) {
      assert n.parent == Some(newId) by {
        assert Walk(st, k) == [n];
      }
      ChainStep(post, k);
      assert ContextChain(st, k) == [EntryOf(n)];
    } else {
      var p := n.parent.value;
      assert x in Walk(st, p) by {
        assert Walk(st, k) == [n] + Walk(st, p);
      }
      RankStep(st, k);
      AdoptChain(st, post, newId, m, p);
      ChainStep(st, k);
      ChainStep(post, k);
      Regroup(ContextChain(post, k), ContextChain(post, p), ContextChain(post, newId),
              ContextChain(st, p), ContextChain(st, k), [EntryOf(n)]);
    }
  }

  /** One step of the chain: a node whose parent exists adds its own entry
      to its parent's chain. */
  lemma ChainStep(st: Store, k: NodeId)
    requires Valid(st)
    requires k != "" && k in st.msgs && !Stops(st, st.msgs[k].parent)
    ensures ContextChain(st, k) == ContextChain(st, st.msgs[k].parent.value) + [EntryOf(st.msgs[k])]
  {
  }

  /** The reply's chain is the user node's chain followed by the reply. */
  lemma ReplyChain(st: Store, session: string, replyId: NodeId, userNode: NodeId,
                   content: string, tokens: int)
    requires Valid(st)
    requires replyId != "" && replyId !in st.msgs
    requires ClosesNoCycle(st, replyId, Some(userNode))
    ensures var r := InsertReply(st, session, replyId, userNode, content, tokens);
      ContextChain(r, replyId) == ContextChain(st, userNode) + [Entry("assistant", content)]
  {
    var r := InsertReply(st, session, replyId, userNode, content, tokens);
    if !Stops(st, Some(userNode)) {
      ChainFrame(st, r, replyId, r.msgs[replyId], userNode);
    }
  }

  /** A new root node yields a one-entry chain holding its own content. */
  lemma CreateRootChain(st: Store, session: string, role: string, content: string,
                        tokens: int, freshId: NodeId, sim: Similarity, threshold: real)
    requires Valid(st)
    requires Fresh(st, freshId)
    ensures var r := CreateNode(st, session, None, role, content, tokens, freshId, sim, threshold);
      ContextChain(r.store, r.nodeId) == [Entry(role, content)]
  {
  }

  /** A new child extends its parent's chain by exactly its own entry. */
  lemma CreateChildChain(st: Store, session: string, p: NodeId, role: string, content: string,
                         tokens: int, freshId: NodeId, sim: Similarity, threshold: real)
    requires Valid(st)
    requires Fresh(st, freshId)
    requires p != "" && p in st.msgs
    ensures var r := CreateNode(st, session, Some(p), role, content, tokens, freshId, sim, threshold);
      ContextChain(r.store, r.nodeId) == ContextChain(st, p) + [Entry(role, content)]
  {
    var r := CreateNode(st, session, Some(p), role, content, tokens, freshId, sim, threshold);
    FreshClosesNoCycle(st, freshId, Some(p));
    ChainFrame(st, r.store, freshId, r.store.msgs[freshId], p);
  }

  /** `_coarse_grain_node`: record the summary of a node that has a parent.
      An unknown node or a parentless one is left alone; so is a node whose
      parent row is missing, where the source fails on `parent.content` and
      swallows the error. */
  function CoarseGrain(st: Store, id: NodeId, summary: string): (r: Store)
    requires Valid(st)
    ensures Valid(r)
    ensures r.msgs.Keys == st.msgs.Keys && r.nextRow == st.nextRow
    ensures forall k :: k in st.msgs && k != id ==> r.msgs[k] == st.msgs[k]
    ensures id in st.msgs ==> r.msgs[id] == st.msgs[id].(summary := r.msgs[id].summary)
    ensures (id !in st.msgs || Stops(st, st.msgs[id].parent)) ==> r == st
    ensures id in st.msgs && !Stops(st, st.msgs[id].parent) ==> r.msgs[id].summary == Some(summary)
  {
    if id !in st.msgs || !Truthy(st.msgs[id].parent) || st.msgs[id].parent.value !in st.msgs then st
    else
      var r := Store(st.msgs[id := st.msgs[id].(summary := Some(summary))], st.nextRow);
      assert |r.msgs| == |st.msgs| by {
        assert r.msgs.Keys == st.msgs.Keys;
      }
      forall k | k in r.msgs
        ensures Depth(r, k, |r.msgs|).Some?
      {
        SameShapeDepth(st, r, k, |st.msgs|);
      }
      r
  }

  /** Depths depend only on keys and parent links. */
  lemma {:induction false} SameShapeDepth(a: Store, b: Store, id: NodeId, fuel: nat)
    requires SameShape(a, b)
    ensures Depth(a, id, fuel) == Depth(b, id, fuel)
    decreases fuel
  {
    if id != "" && id in a.msgs && !Stops(a, a.msgs[id].parent) && fuel > 0 {
      SameShapeDepth(a, b, a.msgs[id].parent.value, fuel - 1);
    }
  }

  /** Two tables with the same rows, parents and roles. */
  predicate SameShape(a: Store, b: Store) {
    && a.msgs.Keys == b.msgs.Keys
    && forall k :: k in a.msgs ==> a.msgs[k].parent == b.msgs[k].parent && a.msgs[k].role == b.msgs[k].role
  }

  /** Two chains of the same length with the same roles. */
  predicate SameRoles(ca: seq<Entry>, cb: seq<Entry>) {
    |ca| == |cb| && forall i :: 0 <= i < |ca| ==> ca[i].role == cb[i].role
  }

  /** Tables of the same shape yield chains of the same length and the same
      roles; only contents can differ. */
  lemma {:induction false} SameShapeChain(a: Store, b: Store, id: NodeId)
    requires Valid(a) && Valid(b) && SameShape(a, b)
    ensures SameRoles(ContextChain(a, id), ContextChain(b, id))
    decreases Rank(a, id)
  {
    if id != "" && id in a.msgs {
      var m := a.msgs[id];
      if Stops(a, m.parent) {
        SameShapeLeaf(a, b, id);
      } else {
        RankStep(a, id);
        SameShapeChain(a, b, m.parent.value);
        SameShapeStep(a, b, id);
      }
    } else {
      assert ContextChain(a, id) == [] && ContextChain(b, id) == [];
    }
  }

  /** A root of one table is a root of the other, with the same role. */
  lemma SameShapeLeaf(a: Store, b: Store, id: NodeId)
    requires Valid(a) && Valid(b) && SameShape(a, b)
    requires id != "" && id in a.msgs && Stops(a, a.msgs[id].parent)
    ensures SameRoles(ContextChain(a, id), ContextChain(b, id))
  {
    var m, n := a.msgs[id], b.msgs[id];
    assert m.parent == n.parent && m.role == n.role;
    assert Stops(b, n.parent);
    assert ContextChain(a, id) == [EntryOf(m)] && ContextChain(b, id) == [EntryOf(n)];
  }

  /** One step of the walk keeps the roles aligned. */
  lemma SameShapeStep(a: Store, b: Store, id: NodeId)
    requires Valid(a) && Valid(b) && SameShape(a, b)
    requires id != "" && id in a.msgs && !Stops(a, a.msgs[id].parent)
    requires SameRoles(ContextChain(a, a.msgs[id].parent.value), ContextChain(b, a.msgs[id].parent.value))
    ensures SameRoles(ContextChain(a, id), ContextChain(b, id))
  {
    var m, n := a.msgs[id], b.msgs[id];
    assert m.parent == n.parent && m.role == n.role;
    var p := m.parent.value;
    assert !Stops(b, n.parent);
    ChainStep(a, id);
    ChainStep(b, id);
    SameRolesSnoc(ContextChain(a, p), ContextChain(b, p), EntryOf(m), EntryOf(n));
  }

  /** Appending entries with equal roles keeps two chains' roles equal. */
  lemma SameRolesSnoc(ca: seq<Entry>, cb: seq<Entry>, ea: Entry, eb: Entry)
    requires SameRoles(ca, cb) && ea.role == eb.role
    ensures SameRoles(ca + [ea], cb + [eb])
  {
    var xa, xb := ca + [ea], cb + [eb];
    forall i | 0 <= i < |xa|
      ensures xa[i].role == xb[i].role
    {
      if i < |ca| {
        assert xa[i] == ca[i] && xb[i] == cb[i];
      }
    }
  }

  /** Coarse-graining keeps every chain's length and roles, and a summarised
      leaf now contributes its summary. */
  lemma CoarseGrainChain(st: Store, id: NodeId, summary: string, x: NodeId)
    requires Valid(st)
    ensures var r := CoarseGrain(st, id, summary);
      && |ContextChain(r, x)| == |ContextChain(st, x)|
      && (forall i :: 0 <= i < |ContextChain(r, x)| ==> ContextChain(r, x)[i].role == ContextChain(st, x)[i].role)
    ensures var r := CoarseGrain(st, id, summary);
      id != "" && id in st.msgs && !Stops(st, st.msgs[id].parent) && summary != "" ==>
        ContextChain(r, id)[|ContextChain(r, id)| - 1].content == summary
  {
    CoarseGrainShape(st, id, summary);
    SameShapeChain(CoarseGrain(st, id, summary), st, x);
    if id != "" && id in st.msgs && !Stops(st, st.msgs[id].parent) && summary != "" {
      CoarseGrainLast(st, id, summary);
    }
  }

  /** Coarse-graining changes no key, parent or role. */
  lemma CoarseGrainShape(st: Store, id: NodeId, summary: string)
    requires Valid(st)
    ensures SameShape(CoarseGrain(st, id, summary), st)
  {
  }

  /** A summarised node's chain ends with its summary. */
  lemma CoarseGrainLast(st: Store, id: NodeId, summary: string)
    requires Valid(st)
    requires id != "" && id in st.msgs && !Stops(st, st.msgs[id].parent) && summary != ""
    ensures var r := CoarseGrain(st, id, summary);
      ContextChain(r, id)[|ContextChain(r, id)| - 1].content == summary
  {
    var r := CoarseGrain(st, id, summary);
    ChainEnds(r, id);
    assert r.msgs[id].summary == Some(summary);
  }
}

=== FILE: cost.dfy ===
/** The cost service: per-call pricing from the model table, the free
    models, the budget check, the model suggestion, the daily cost trend and
    the month-end projection. Costs are exact reals; the service's rounding
    to a fixed number of decimals is not part of the model. */
module Cost {
  import opened Basics
  import opened Text

  // ----- the pricing table -----

  /** Dollars per million tokens, for input and for output. */
  datatype Price = Price(input: real, output: real)

  datatype Entry = Entry(key: string, price: Price)

  /** `MODEL_PRICING`, in declaration order. */
  const PricingTable: seq<Entry> := [
    Entry("openai/gpt-4", Price(30.0, 60.0)),
    Entry("openai/gpt-4-turbo", Price(10.0, 30.0)),
    Entry("openai/gpt-4o", Price(5.0, 15.0)),
    Entry("openai/gpt-4o-mini", Price(0.15, 0.60)),
    Entry("openai/gpt-3.5-turbo", Price(0.50, 1.50)),
    Entry("anthropic/claude-3-opus", Price(15.0, 75.0)),
    Entry("anthropic/claude-3-sonnet", Price(3.0, 15.0)),
    Entry("anthropic/claude-3-haiku", Price(0.25, 1.25)),
    Entry("google/gemini-pro", Price(0.50, 1.50)),
    Entry("google/gemini-pro-1.5", Price(3.50, 10.50)),
    Entry("google/gemma-3n-e2b-it:free", Price(0.0, 0.0)),
    Entry("meta-llama/llama-3-8b-instruct:free", Price(0.0, 0.0)),
    Entry("mistralai/mistral-7b-instruct:free", Price(0.0, 0.0)),
    Entry("microsoft/phi-3-mini-128k-instruct:free", Price(0.0, 0.0)),
    Entry("qwen/qwen-2-7b-instruct:free", Price(0.0, 0.0))
  ]

  /** The conservative estimate for a model the table does not know. */
  const DefaultPrice: Price := Price(1.0, 2.0)

  predicate NonNegative(p: Price) {
    p.input >= 0.0 && p.output >= 0.0
  }

  predicate IsFree(p: Price) {
    p.input == 0.0 && p.output == 0.0
  }

  /** What a Python dict of prices guarantees: one entry per key; and every
      price is non-negative. */
  predicate WellFormed(table: seq<Entry>) {
    (forall i, j :: 0 <= i < j < |table| ==> table[i].key != table[j].key)
    && (forall i :: 0 <= i < |table| ==> NonNegative(table[i].price))
  }

  lemma PricingTableWellFormed()
    ensures WellFormed(PricingTable)
  {
    PricingKeysDistinct();
    PricingNonNegative();
  }

  /** The keys differ in length, except `gpt-4-turbo` and `gpt-4o-mini`. */
  lemma PricingKeysDistinct()
    ensures forall i, j :: 0 <= i < j < |PricingTable| ==> PricingTable[i].key != PricingTable[j].key
  {
    var lens := seq(|PricingTable|, i requires 0 <= i < |PricingTable| => |PricingTable[i].key|);
    assert lens == [12, 18, 13, 18, 20, 23, 25, 24, 17, 21, 27, 35, 34, 39, 28];
    assert PricingTable[1].key[12] != PricingTable[3].key[12];
  }

  lemma PricingNonNegative()
    ensures forall i :: 0 <= i < |PricingTable| ==> NonNegative(PricingTable[i].price)
  {
  }

  // ----- the lookup -----

  /** Position of the entry whose key is exactly `model`, or -1. */
  function KeyIndex(table: seq<Entry>, model: string): (r: int)
    ensures -1 <= r < |table|
    ensures r >= 0 ==> table[r].key == model
    ensures r == -1 <==> forall i :: 0 <= i < |table| ==> table[i].key != model
    decreases |table|
  {
    if |table| == 0 then -1
    else if table[|table| - 1].key == model then |table| - 1
    else KeyIndex(table[..|table| - 1], model)
  }

  /** The partial match: either lowercased name contains the other. */
  predicate LooseMatch(key: string, model: string) {
    Contains(Lower(model), Lower(key)) || Contains(Lower(key), Lower(model))
  }

  /** Entry `i` is the first entry in table order that matches loosely. */
  predicate FirstLooseAt(table: seq<Entry>, model: string, i: int) {
    0 <= i < |table| && LooseMatch(table[i].key, model)
    && forall j :: 0 <= j < i ==> !LooseMatch(table[j].key, model)
  }

  /** The loop over the table's keys that stops at the first partial match. */
  function FirstLoose(table: seq<Entry>, model: string): (r: int)
    ensures r == -1 || FirstLooseAt(table, model, r)
    ensures r == -1 <==> forall i :: 0 <= i < |table| ==> !LooseMatch(table[i].key, model)
    decreases |table|
  {
    if |table| == 0 then -1
    else if LooseMatch(table[0].key, model) then 0
    else
      var r := FirstLoose(table[1..], model);
      if r == -1 then -1 else r + 1
  }

  /** The price `calculate_cost` charges for `model`: the exact key, else
      the first partial match, else the default. */
  function PriceIn(table: seq<Entry>, model: string): (p: Price)
    requires WellFormed(table)
    ensures NonNegative(p)
    ensures forall i :: 0 <= i < |table| && table[i].key == model ==> p == table[i].price
    ensures (forall i :: 0 <= i < |table| ==> table[i].key != model) ==>
      (exists i :: FirstLooseAt(table, model, i) && p == table[i].price)
      || ((forall i :: 0 <= i < |table| ==> !LooseMatch(table[i].key, model)) && p == DefaultPrice)
  {
    var k := KeyIndex(table, model);
    if k >= 0 then table[k].price
    else
      var l := FirstLoose(table, model);
      if l >= 0 then table[l].price else DefaultPrice
  }

  /** Cost of a call at price `p` (prices are per million tokens). */
  function Charge(p: Price, tokensIn: int, tokensOut: int): real {
    (tokensIn as real * p.input + tokensOut as real * p.output) / 1000000.0
  }

  lemma MulMono(a: real, b: real, p: real)
    requires a <= b && p >= 0.0
    ensures a * p <= b * p
  {
  }

  lemma MulStrict(a: real, b: real, p: real)
    requires a < b && p > 0.0
    ensures a * p < b * p
  {
  }

  /** A product with a positive factor is non-negative only when the other
      factor is. */
  lemma FactorSign(a: real, p: real)
    requires a * p >= 0.0 && p > 0.0
    ensures a >= 0.0
  {
  }

  /** `r` is `m` scaled up by `30 / d`, which is at least 1. */
  lemma ScaledAtLeast(r: real, m: real, d: real)
    requires r * d == m * 30.0
    requires 1.0 <= d <= 30.0 && m >= 0.0
    ensures r >= m
  {
    var e := r - m;
    assert e * d == m * (30.0 - d);
    MulMono(0.0, 30.0 - d, m);
    FactorSign(e, d);
  }

  /** Charging more tokens at a non-negative price never costs less. */
  lemma ChargeMono(p: Price, in1: int, out1: int, in2: int, out2: int)
    requires NonNegative(p)
    requires in1 <= in2 && out1 <= out2
    ensures Charge(p, in1, out1) <= Charge(p, in2, out2)
  {
    MulMono(in1 as real, in2 as real, p.input);
    MulMono(out1 as real, out2 as real, p.output);
  }

  /** `calculate_cost`, before rounding. */
  function CalculateCost(model: string, tokensIn: int, tokensOut: int): (c: real)
    ensures tokensIn >= 0 && tokensOut >= 0 ==> c >= 0.0
    ensures forall i :: 0 <= i < |PricingTable| && PricingTable[i].key == model ==>
      c == Charge(PricingTable[i].price, tokensIn, tokensOut)
    ensures (forall i :: 0 <= i < |PricingTable| ==> !LooseMatch(PricingTable[i].key, model)) ==>
      c == Charge(DefaultPrice, tokensIn, tokensOut)
    ensures WellFormed(PricingTable) && c == Charge(PriceIn(PricingTable, model), tokensIn, tokensOut)
  {
    PricingTableWellFormed();
    CostIn(PricingTable, model, tokensIn, tokensOut)
  }

  /** The cost of a call under any well-formed table. */
  function CostIn(table: seq<Entry>, model: string, tokensIn: int, tokensOut: int): (c: real)
    requires WellFormed(table)
    ensures tokensIn >= 0 && tokensOut >= 0 ==> c >= 0.0
    ensures forall i :: 0 <= i < |table| && table[i].key == model ==>
      c == Charge(table[i].price, tokensIn, tokensOut)
    ensures (forall i :: 0 <= i < |table| ==> !LooseMatch(table[i].key, model)) ==>
      c == Charge(DefaultPrice, tokensIn, tokensOut)
  {
    var p := PriceIn(table, model);
    if tokensIn >= 0 && tokensOut >= 0 then
      ChargeMono(p, 0, 0, tokensIn, tokensOut);
      Charge(p, tokensIn, tokensOut)
    else Charge(p, tokensIn, tokensOut)
  }

  /** More tokens of either kind never cost less. */
  lemma CostMonotone(model: string, in1: int, out1: int, in2: int, out2: int)
    requires in1 <= in2 && out1 <= out2
    ensures CalculateCost(model, in1, out1) <= CalculateCost(model, in2, out2)
  {
    PricingTableWellFormed();
    ChargeMono(PriceIn(PricingTable, model), in1, out1, in2, out2);
  }

  /** A dated variant of a model that is not a key is charged at the first
      key it contains: the partial match takes table order, not the longest
      key, so `openai/gpt-4` wins over `openai/gpt-4o-mini`. */
  lemma FirstKeyInOrderWins()
    ensures CalculateCost("openai/gpt-4o-mini-2024-07-18", 1000000, 0) == 30.0
  {
    var model := "openai/gpt-4o-mini-2024-07-18";
    PricingTableWellFormed();
    NoKeyOfLength(|model|);
    assert model[..12] == "openai/gpt-4";
    LowerPrefix(model, 12);
    assert StartsWith(Lower(model), Lower("openai/gpt-4"));
    assert FirstLooseAt(PricingTable, model, 0);
    FirstLooseCharge(PricingTable, model, 0, 1000000, 0);
  }

  /** No key of the table is 29 characters long. */
  lemma NoKeyOfLength(n: nat)
    requires n == 29
    ensures forall i :: 0 <= i < |PricingTable| ==> |PricingTable[i].key| != n
  {
    var lens := seq(|PricingTable|, i requires 0 <= i < |PricingTable| => |PricingTable[i].key|);
    assert lens == [12, 18, 13, 18, 20, 23, 25, 24, 17, 21, 27, 35, 34, 39, 28];
    forall i | 0 <= i < |PricingTable|
      ensures |PricingTable[i].key| != n
    {
      assert lens[i] == |PricingTable[i].key|;
    }
  }

  /** A model that is no key is charged at its first partial match. */
  lemma FirstLooseCharge(table: seq<Entry>, model: string, i: nat, tokensIn: int, tokensOut: int)
    requires WellFormed(table)
    requires forall j :: 0 <= j < |table| ==> table[j].key != model
    requires FirstLooseAt(table, model, i)
    ensures CostIn(table, model, tokensIn, tokensOut) == Charge(table[i].price, tokensIn, tokensOut)
  {
    assert KeyIndex(table, model) == -1;
    var l := FirstLoose(table, model);
    assert l != -1;
    assert l == i;
    assert PriceIn(table, model) == table[i].price;
  }

  // ----- free models -----

  /** The keys of the free entries, in table order. */
  function FreeModels(table: seq<Entry>): (r: seq<string>)
    ensures forall m :: m in r ==> exists i :: 0 <= i < |table| && table[i].key == m && IsFree(table[i].price)
    ensures forall i :: 0 <= i < |table| && IsFree(table[i].price) ==> table[i].key in r
    ensures |r| <= |table|
    decreases |table|
  {
    if |table| == 0 then []
    else
      var rest := FreeModels(table[1..]);
      assert forall i :: 1 <= i < |table| ==> table[1..][i - 1] == table[i];
      if IsFree(table[0].price) then [table[0].key] + rest else rest
  }

  lemma {:induction false} FreeModelsAppend(a: seq<Entry>, b: seq<Entry>)
    ensures FreeModels(a + b) == FreeModels(a) + FreeModels(b)
    decreases |a|
  {
    if |a| > 0 {
      assert (a + b)[1..] == a[1..] + b;
      FreeModelsAppend(a[1..], b);
    } else {
      assert a + b == b;
    }
  }

  /** A table of paid entries has no free models. */
  lemma {:induction false} FreeModelsNone(t: seq<Entry>)
    requires forall i :: 0 <= i < |t| ==> !IsFree(t[i].price)
    ensures FreeModels(t) == []
    decreases |t|
  {
    if |t| > 0 {
      FreeModelsNone(t[1..]);
    }
  }

  /** A table of free entries lists every key, in order. */
  lemma {:induction false} FreeModelsAll(t: seq<Entry>)
    requires forall i :: 0 <= i < |t| ==> IsFree(t[i].price)
    ensures |FreeModels(t)| == |t|
    ensures forall i :: 0 <= i < |t| ==> FreeModels(t)[i] == t[i].key
    decreases |t|
  {
    if |t| > 0 {
      FreeModelsAll(t[1..]);
    }
  }

  /** `get_free_models`: the keys of the last five entries (the `:free`
      ones), in table order. */
  function GetFreeModels(): (r: seq<string>)
    ensures |r| == 5
    ensures forall i :: 0 <= i < 5 ==> r[i] == PricingTable[10 + i].key
  {
    PaidThenFree();
    FreeModelsSplit(PricingTable, 10);
    FreeModels(PricingTable)
  }

  /** The table lists ten paid entries, then five free ones. */
  lemma PaidThenFree()
    ensures |PricingTable| == 15
    ensures forall i :: 0 <= i < 10 ==> !IsFree(PricingTable[i].price)
    ensures forall i :: 10 <= i < 15 ==> IsFree(PricingTable[i].price)
  {
  }

  /** Paid entries followed by free ones list exactly the free keys. */
  lemma FreeModelsSplit(t: seq<Entry>, k: nat)
    requires k <= |t|
    requires forall i :: 0 <= i < k ==> !IsFree(t[i].price)
    requires forall i :: k <= i < |t| ==> IsFree(t[i].price)
    ensures |FreeModels(t)| == |t| - k
    ensures forall i :: 0 <= i < |t| - k ==> FreeModels(t)[i] == t[k + i].key
  {
    var paid, free := t[..k], t[k..];
    assert t == paid + free;
    FreeModelsAppend(paid, free);
    FreeModelsNone(paid);
    FreeModelsAll(free);
    var r := FreeModels(t);
    assert r == FreeModels(free);
    forall i | 0 <= i < |t| - k
      ensures r[i] == t[k + i].key
    {
      assert free[i] == t[k + i];
    }
  }

  /** A free model's key prices it exactly, so any call to it costs 0. */
  lemma {:induction false} FreeModelsCostNothing(tokensIn: int, tokensOut: int)
    ensures forall k :: 0 <= k < |GetFreeModels()| ==> CalculateCost(GetFreeModels()[k], tokensIn, tokensOut) == 0.0
  {
    var free := GetFreeModels();
    PaidThenFree();
    PricingTableWellFormed();
    forall k | 0 <= k < |free|
      ensures CalculateCost(free[k], tokensIn, tokensOut) == 0.0
    {
      FreeKeyCostsNothing(PricingTable, 10 + k, tokensIn, tokensOut);
    }
  }

  /** In a well-formed table, the key of a free entry prices a call at 0. */
  lemma FreeKeyCostsNothing(table: seq<Entry>, i: nat, tokensIn: int, tokensOut: int)
    requires WellFormed(table) && i < |table| && IsFree(table[i].price)
    ensures CostIn(table, table[i].key, tokensIn, tokensOut) == 0.0
  {
    var c := CostIn(table, table[i].key, tokensIn, tokensOut);
    assert c == Charge(table[i].price, tokensIn, tokensOut);
  }

  // ----- budget -----

  /** `monthly_budget_limit` when the settings do not give one. */
  const DefaultMonthlyLimit: real := 100.0

  /** The estimate `check_budget_available` assumes for one request. */
  const DefaultEstimate: real := 0.01

  /** `check_budget_available`: this month's cost plus the estimate stays
      within the limit. */
  function CheckBudgetAvailable(monthlyCost: real, estimate: real, limit: Option<real>): (ok: bool)
    ensures limit.None? ==> (ok <==> monthlyCost + estimate <= DefaultMonthlyLimit)
    ensures limit.Some? ==> (ok <==> monthlyCost + estimate <= limit.value)
  {
    monthlyCost + estimate <= limit.GetOr(DefaultMonthlyLimit)
  }

  /** A cheaper request, or a lower spend so far, is allowed whenever a
      dearer one is. */
  lemma BudgetMonotone(cost1: real, est1: real, cost2: real, est2: real, limit: Option<real>)
    requires cost1 <= cost2 && est1 <= est2
    requires CheckBudgetAvailable(cost2, est2, limit)
    ensures CheckBudgetAvailable(cost1, est1, limit)
  {
  }

  // ----- suggestion -----

  predicate MentionsGemma(m: string) {
    Contains(Lower(m), "gemma")
  }

  /** The first free model mentioning Gemma, else the first free model. */
  function PickFree(free: seq<string>): (r: string)
    requires |free| > 0
    ensures r in free
    ensures (exists i :: 0 <= i < |free| && MentionsGemma(free[i])) ==>
      exists i :: 0 <= i < |free| && free[i] == r && MentionsGemma(r)
        && forall j :: 0 <= j < i ==> !MentionsGemma(free[j])
    ensures (forall i :: 0 <= i < |free| ==> !MentionsGemma(free[i])) ==> r == free[0]
    decreases |free|
  {
    if MentionsGemma(free[0]) || |free| == 1 then free[0]
    else
      var r := PickFree(free[1..]);
      if MentionsGemma(r) then r else free[0]
  }

  /** The first free model is Gemma. */
  lemma FirstFreeIsGemma()
    ensures GetFreeModels()[0] == "google/gemma-3n-e2b-it:free"
    ensures MentionsGemma(GetFreeModels()[0])
  {
    assert GetFreeModels()[0] == PricingTable[10].key;
    SuggestedKeys();
    GemmaMentionsGemma();
  }

  lemma GemmaMentionsGemma()
    ensures MentionsGemma("google/gemma-3n-e2b-it:free")
  {
    var m := "google/gemma-3n-e2b-it:free";
    assert m[7..12] == "gemma";
    LowerSlice(m, 7, 12);
    assert Lower("gemma") == "gemma";
    assert StartsWith(Lower(m)[7..], "gemma");
    ContainsAt(Lower(m), "gemma", 7);
  }

  /** Both fixed suggestions are keys of the table. */
  lemma SuggestedKeys()
    ensures PricingTable[3].key == "openai/gpt-4o-mini"
    ensures PricingTable[10].key == "google/gemma-3n-e2b-it:free"
  {
  }

  /** `suggest_model`; `preferFreeSetting` is the stored preference, true
      when the settings do not say. */
  function SuggestModel(preferFree: bool, preferFreeSetting: Option<bool>, monthlyCost: real, limit: Option<real>): (r: string)
    ensures preferFree || preferFreeSetting.GetOr(true) ==> r == "google/gemma-3n-e2b-it:free"
    ensures !(preferFree || preferFreeSetting.GetOr(true)) ==>
      (r == "openai/gpt-4o-mini" <==> CheckBudgetAvailable(monthlyCost, DefaultEstimate, limit))
    ensures exists i :: 0 <= i < |PricingTable| && PricingTable[i].key == r
  {
    var free := GetFreeModels();
    FirstFreeIsGemma();
    SuggestedKeys();
    if (preferFree || preferFreeSetting.GetOr(true)) && |free| > 0 then PickFree(free)
    else if CheckBudgetAvailable(monthlyCost, DefaultEstimate, limit) then "openai/gpt-4o-mini"
    else "google/gemma-3n-e2b-it:free"
  }

  // ----- the daily trend -----

  /** One stored usage record; a missing `date` is "". */
  datatype UsageRecord = UsageRecord(date: string, model: string, tokensIn: int, tokensOut: int, cost: real)

  function GetOrZero(m: map<string, real>, k: string): real {
    if k in m then m[k] else 0.0
  }

  /** The loop that sums `cost` per non-empty `date`. */
  function DailyCosts(usage: seq<UsageRecord>): (m: map<string, real>)
    decreases |usage|
  {
    if |usage| == 0 then map[]
    else
      var m := DailyCosts(usage[..|usage| - 1]);
      var u := usage[|usage| - 1];
      if u.date != "" then m[u.date := GetOrZero(m, u.date) + u.cost] else m
  }

  /** The cost recorded on day `d`, summed record by record. */
  function DaySum(usage: seq<UsageRecord>, d: string): real
    decreases |usage|
  {
    if |usage| == 0 then 0.0
    else DaySum(usage[..|usage| - 1], d) + (if usage[|usage| - 1].date == d then usage[|usage| - 1].cost else 0.0)
  }

  /** The table of daily costs holds, for each non-empty date, the sum of
      that date's records, and nothing for the empty date. */
  lemma {:induction false} DailyCostsSum(usage: seq<UsageRecord>, d: string)
    ensures "" !in DailyCosts(usage)
    ensures d != "" ==> GetOrZero(DailyCosts(usage), d) == DaySum(usage, d)
    decreases |usage|
  {
    if |usage| > 0 {
      DailyCostsSum(usage[..|usage| - 1], d);
    }
  }

  /** A day no record mentions costs nothing. */
  lemma {:induction false} DaySumAbsent(usage: seq<UsageRecord>, d: string)
    requires forall i :: 0 <= i < |usage| ==> usage[i].date != d
    ensures DaySum(usage, d) == 0.0
    decreases |usage|
  {
    if |usage| > 0 {
      DaySumAbsent(usage[..|usage| - 1], d);
    }
  }

  datatype TrendPoint = TrendPoint(date: string, cost: real)

  /** `get_cost_trend`: one point per day from `days` days ago up to today.
      Days are numbered consecutively; `iso` writes a day number in the ISO
      form the records use. */
  function CostTrend(usage: seq<UsageRecord>, today: int, days: int, iso: int -> string): (r: seq<TrendPoint>)
    ensures |r| == if days >= 0 then days + 1 else 0
    ensures forall i :: 0 <= i < |r| ==> r[i].date == iso(today - days + i)
    ensures forall i :: 0 <= i < |r| ==> r[i].cost == if r[i].date == "" then 0.0 else DaySum(usage, r[i].date)
    ensures days >= 0 ==> r[days].date == iso(today)
  {
    var daily := DailyCosts(usage);
    var n := if days >= 0 then days + 1 else 0;
    var r := seq(n, i requires 0 <= i < n => TrendPoint(iso(today - days + i), GetOrZero(daily, iso(today - days + i))));
    forall i | 0 <= i < n
      ensures r[i].cost == if r[i].date == "" then 0.0 else DaySum(usage, r[i].date)
    {
      var d := iso(today - days + i);
      assert r[i] == TrendPoint(d, GetOrZero(daily, d));
      DailyCostsSum(usage, d);
    }
    r
  }

  /** Days without records appear in the trend at cost 0. */
  lemma MissingDaysCostNothing(usage: seq<UsageRecord>, today: int, days: int, iso: int -> string, i: nat)
    requires i < |CostTrend(usage, today, days, iso)|
    requires forall j :: 0 <= j < |usage| ==> usage[j].date != iso(today - days + i)
    ensures CostTrend(usage, today, days, iso)[i].cost == 0.0
  {
    DaySumAbsent(usage, iso(today - days + i));
  }

  // ----- projection -----

  /** A calendar date. */
  datatype Date = Date(year: int, month: int, day: int)

  predicate LeapYear(y: int) {
    (y % 4 == 0 && y % 100 != 0) || y % 400 == 0
  }

  function DaysInMonth(year: int, month: int): int {
    if month == 2 then (if LeapYear(year) then 29 else 28)
    else if month == 4 || month == 6 || month == 9 || month == 11 then 30
    else 31
  }

  predicate ValidDate(d: Date) {
    1 <= d.month <= 12 && 1 <= d.day <= DaysInMonth(d.year, d.month)
  }

  /** The month is taken to have 30 days. */
  const ProjectionDays: real := 30.0

  /** `estimate_monthly_projection`, before rounding: the daily average so
      far times 30. */
  function EstimateMonthlyProjection(monthlySoFar: real, today: Date): (r: real)
    ensures today.day == 0 ==> r == 0.0
    ensures today.day != 0 ==> r * today.day as real == monthlySoFar * ProjectionDays
  {
    if today.day == 0 then 0.0
    else monthlySoFar / today.day as real * ProjectionDays
  }

  /** On a real date the day of the month is at least 1, so the projection
      always scales the spend so far. */
  lemma ProjectionScales(monthlySoFar: real, today: Date)
    requires ValidDate(today)
    ensures EstimateMonthlyProjection(monthlySoFar, today) * today.day as real == monthlySoFar * ProjectionDays
  {
  }

  /** Up to day 30 the projection is at least what has been spent, and on
      day 30 it is exactly that. */
  lemma ProjectionAtLeastSpent(monthlySoFar: real, today: Date)
    requires ValidDate(today) && today.day <= 30 && monthlySoFar >= 0.0
    ensures EstimateMonthlyProjection(monthlySoFar, today) >= monthlySoFar
    ensures today.day == 30 ==> EstimateMonthlyProjection(monthlySoFar, today) == monthlySoFar
  {
    var r := EstimateMonthlyProjection(monthlySoFar, today);
    var d := today.day as real;
    assert r * d == monthlySoFar * 30.0;
    ScaledAtLeast(r, monthlySoFar, d);
    if today.day == 30 {
      assert r * 30.0 == monthlySoFar * 30.0;
    }
  }
}

=== FILE: feedback.dfy ===
/** `feedback_service`: the feedback store and its aggregations. Where the
    service looks back `days` days, the caller passes the ISO cutoff it
    computes from the clock (`None` for no window). */
module Feedback {
  import opened Basics
  import opened Text
  import opened Sorting
  import opened Grouping

  datatype Feedback = Feedback(
    id: int,
    sessionId: string,
    messageId: Option<int>,
    rating: int,
    category: Option<string>,
    comment: Option<string>,
    createdAt: string)

  predicate ValidRating(rating: int) {
    1 <= rating <= 5
  }

  function Ids(fs: seq<Feedback>): (ids: seq<int>)
    ensures |ids| == |fs| && forall i :: 0 <= i < |fs| ==> ids[i] == fs[i].id
  {
    seq(|fs|, i requires 0 <= i < |fs| => fs[i].id)
  }

  function Ratings(fs: seq<Feedback>): (rs: seq<int>)
    ensures |rs| == |fs| && forall i :: 0 <= i < |fs| ==> rs[i] == fs[i].rating
  {
    seq(|fs|, i requires 0 <= i < |fs| => fs[i].rating)
  }

  /** What every store built by `submit_feedback` satisfies: unique ids and
      ratings within 1..5. */
  predicate Valid(fs: seq<Feedback>) {
    Distinct(Ids(fs)) && RatingsValid(fs)
  }

  predicate RatingsValid(fs: seq<Feedback>) {
    forall i :: 0 <= i < |fs| ==> ValidRating(fs[i].rating)
  }

  datatype Submitted = Submitted(record: Feedback, store: seq<Feedback>)

  /** `submit_feedback`: a rating outside 1..5 is the `ValueError` (`None`),
      raised before anything is stored. */
  function Submit(fs: seq<Feedback>, sessionId: string, rating: int, category: Option<string>,
                  comment: Option<string>, messageId: Option<int>, now: string): (r: Option<Submitted>)
    ensures r.None? <==> !ValidRating(rating)
    ensures r.Some? ==> r.value.store == fs + [r.value.record]
    ensures r.Some? ==> r.value.record == Feedback(r.value.record.id, sessionId, messageId, rating, category, comment, now)
    ensures r.Some? ==> forall i :: 0 <= i < |fs| ==> fs[i].id < r.value.record.id
    ensures r.Some? && |fs| == 0 ==> r.value.record.id == 1
    ensures r.Some? && Valid(fs) ==> Valid(r.value.store)
  {
    if !ValidRating(rating) then None
    else
      var f := Feedback(NextFreeId(Ids(fs)), sessionId, messageId, rating, category, comment, now);
      Some(Submitted(f, fs + [f]))
  }

  // ----- look-back windows -----

  /** `f["created_at"] >= cutoff`, or everything when there is no cutoff. */
  function InWindow(cutoff: Option<string>): Feedback -> bool {
    (f: Feedback) => cutoff.None? || LexLe(cutoff.value, f.createdAt)
  }

  function Window(fs: seq<Feedback>, cutoff: Option<string>): (w: seq<Feedback>)
    ensures forall f :: f in w <==> f in fs && InWindow(cutoff)(f)
    ensures cutoff.None? ==> w == fs
  {
    if cutoff.None? then
      FilterAll(fs, InWindow(cutoff));
      Filter(fs, InWindow(cutoff))
    else Filter(fs, InWindow(cutoff))
  }

  /** The window keeps every in-window record, each copy of it, in store
      order, and nothing else. */
  lemma WindowExact(fs: seq<Feedback>, cutoff: Option<string>)
    ensures FilteredFrom(Window(fs, cutoff), fs, InWindow(cutoff))
  {
    FilterExact(fs, InWindow(cutoff));
  }

  /** The mean rating, 0.0 for no records (before rounding). */
  function Mean(fs: seq<Feedback>): (m: real)
    ensures |fs| == 0 ==> m == 0.0
    ensures |fs| > 0 ==> m * |fs| as real == SumInt(Ratings(fs)) as real
    ensures |fs| > 0 && RatingsValid(fs) ==> 1.0 <= m <= 5.0
  {
    if |fs| == 0 then 0.0
    else
      var s := SumInt(Ratings(fs));
      if RatingsValid(fs) then
        SumIntBounds(Ratings(fs), 1, 5);
        MeanBounds(s, |fs|, 1, 5);
        Quotient(s, |fs|)
      else Quotient(s, |fs|)
  }

  /** `get_average_rating`. */
  function AverageRating(fs: seq<Feedback>, cutoff: Option<string>): (r: real)
    ensures |Window(fs, cutoff)| == 0 ==> r == 0.0
    ensures |Window(fs, cutoff)| > 0 ==>
      r * |Window(fs, cutoff)| as real == SumInt(Ratings(Window(fs, cutoff))) as real
    ensures |Window(fs, cutoff)| > 0 && Valid(fs) ==> 1.0 <= r <= 5.0
  {
    var w := Window(fs, cutoff);
    ValidWindowRatings(fs, cutoff);
    Mean(w)
  }

  function HasRating(k: int): Feedback -> bool {
    (f: Feedback) => f.rating == k
  }

  /** The counting loop of `get_rating_distribution`: slots 1..5 start at
      zero, and any other rating met gets a slot of its own. */
  function Distribution(fs: seq<Feedback>): (d: map<int, nat>)
    ensures forall k :: 1 <= k <= 5 ==> k in d
    ensures forall k :: k in d ==> ValidRating(k) || exists i :: 0 <= i < |fs| && fs[i].rating == k
    ensures forall i :: 0 <= i < |fs| ==> fs[i].rating in d
    ensures forall k :: k in d ==> d[k] == Count(fs, HasRating(k))
    decreases |fs|
  {
    if |fs| == 0 then
      EmptyTally(fs);
      map[1 := 0, 2 := 0, 3 := 0, 4 := 0, 5 := 0]
    else
      var d := Distribution(fs[..|fs| - 1]);
      TallyStep(fs, fs[..|fs| - 1], d);
      Bump(d, fs[|fs| - 1].rating)
  }

  /** `distribution[rating] = distribution.get(rating, 0) + 1`. */
  function Bump(d: map<int, nat>, k: int): map<int, nat> {
    if k in d then d[k := d[k] + 1] else d[k := 1]
  }

  /** Before any record, the five slots hold zero. */
  lemma EmptyTally(fs: seq<Feedback>)
    requires |fs| == 0
    ensures var d: map<int, nat> := map[1 := 0, 2 := 0, 3 := 0, 4 := 0, 5 := 0];
      && (forall k :: 1 <= k <= 5 ==> k in d)
      && (forall k :: k in d ==> ValidRating(k))
      && (forall k :: k in d ==> d[k] == Count(fs, HasRating(k)))
  {
  }

  /** One more record keeps the distribution's four facts. */
  lemma TallyStep(fs: seq<Feedback>, init: seq<Feedback>, d: map<int, nat>)
    requires |fs| > 0 && init == fs[..|fs| - 1]
    requires forall k :: 1 <= k <= 5 ==> k in d
    requires forall k :: k in d ==> ValidRating(k) || exists i :: 0 <= i < |init| && init[i].rating == k
    requires forall i :: 0 <= i < |init| ==> init[i].rating in d
    requires forall k :: k in d ==> d[k] == Count(init, HasRating(k))
    ensures var d' := Bump(d, fs[|fs| - 1].rating);
      && (forall k :: 1 <= k <= 5 ==> k in d')
      && (forall k :: k in d' ==> ValidRating(k) || exists i :: 0 <= i < |fs| && fs[i].rating == k)
      && (forall i :: 0 <= i < |fs| ==> fs[i].rating in d')
      && (forall k :: k in d' ==> d'[k] == Count(fs, HasRating(k)))
  {
    var last := fs[|fs| - 1];
    assert forall i :: 0 <= i < |init| ==> init[i] == fs[i];
    var d' := Bump(d, last.rating);
    forall k | k in d'
      ensures d'[k] == Count(fs, HasRating(k))
    {
      assert Count(fs, HasRating(k)) == Count(init, HasRating(k)) + (if last.rating == k then 1 else 0);
      if k == last.rating && k !in d {
        forall x | x in init
          ensures !HasRating(k)(x)
        {
          var i :| 0 <= i < |init| && init[i] == x;
          assert init[i] == fs[i];
        }
        FilterNone(init, HasRating(k));
      }
    }
    forall k | k in d'
      ensures ValidRating(k) || exists i :: 0 <= i < |fs| && fs[i].rating == k
    {
      if k != last.rating && !ValidRating(k) {
        var i :| 0 <= i < |init| && init[i].rating == k;
        assert fs[i].rating == k;
      }
    }
  }

  /** `get_rating_distribution`. */
  function RatingDistribution(fs: seq<Feedback>, cutoff: Option<string>): (d: map<int, nat>)
    ensures forall k :: 1 <= k <= 5 ==> k in d
    ensures forall k :: k in d ==> d[k] == Count(Window(fs, cutoff), HasRating(k))
    ensures Valid(fs) ==> (forall k :: k in d <==> ValidRating(k)) && d[1] + d[2] + d[3] + d[4] + d[5] == |Window(fs, cutoff)|
  {
    var d := Distribution(Window(fs, cutoff));
    if Valid(fs) then ValidDistribution(fs, cutoff); d else d
  }

  lemma ValidDistribution(fs: seq<Feedback>, cutoff: Option<string>)
    requires Valid(fs)
    ensures var d := Distribution(Window(fs, cutoff));
      (forall k :: k in d <==> ValidRating(k)) && d[1] + d[2] + d[3] + d[4] + d[5] == |Window(fs, cutoff)|
  {
    var w := Window(fs, cutoff);
    WindowValid(fs, cutoff);
    DistributionKeys(w);
    var d := Distribution(w);
    assert 1 in d && 2 in d && 3 in d && 4 in d && 5 in d;
    assert d[1] == Count(w, HasRating(1)) && d[2] == Count(w, HasRating(2));
    assert d[3] == Count(w, HasRating(3)) && d[4] == Count(w, HasRating(4));
    assert d[5] == Count(w, HasRating(5));
    FiveWay(w);
  }

  lemma ValidWindowRatings(fs: seq<Feedback>, cutoff: Option<string>)
    ensures Valid(fs) ==> RatingsValid(Window(fs, cutoff))
  {
    if Valid(fs) {
      WindowValid(fs, cutoff);
    }
  }

  /** Every record of a window is a record of the store. */
  lemma WindowValid(fs: seq<Feedback>, cutoff: Option<string>)
    requires Valid(fs)
    ensures RatingsValid(Window(fs, cutoff))
  {
    var w := Window(fs, cutoff);
    forall i | 0 <= i < |w|
      ensures ValidRating(w[i].rating)
    {
      assert w[i] in fs;
    }
  }

  /** With ratings in 1..5, the distribution has exactly the five slots. */
  lemma DistributionKeys(w: seq<Feedback>)
    requires RatingsValid(w)
    ensures forall k :: k in Distribution(w) <==> ValidRating(k)
  {
  }

  /** With ratings in 1..5, the five counts add up to the number of records. */
  lemma {:induction false} FiveWay(fs: seq<Feedback>)
    requires RatingsValid(fs)
    ensures Count(fs, HasRating(1)) + Count(fs, HasRating(2)) + Count(fs, HasRating(3))
      + Count(fs, HasRating(4)) + Count(fs, HasRating(5)) == |fs|
    decreases |fs|
  {
    if |fs| > 0 {
      FiveWay(fs[..|fs| - 1]);
    }
  }

  // ----- categories -----

  /** `f.get("category") or "general"`. */
  function CategoryOf(f: Feedback): string {
    if Truthy(f.category) then f.category.value else "general"
  }

  datatype CategoryStats = CategoryStats(category: string, count: nat, avgRating: real)

  function CategoryRows(gs: seq<Group<string, Feedback>>): (r: seq<CategoryStats>)
    ensures |r| == |gs|
    ensures forall i :: 0 <= i < |gs| ==> r[i].category == gs[i].0 && r[i].count == |gs[i].1|
    ensures forall i :: 0 <= i < |gs| ==> r[i].avgRating == Mean(gs[i].1)
  {
    seq(|gs|, i requires 0 <= i < |gs| => CategoryStats(gs[i].0, |gs[i].1|, Mean(gs[i].1)))
  }

  /** The rows of a category breakdown of `w`: one per category, each with
      its record count and mean rating, and together covering every record
      of `w`. */
  predicate CategoryTable(w: seq<Feedback>, r: seq<CategoryStats>) {
    && (forall i, j :: 0 <= i < j < |r| ==> r[i].category != r[j].category)
    && (forall i :: 0 <= i < |r| ==> r[i].count == Count(w, HasKey(CategoryOf, r[i].category)) && r[i].count > 0)
    && (forall i :: 0 <= i < |r| ==> r[i].avgRating == Mean(Filter(w, HasKey(CategoryOf, r[i].category))))
    && (forall f :: f in w ==> exists i :: 0 <= i < |r| && r[i].category == CategoryOf(f))
    && (forall i :: 0 <= i < |r| ==> exists f :: f in w && CategoryOf(f) == r[i].category)
  }

  /** `get_category_breakdown`: one row per category, in first-seen order. */
  function CategoryBreakdown(fs: seq<Feedback>, cutoff: Option<string>): (r: seq<CategoryStats>)
    ensures CategoryTable(Window(fs, cutoff), r)
  {
    CategoryFacts(Window(fs, cutoff));
    CategoryRows(GroupBy(Window(fs, cutoff), CategoryOf))
  }

  /** Categories are listed in the order the window first shows them. */
  lemma CategoriesFirstSeen(fs: seq<Feedback>, cutoff: Option<string>)
    ensures var r := CategoryBreakdown(fs, cutoff);
      forall i, j :: 0 <= i < j < |r| ==> SeenFirst(Window(fs, cutoff), CategoryOf, r[i].category, r[j].category)
  {
    var w := Window(fs, cutoff);
    var gs := GroupBy(w, CategoryOf);
    var r := CategoryRows(gs);
    assert CategoryBreakdown(fs, cutoff) == r;
    GroupByFirstSeen(w, CategoryOf);
    forall i, j | 0 <= i < j < |r|
      ensures SeenFirst(w, CategoryOf, r[i].category, r[j].category)
    {
      assert r[i].category == gs[i].0 && r[j].category == gs[j].0;
    }
  }

  lemma CategoryFacts(w: seq<Feedback>)
    ensures CategoryTable(w, CategoryRows(GroupBy(w, CategoryOf)))
  {
    var gs := GroupBy(w, CategoryOf);
    var r := CategoryRows(gs);
    RowsDistinct(gs);
    RowsCounted(w);
    RowsAveraged(w);
    RowsCover(w);
    RowsFromWindow(w);
  }

  lemma RowsDistinct(gs: seq<Group<string, Feedback>>)
    requires DistinctKeys(gs)
    ensures var r := CategoryRows(gs);
      forall i, j :: 0 <= i < j < |r| ==> r[i].category != r[j].category
  {
    var r := CategoryRows(gs);
    forall i, j | 0 <= i < j < |r|
      ensures r[i].category != r[j].category
    {
      assert r[i].category == gs[i].0 && r[j].category == gs[j].0;
    }
  }

  lemma RowsCounted(w: seq<Feedback>)
    ensures var r := CategoryRows(GroupBy(w, CategoryOf));
      forall i :: 0 <= i < |r| ==> r[i].count == Count(w, HasKey(CategoryOf, r[i].category)) && r[i].count > 0
  {
    var gs := GroupBy(w, CategoryOf);
    var r := CategoryRows(gs);
    forall i | 0 <= i < |r|
      ensures r[i].count == Count(w, HasKey(CategoryOf, r[i].category)) && r[i].count > 0
    {
      GroupsNonEmpty(w, CategoryOf, i);
      assert r[i].count == |gs[i].1| && r[i].category == gs[i].0;
    }
  }

  lemma RowsAveraged(w: seq<Feedback>)
    ensures var r := CategoryRows(GroupBy(w, CategoryOf));
      forall i :: 0 <= i < |r| ==> r[i].avgRating == Mean(Filter(w, HasKey(CategoryOf, r[i].category)))
  {
    var gs := GroupBy(w, CategoryOf);
    var r := CategoryRows(gs);
    forall i | 0 <= i < |r|
      ensures r[i].avgRating == Mean(Filter(w, HasKey(CategoryOf, r[i].category)))
    {
      assert r[i].avgRating == Mean(gs[i].1) && r[i].category == gs[i].0;
    }
  }

  lemma RowsCover(w: seq<Feedback>)
    ensures var r := CategoryRows(GroupBy(w, CategoryOf));
      forall f :: f in w ==> exists i :: 0 <= i < |r| && r[i].category == CategoryOf(f)
  {
    var gs := GroupBy(w, CategoryOf);
    var r := CategoryRows(gs);
    forall f | f in w
      ensures exists i :: 0 <= i < |r| && r[i].category == CategoryOf(f)
    {
      var i := GroupIndex(w, f);
      assert r[i].category == gs[i].0;
    }
  }

  /** The position of the group a record falls in. */
  lemma GroupIndex(w: seq<Feedback>, f: Feedback) returns (i: nat)
    requires f in w
    ensures i < |GroupBy(w, CategoryOf)| && GroupBy(w, CategoryOf)[i].0 == CategoryOf(f)
  {
    var gs := GroupBy(w, CategoryOf);
    assert CategoryOf(f) in Keys(gs);
    i :| 0 <= i < |gs| && gs[i].0 == CategoryOf(f);
  }

  lemma RowsFromWindow(w: seq<Feedback>)
    ensures var r := CategoryRows(GroupBy(w, CategoryOf));
      forall i :: 0 <= i < |r| ==> exists f :: f in w && CategoryOf(f) == r[i].category
  {
    var gs := GroupBy(w, CategoryOf);
    var r := CategoryRows(gs);
    forall i | 0 <= i < |r|
      ensures exists f :: f in w && CategoryOf(f) == r[i].category
    {
      assert gs[i].0 in Keys(gs);
      assert r[i].category == gs[i].0;
    }
  }

  // ----- low-rating sessions -----

  datatype SessionRow = SessionRow(
    sessionId: string,
    avgRating: real,
    feedbackCount: nat,
    comments: seq<string>,
    lastFeedback: string)

  /** The newest `created_at` of a session, keeping the earliest of equal
      timestamps as the loop does. */
  function Latest(fs: seq<Feedback>): (t: string)
    requires |fs| > 0
    ensures exists i :: 0 <= i < |fs| && fs[i].createdAt == t
    ensures forall i :: 0 <= i < |fs| ==> LexLe(fs[i].createdAt, t)
    decreases |fs|
  {
    if |fs| == 1 then
      LexLeRefl(fs[0].createdAt);
      fs[0].createdAt
    else
      var t := Latest(fs[..|fs| - 1]);
      var c := fs[|fs| - 1].createdAt;
      assert forall i :: 0 <= i < |fs| - 1 ==> fs[..|fs| - 1][i] == fs[i];
      LexLeTotal(c, t);
      if !LexLe(c, t) then
        assert forall i :: 0 <= i < |fs| - 1 ==> LexLe(fs[i].createdAt, c) by {
          forall i | 0 <= i < |fs| - 1
            ensures LexLe(fs[i].createdAt, c)
          {
            LexLeTrans(fs[i].createdAt, t, c);
          }
        }
        LexLeRefl(c);
        c
      else t
  }

  /** `if f.get("comment")`: the record carries a non-empty comment. */
  predicate WithComment(f: Feedback) {
    Truthy(f.comment)
  }

  /** The non-empty comments, in order: one per commented record, the
      `i`-th being the comment of the `i`-th commented record. */
  function Comments(fs: seq<Feedback>): (cs: seq<string>)
    ensures forall c :: c in cs ==> c != "" && exists i :: 0 <= i < |fs| && fs[i].comment == Some(c)
    ensures forall i :: 0 <= i < |fs| && Truthy(fs[i].comment) ==> fs[i].comment.value in cs
    decreases |fs|
  {
    if |fs| == 0 then []
    else
      var init := Comments(fs[..|fs| - 1]);
      assert forall i :: 0 <= i < |fs| - 1 ==> fs[..|fs| - 1][i] == fs[i];
      var f := fs[|fs| - 1];
      if Truthy(f.comment) then init + [f.comment.value] else init
  }

  /** The comments line up one-to-one with the commented records: the `i`-th
      comment is that of the `i`-th commented record. */
  lemma {:induction false} CommentsExact(fs: seq<Feedback>)
    ensures |Comments(fs)| == Count(fs, WithComment)
    ensures forall i :: 0 <= i < |Comments(fs)| ==> Filter(fs, WithComment)[i].comment == Some(Comments(fs)[i])
    decreases |fs|
  {
    if |fs| > 0 {
      var init, f := fs[..|fs| - 1], fs[|fs| - 1];
      CommentsExact(init);
      if WithComment(f) {
        assert Filter(fs, WithComment) == Filter(init, WithComment) + [f];
        assert Comments(fs) == Comments(init) + [f.comment.value];
      }
    }
  }

  /** The row of one session's bucket. */
  function Row(g: Group<string, Feedback>): (r: SessionRow)
    requires |g.1| > 0
    ensures r.sessionId == g.0 && r.feedbackCount == |g.1|
    ensures r.avgRating == Mean(g.1)
    ensures r.comments == Comments(g.1) && r.lastFeedback == Latest(g.1)
  {
    SessionRow(g.0, Mean(g.1), |g.1|, Comments(g.1), Latest(g.1))
  }

  function Rows(gs: seq<Group<string, Feedback>>): (r: seq<SessionRow>)
    requires forall i :: 0 <= i < |gs| ==> |gs[i].1| > 0
    ensures |r| == |gs|
    ensures forall i :: 0 <= i < |gs| ==> r[i] == Row(gs[i])
  {
    seq(|gs|, i requires 0 <= i < |gs| && |gs[i].1| > 0 => Row(gs[i]))
  }

  function SessionOf(f: Feedback): string {
    f.sessionId
  }

  /** `row` is the row of its session's records: their count, mean rating,
      comments in order and latest time. */
  predicate BuiltFrom(fs: seq<Feedback>, row: SessionRow) {
    var g := Filter(fs, HasKey(SessionOf, row.sessionId));
    |g| > 0 && row == Row((row.sessionId, g))
  }

  /** One row per session that has feedback, in first-seen order. */
  function SessionRows(fs: seq<Feedback>): (r: seq<SessionRow>)
    ensures forall i, j :: 0 <= i < j < |r| ==> r[i].sessionId != r[j].sessionId
    ensures forall i :: 0 <= i < |r| ==>
      r[i].feedbackCount == Count(fs, HasKey(SessionOf, r[i].sessionId)) && r[i].feedbackCount > 0
    ensures forall i :: 0 <= i < |r| ==>
      r[i].avgRating == Mean(Filter(fs, HasKey(SessionOf, r[i].sessionId)))
    ensures forall i :: 0 <= i < |r| ==> BuiltFrom(fs, r[i])
    ensures forall k :: 0 <= k < |fs| ==> exists i :: 0 <= i < |r| && r[i].sessionId == fs[k].sessionId
  {
    var gs := GroupBy(fs, SessionOf);
    GroupsAllNonEmpty(fs);
    var r := Rows(gs);
    forall i | 0 <= i < |r|
      ensures r[i].sessionId == gs[i].0
      ensures r[i].feedbackCount == Count(fs, HasKey(SessionOf, r[i].sessionId)) && r[i].feedbackCount > 0
      ensures r[i].avgRating == Mean(Filter(fs, HasKey(SessionOf, r[i].sessionId)))
      ensures BuiltFrom(fs, r[i])
    {
      RowFacts(fs, gs, i);
    }
    forall k | 0 <= k < |fs|
      ensures exists i :: 0 <= i < |r| && r[i].sessionId == fs[k].sessionId
    {
      assert SessionOf(fs[k]) in Keys(gs);
      var i :| 0 <= i < |gs| && gs[i].0 == SessionOf(fs[k]);
      assert r[i].sessionId == gs[i].0;
    }
    r
  }

  /** Sessions are listed in the order the records first show them. */
  lemma SessionsFirstSeen(fs: seq<Feedback>)
    ensures var r := SessionRows(fs);
      forall i, j :: 0 <= i < j < |r| ==> SeenFirst(fs, SessionOf, r[i].sessionId, r[j].sessionId)
  {
    var gs := GroupBy(fs, SessionOf);
    GroupsAllNonEmpty(fs);
    var r := Rows(gs);
    assert SessionRows(fs) == r;
    GroupByFirstSeen(fs, SessionOf);
    forall i, j | 0 <= i < j < |r|
      ensures SeenFirst(fs, SessionOf, r[i].sessionId, r[j].sessionId)
    {
      assert r[i] == Row(gs[i]) && r[j] == Row(gs[j]);
    }
  }

  lemma GroupsAllNonEmpty(fs: seq<Feedback>)
    ensures forall i :: 0 <= i < |GroupBy(fs, SessionOf)| ==> |GroupBy(fs, SessionOf)[i].1| > 0
  {
    forall i | 0 <= i < |GroupBy(fs, SessionOf)|
      ensures |GroupBy(fs, SessionOf)[i].1| > 0
    {
      GroupsNonEmpty(fs, SessionOf, i);
    }
  }

  lemma RowFacts(fs: seq<Feedback>, gs: seq<Group<string, Feedback>>, i: nat)
    requires gs == GroupBy(fs, SessionOf)
    requires forall j :: 0 <= j < |gs| ==> |gs[j].1| > 0
    requires i < |gs|
    ensures Rows(gs)[i].sessionId == gs[i].0
    ensures Rows(gs)[i].feedbackCount == Count(fs, HasKey(SessionOf, gs[i].0)) > 0
    ensures Rows(gs)[i].avgRating == Mean(Filter(fs, HasKey(SessionOf, gs[i].0)))
    ensures BuiltFrom(fs, Rows(gs)[i])
  {
    var row := Row(gs[i]);
    assert Rows(gs)[i] == row;
    assert gs[i].1 == Filter(fs, HasKey(SessionOf, gs[i].0));
  }

  function AtMost(threshold: int): SessionRow -> bool {
    (s: SessionRow) => s.avgRating <= threshold as real
  }

  function AvgOf(s: SessionRow): real {
    s.avgRating
  }

  /** The `limit` lowest averages among `rows` at or below the threshold. */
  function LowestRows(rows: seq<SessionRow>, threshold: int, limit: int): (r: seq<SessionRow>)
    ensures limit >= 0 ==> |r| == Min(limit, Count(rows, AtMost(threshold)))
    ensures limit < 0 ==> |r| == Max(0, Count(rows, AtMost(threshold)) + limit)
    ensures forall s :: s in r ==> s.avgRating <= threshold as real && s in rows
    ensures multiset(r) <= multiset(Filter(rows, AtMost(threshold)))
    ensures SortedBy(r, ByRealKey(AvgOf))
    ensures forall x, y :: x in r && y in multiset(Filter(rows, AtMost(threshold))) - multiset(r) ==>
      x.avgRating <= y.avgRating
    ensures limit >= Count(rows, AtMost(threshold)) ==>
      multiset(r) == multiset(Filter(rows, AtMost(threshold)))
  {
    var low := Filter(rows, AtMost(threshold));
    assert TotalPreorder(ByRealKey(AvgOf)) by { ByRealKeyIsPreorder(AvgOf); }
    SortedHead(low, ByRealKey(AvgOf), limit);
    var r := PyTake(SortBy(low, ByRealKey(AvgOf)), limit);
    assert |low| == Count(rows, AtMost(threshold));
    forall s | s in r
      ensures s.avgRating <= threshold as real && s in rows
    {
      assert s in low;
      assert AtMost(threshold)(s);
    }
    forall x, y | x in r && y in multiset(low) - multiset(r)
      ensures x.avgRating <= y.avgRating
    {
      var le := ByRealKey(AvgOf);
      assert le(x, y);
      assert AvgOf(x) <= AvgOf(y);
    }
    r
  }

  /** `get_low_rating_sessions` (averages unrounded): the `limit` lowest
      averages among the sessions at or below the threshold. */
  function LowRatingSessions(fs: seq<Feedback>, threshold: int, limit: int): (r: seq<SessionRow>)
    ensures limit >= 0 ==> |r| == Min(limit, Count(SessionRows(fs), AtMost(threshold)))
    ensures limit < 0 ==> |r| == Max(0, Count(SessionRows(fs), AtMost(threshold)) + limit)
    ensures forall s :: s in r ==> s.avgRating <= threshold as real && s in SessionRows(fs)
    ensures multiset(r) <= multiset(Filter(SessionRows(fs), AtMost(threshold)))
    ensures SortedBy(r, ByRealKey(AvgOf))
    ensures forall x, y :: x in r && y in multiset(Filter(SessionRows(fs), AtMost(threshold))) - multiset(r) ==>
      x.avgRating <= y.avgRating
    ensures limit >= Count(SessionRows(fs), AtMost(threshold)) ==>
      multiset(r) == multiset(Filter(SessionRows(fs), AtMost(threshold)))
  {
    LowestRows(SessionRows(fs), threshold, limit)
  }

  // ----- recent comments -----

  /** The filters of `get_recent_comments`: a comment, and the optional
      rating bounds. */
  function Commented(minRating: Option<int>, maxRating: Option<int>): Feedback -> bool {
    (f: Feedback) => Truthy(f.comment)
      && (minRating.None? || f.rating >= minRating.value)
      && (maxRating.None? || f.rating <= maxRating.value)
  }

  /** Newest first: `sort(key=created_at, reverse=True)`, which keeps equal
      timestamps in their stored order. */
  predicate NewestFirst(a: Feedback, b: Feedback) {
    LexLe(b.createdAt, a.createdAt)
  }

  lemma NewestFirstIsPreorder()
    ensures TotalPreorder(NewestFirst)
  {
    forall a, b
      ensures NewestFirst(a, b) || NewestFirst(b, a)
    {
      LexLeTotal(a.createdAt, b.createdAt);
    }
    forall a, b, c | NewestFirst(a, b) && NewestFirst(b, c)
      ensures NewestFirst(a, c)
    {
      LexLeTrans(c.createdAt, b.createdAt, a.createdAt);
    }
  }

  /** `get_recent_comments`: the `limit` newest of the commented records
      within the rating bounds. */
  function RecentComments(fs: seq<Feedback>, limit: int, minRating: Option<int>, maxRating: Option<int>): (r: seq<Feedback>)
    ensures limit >= 0 ==> |r| == Min(limit, Count(fs, Commented(minRating, maxRating)))
    ensures limit < 0 ==> |r| == Max(0, Count(fs, Commented(minRating, maxRating)) + limit)
    ensures forall f :: f in r ==> f in fs && Truthy(f.comment)
    ensures forall f :: f in r ==> (minRating.None? || f.rating >= minRating.value) && (maxRating.None? || f.rating <= maxRating.value)
    ensures multiset(r) <= multiset(Filter(fs, Commented(minRating, maxRating)))
    ensures SortedBy(r, NewestFirst)
    ensures forall x, y :: x in r && y in multiset(Filter(fs, Commented(minRating, maxRating))) - multiset(r) ==>
      LexLe(y.createdAt, x.createdAt)
    ensures limit >= Count(fs, Commented(minRating, maxRating)) ==>
      multiset(r) == multiset(Filter(fs, Commented(minRating, maxRating)))
  {
    var kept := Filter(fs, Commented(minRating, maxRating));
    assert TotalPreorder(NewestFirst) by { NewestFirstIsPreorder(); }
    SortedHead(kept, NewestFirst, limit);
    var r := PyTake(SortBy(kept, NewestFirst), limit);
    assert |kept| == Count(fs, Commented(minRating, maxRating));
    forall f | f in r
      ensures f in fs && Commented(minRating, maxRating)(f)
    {
      assert f in kept;
    }
    forall x, y | x in r && y in multiset(kept) - multiset(r)
      ensures LexLe(y.createdAt, x.createdAt)
    {
      assert NewestFirst(x, y);
    }
    r
  }

  // ----- summary -----

  datatype Summary = Summary(
    totalFeedback: nat,
    avgRating: real,
    ratingDistribution: map<int, nat>,
    categoryBreakdown: seq<CategoryStats>,
    satisfactionRate: real,
    recentTrend: string,
    feedbackLastSevenDays: nat,
    lowRatingCount: nat)

  function AtLeast(k: int): Feedback -> bool {
    (f: Feedback) => f.rating >= k
  }

  function AtMostRating(k: int): Feedback -> bool {
    (f: Feedback) => f.rating <= k
  }

  function Before(cutoff: string): Feedback -> bool {
    (f: Feedback) => !LexLe(cutoff, f.createdAt)
  }

  /** The trend of the last seven days against the time before. */
  function Trend(recent: seq<Feedback>, older: seq<Feedback>): (t: string)
    ensures t == "insufficient_data" <==> |recent| == 0 || |older| == 0
    ensures t == "improving" <==> |recent| > 0 && |older| > 0 && Mean(recent) > Mean(older) + 0.2
    ensures t == "declining" <==> |recent| > 0 && |older| > 0 && Mean(recent) < Mean(older) - 0.2
    ensures t == "stable" <==> |recent| > 0 && |older| > 0 && Mean(older) - 0.2 <= Mean(recent) <= Mean(older) + 0.2
  {
    if |recent| == 0 || |older| == 0 then "insufficient_data"
    else if Mean(recent) > Mean(older) + 0.2 then "improving"
    else if Mean(recent) < Mean(older) - 0.2 then "declining"
    else "stable"
  }

  /** `get_feedback_summary`; `weekCutoff` is the ISO time seven days ago. */
  function FeedbackSummary(fs: seq<Feedback>, weekCutoff: string): (r: Summary)
    ensures |fs| == 0 ==> r == Summary(0, 0.0, map[1 := 0, 2 := 0, 3 := 0, 4 := 0, 5 := 0], [], 0.0, "neutral", 0, 0)
    ensures r.totalFeedback == |fs|
    ensures 0.0 <= r.satisfactionRate <= 100.0
    ensures |fs| > 0 ==> r.satisfactionRate == Percent(Count(fs, AtLeast(4)), |fs|)
    ensures |fs| > 0 ==> r.feedbackLastSevenDays == Count(fs, InWindow(Some(weekCutoff)))
    ensures |fs| > 0 ==> r.feedbackLastSevenDays + Count(fs, Before(weekCutoff)) == |fs|
    ensures |fs| > 0 ==> r.recentTrend == Trend(Filter(fs, InWindow(Some(weekCutoff))), Filter(fs, Before(weekCutoff)))
    ensures |fs| > 0 ==> r.avgRating == AverageRating(fs, None) && r.lowRatingCount == Count(fs, AtMostRating(2))
    ensures |fs| > 0 ==> r.ratingDistribution == RatingDistribution(fs, None)
    ensures |fs| > 0 ==> r.categoryBreakdown == CategoryBreakdown(fs, None)
  {
    if |fs| == 0 then Summary(0, 0.0, map[1 := 0, 2 := 0, 3 := 0, 4 := 0, 5 := 0], [], 0.0, "neutral", 0, 0)
    else
      var satisfied := Count(fs, AtLeast(4));
      var recent := Filter(fs, InWindow(Some(weekCutoff)));
      var older := Filter(fs, Before(weekCutoff));
      RecentOlderPartition(fs, weekCutoff);
      var rate := Percent(satisfied, |fs|);
      Summary(|fs|, AverageRating(fs, None), RatingDistribution(fs, None), CategoryBreakdown(fs, None),
        rate, Trend(recent, older), |recent|, Count(fs, AtMostRating(2)))
  }

  /** Every record is either within the last seven days or before them. */
  lemma {:induction false} RecentOlderPartition(fs: seq<Feedback>, cutoff: string)
    ensures Count(fs, InWindow(Some(cutoff))) + Count(fs, Before(cutoff)) == |fs|
    decreases |fs|
  {
    if |fs| > 0 {
      RecentOlderPartition(fs[..|fs| - 1], cutoff);
    }
  }
}

=== FILE: grouping.dfy ===
/** The services' "dict of lists" idiom: walk the records once and append
    each to the bucket of its key, creating buckets in first-seen order
    (Python dicts keep insertion order). */
module Grouping {
  import opened Basics

  type Group<K, T> = (K, seq<T>)

  function HasKey<T, K(==)>(key: T -> K, k: K): T -> bool {
    x => key(x) == k
  }

  predicate DistinctKeys<K(==), T>(gs: seq<Group<K, T>>) {
    forall i, j :: 0 <= i < j < |gs| ==> gs[i].0 != gs[j].0
  }

  /** Position of the bucket for `k`, or -1. */
  function IndexOfKey<K(==), T>(gs: seq<Group<K, T>>, k: K): (r: int)
    ensures -1 <= r < |gs|
    ensures r >= 0 ==> gs[r].0 == k
    ensures r == -1 ==> forall i :: 0 <= i < |gs| ==> gs[i].0 != k
    decreases |gs|
  {
    if |gs| == 0 then -1
    else if gs[|gs| - 1].0 == k then |gs| - 1
    else IndexOfKey(gs[..|gs| - 1], k)
  }

  function Keys<K, T>(gs: seq<Group<K, T>>): set<K> {
    set i | 0 <= i < |gs| :: gs[i].0
  }

  /** `buckets.setdefault(k, []).append(x)` */
  function AddTo<K(==), T>(gs: seq<Group<K, T>>, k: K, x: T): seq<Group<K, T>> {
    var i := IndexOfKey(gs, k);
    if i < 0 then gs + [(k, [x])] else gs[i := (k, gs[i].1 + [x])]
  }

  lemma AddToFacts<K, T>(gs: seq<Group<K, T>>, k: K, x: T)
    requires DistinctKeys(gs)
    ensures var r := AddTo(gs, k, x);
      && Keys(r) == Keys(gs) + {k}
      && DistinctKeys(r)
      && |r| == (if k in Keys(gs) then |gs| else |gs| + 1)
      && (forall i :: 0 <= i < |gs| ==> r[i].0 == gs[i].0)
      && (forall i :: 0 <= i < |gs| ==> r[i].1 == if gs[i].0 == k then gs[i].1 + [x] else gs[i].1)
      && (k !in Keys(gs) ==> r[|gs|] == (k, [x]))
  {
    var r := AddTo(gs, k, x);
    var i := IndexOfKey(gs, k);
    if i < 0 {
      assert k !in Keys(gs);
      assert Keys(r) == Keys(gs) + {k} by {
        assert forall j :: 0 <= j < |gs| ==> r[j] == gs[j];
        assert r[|gs|].0 == k;
      }
    } else {
      assert k in Keys(gs);
      assert Keys(r) == Keys(gs) + {k} by {
        forall j | 0 <= j < |gs| ensures r[j].0 == gs[j].0 { }
      }
    }
  }

  lemma {:induction false} GroupStep<T, K>(init: seq<T>, x: T, key: T -> K, gs: seq<Group<K, T>>)
    requires DistinctKeys(gs)
    requires Keys(gs) == set y | y in init :: key(y)
    requires forall i :: 0 <= i < |gs| ==> gs[i].1 == Filter(init, HasKey(key, gs[i].0))
    ensures var r := AddTo(gs, key(x), x);
      && DistinctKeys(r)
      && Keys(r) == (set y | y in init + [x] :: key(y))
      && (forall i :: 0 <= i < |r| ==> r[i].1 == Filter(init + [x], HasKey(key, r[i].0)))
  {
    var r := AddTo(gs, key(x), x);
    AddToFacts(gs, key(x), x);
    assert (set y | y in init + [x] :: key(y)) == (set y | y in init :: key(y)) + {key(x)};
    forall i | 0 <= i < |r|
      ensures r[i].1 == Filter(init + [x], HasKey(key, r[i].0))
    {
      var p := HasKey(key, r[i].0);
      assert (init + [x])[..|init|] == init;
      if i >= |gs| {
        assert r[i] == (key(x), [x]);
        forall y | y in init
          ensures !p(y)
        {
          assert key(y) in Keys(gs);
        }
        FilterNone(init, p);
      }
    }
  }

  function GroupBy<T, K(==)>(xs: seq<T>, key: T -> K): (r: seq<Group<K, T>>)
    ensures DistinctKeys(r)
    ensures Keys(r) == set x | x in xs :: key(x)
    ensures forall i :: 0 <= i < |r| ==> r[i].1 == Filter(xs, HasKey(key, r[i].0))
    decreases |xs|
  {
    if |xs| == 0 then []
    else
      var init, x := xs[..|xs| - 1], xs[|xs| - 1];
      assert xs == init + [x];
      GroupStep(init, x, key, GroupBy(init, key));
      AddTo(GroupBy(init, key), key(x), x)
  }

  /** Key `k1` is seen before key `k2`: every record with key `k2` comes
      after some record with key `k1`. */
  predicate SeenFirst<T, K(==)>(xs: seq<T>, key: T -> K, k1: K, k2: K) {
    forall b :: 0 <= b < |xs| && key(xs[b]) == k2 ==> exists a :: 0 <= a < b && key(xs[a]) == k1
  }

  /** The rows' keys are in the order the records first show them. */
  predicate FirstSeenOrder<T, K(==), V>(xs: seq<T>, key: T -> K, rows: seq<(K, V)>) {
    forall i, j :: 0 <= i < j < |rows| ==> SeenFirst(xs, key, rows[i].0, rows[j].0)
  }

  /** Buckets come in first-seen order, as the keys of a Python dict filled
      in one pass. */
  lemma {:induction false} GroupByFirstSeen<T, K>(xs: seq<T>, key: T -> K)
    ensures FirstSeenOrder(xs, key, GroupBy(xs, key))
    decreases |xs|
  {
    if |xs| > 0 {
      var init, x := xs[..|xs| - 1], xs[|xs| - 1];
      assert xs == init + [x];
      var gs := GroupBy(init, key);
      GroupByFirstSeen(init, key);
      FirstSeenAdd(init, x, key, gs);
    }
  }

  /** The step of `GroupByFirstSeen`: adding one record to buckets in
      first-seen order keeps them in first-seen order. */
  lemma FirstSeenAdd<T, K>(init: seq<T>, x: T, key: T -> K, gs: seq<Group<K, T>>)
    requires DistinctKeys(gs)
    requires Keys(gs) == set y | y in init :: key(y)
    requires FirstSeenOrder(init, key, gs)
    ensures FirstSeenOrder(init + [x], key, AddTo(gs, key(x), x))
  {
    var r := AddTo(gs, key(x), x);
    AddToFacts(gs, key(x), x);
    forall i, j | 0 <= i < j < |r|
      ensures SeenFirst(init + [x], key, r[i].0, r[j].0)
    {
      assert r[i].0 == gs[i].0 && gs[i].0 in Keys(gs);
      if j < |gs| {
        assert r[j].0 == gs[j].0 && gs[j].0 in Keys(gs);
        SeenFirstSnoc(init, x, key, gs[i].0, gs[j].0);
      } else {
        SeenFirstNew(init, x, key, gs[i].0);
      }
    }
  }

  /** Appending a record keeps an order between keys already seen. */
  lemma SeenFirstSnoc<T, K>(init: seq<T>, x: T, key: T -> K, k1: K, k2: K)
    requires k2 in (set y | y in init :: key(y))
    requires SeenFirst(init, key, k1, k2)
    ensures SeenFirst(init + [x], key, k1, k2)
  {
    var xs := init + [x];
    var y :| y in init && key(y) == k2;
    var c :| 0 <= c < |init| && init[c] == y;
    forall b | 0 <= b < |xs| && key(xs[b]) == k2
      ensures exists a :: 0 <= a < b && key(xs[a]) == k1
    {
      var b' := if b < |init| then b else c;
      assert b' <= b && key(init[b']) == k2;
      var a :| 0 <= a < b' && key(init[a]) == k1;
      assert xs[a] == init[a];
    }
  }

  /** A record with a new key comes after every key already seen. */
  lemma SeenFirstNew<T, K>(init: seq<T>, x: T, key: T -> K, k1: K)
    requires k1 in (set y | y in init :: key(y))
    requires key(x) !in (set y | y in init :: key(y))
    ensures SeenFirst(init + [x], key, k1, key(x))
  {
    var xs := init + [x];
    var y :| y in init && key(y) == k1;
    var a :| 0 <= a < |init| && init[a] == y;
    assert forall c :: 0 <= c < |init| ==> key(init[c]) != key(x) by {
      forall c | 0 <= c < |init| ensures key(init[c]) != key(x) {
        assert init[c] in init;
      }
    }
    forall b | 0 <= b < |xs| && key(xs[b]) == key(x)
      ensures exists a :: 0 <= a < b && key(xs[a]) == k1
    {
      assert b == |init|;
      assert xs[a] == init[a];
    }
  }

  /** Every bucket holds at least the record that created it. */
  lemma GroupsNonEmpty<T, K>(xs: seq<T>, key: T -> K, i: nat)
    requires i < |GroupBy(xs, key)|
    ensures |GroupBy(xs, key)[i].1| > 0
  {
    var r := GroupBy(xs, key);
    assert r[i].0 in Keys(r);
    var x :| x in xs && key(x) == r[i].0;
    assert x in Filter(xs, HasKey(key, r[i].0));
  }

  function SizeSum<K, T>(gs: seq<Group<K, T>>): nat
    decreases |gs|
  {
    if |gs| == 0 then 0 else SizeSum(gs[..|gs| - 1]) + |gs[|gs| - 1].1|
  }

  lemma {:induction false} SizeSumUpdate<K, T>(gs: seq<Group<K, T>>, i: nat, g: Group<K, T>)
    requires i < |gs|
    ensures SizeSum(gs[i := g]) == SizeSum(gs) - |gs[i].1| + |g.1|
    decreases |gs|
  {
    var n := |gs| - 1;
    if i < n {
      assert gs[i := g][..n] == gs[..n][i := g];
      SizeSumUpdate(gs[..n], i, g);
    } else {
      assert gs[i := g][..n] == gs[..n];
    }
  }

  /** Every record lands in exactly one bucket. */
  lemma {:induction false} GroupSizesSum<T, K>(xs: seq<T>, key: T -> K)
    ensures SizeSum(GroupBy(xs, key)) == |xs|
    decreases |xs|
  {
    if |xs| > 0 {
      var init, x := xs[..|xs| - 1], xs[|xs| - 1];
      var gs := GroupBy(init, key);
      GroupSizesSum(init, key);
      var i := IndexOfKey(gs, key(x));
      if i < 0 {
        assert (gs + [(key(x), [x])])[..|gs|] == gs;
      } else {
        SizeSumUpdate(gs, i, (key(x), gs[i].1 + [x]));
      }
    }
  }
}

=== FILE: handover.dfy ===
/** `handover_service`: sentiment scoring and escalation detection, and the
    handover store with create, assign, resolve and statistics. */
module Handover {
  import opened Basics
  import opened Text

  /** `ESCALATION_KEYWORDS`, in declaration order: keyword and priority. */
  const EscalationKeywords: seq<(string, string)> := [
    ("urgent", "urgent"), ("emergency", "urgent"), ("critical", "urgent"),
    ("human", "high"), ("agent", "high"), ("support", "normal"),
    ("manager", "high"), ("supervisor", "high"), ("speak to", "high"), ("talk to", "high"),
    ("help me", "normal"), ("not working", "normal"),
    ("frustrated", "high"), ("angry", "high"), ("complaint", "high"), ("escalate", "high"),
    ("real person", "high")]

  const NegativeIndicators: seq<string> := [
    "terrible", "awful", "horrible", "worst", "useless",
    "doesn't work", "not helpful", "waste of time",
    "disappointed", "frustrating", "ridiculous",
    "unacceptable", "pathetic", "incompetent"]

  const PositiveWords: seq<string> := ["thanks", "great", "helpful", "appreciate", "good", "excellent"]

  /** Words whose presence in a recent message suggests the user is stuck. */
  const RepeatWords: seq<string> := ["help", "not working", "again", "still"]

  // ----- sentiment -----

  /** `word in text`, as a predicate on words. */
  function In(text: string): string -> bool {
    w => Contains(text, w)
  }

  /** Priorities that count against the sentiment and beat "normal". */
  predicate Raised(priority: string) {
    priority == "urgent" || priority == "high"
  }

  /** A keyword that occurs in `text` and carries a raised priority. */
  function RaisedIn(text: string): ((string, string)) -> bool {
    (k: (string, string)) => Contains(text, k.0) && Raised(k.1)
  }

  /** One of the scoring loops: `delta` for every word of `words` in `text`. */
  function Tally(words: seq<string>, text: string, delta: real): real
    decreases |words|
  {
    if |words| == 0 then 0.0
    else Tally(words[..|words| - 1], text, delta) + (if Contains(text, words[|words| - 1]) then delta else 0.0)
  }

  /** The keyword loop: −0.2 for every urgent or high keyword in `text`. */
  function KeywordTally(kws: seq<(string, string)>, text: string): real
    decreases |kws|
  {
    if |kws| == 0 then 0.0
    else
      var k := kws[|kws| - 1];
      KeywordTally(kws[..|kws| - 1], text) + (if Contains(text, k.0) && Raised(k.1) then -0.2 else 0.0)
  }

  /** Each word present contributes its delta exactly once (for the two
      deltas the loops use). */
  lemma {:induction false} TallyCount(words: seq<string>, text: string, delta: real)
    requires delta == -0.3 || delta == 0.2
    ensures Tally(words, text, delta) == delta * Count(words, In(text)) as real
    decreases |words|
  {
    if |words| > 0 {
      var init := words[..|words| - 1];
      TallyCount(init, text, delta);
      var n := Count(init, In(text));
      if In(text)(words[|words| - 1]) {
        assert Count(words, In(text)) == n + 1;
        if delta == -0.3 {
          assert -0.3 * (n + 1) as real == -0.3 * n as real - 0.3;
        } else {
          assert 0.2 * (n + 1) as real == 0.2 * n as real + 0.2;
        }
      } else {
        assert Count(words, In(text)) == n;
      }
    }
  }

  lemma {:induction false} KeywordTallyCount(kws: seq<(string, string)>, text: string)
    ensures KeywordTally(kws, text) == -0.2 * Count(kws, RaisedIn(text)) as real
    decreases |kws|
  {
    if |kws| > 0 {
      var init := kws[..|kws| - 1];
      KeywordTallyCount(init, text);
      var n := Count(init, RaisedIn(text));
      if RaisedIn(text)(kws[|kws| - 1]) {
        assert Count(kws, RaisedIn(text)) == n + 1;
        assert -0.2 * (n + 1) as real == -0.2 * n as real - 0.2;
      } else {
        assert Count(kws, RaisedIn(text)) == n;
      }
    }
  }

  function Clamp(x: real): (r: real)
    ensures -1.0 <= r <= 1.0
    ensures -1.0 <= x <= 1.0 ==> r == x
  {
    MaxReal(-1.0, MinReal(1.0, x))
  }

  /** `analyze_sentiment`. */
  function AnalyzeSentiment(message: Option<string>): (r: real)
    ensures !Truthy(message) ==> r == 0.0
    ensures -1.0 <= r <= 1.0
    ensures Truthy(message) ==> r == Clamp(
      -0.3 * Count(NegativeIndicators, In(Lower(message.value))) as real
      - 0.2 * Count(EscalationKeywords, RaisedIn(Lower(message.value))) as real
      + 0.2 * Count(PositiveWords, In(Lower(message.value))) as real)
  {
    if !Truthy(message) then 0.0
    else Score(Lower(message.value), NegativeIndicators, EscalationKeywords, PositiveWords)
  }

  /** The three scoring loops over any word lists: each word found counts
      once with its loop's weight. */
  function Score(t: string, negatives: seq<string>, kws: seq<(string, string)>, positives: seq<string>): (r: real)
    ensures r == Clamp(
      -0.3 * Count(negatives, In(t)) as real
      - 0.2 * Count(kws, RaisedIn(t)) as real
      + 0.2 * Count(positives, In(t)) as real)
  {
    var a := Tally(negatives, t, -0.3);
    var b := KeywordTally(kws, t);
    var c := Tally(positives, t, 0.2);
    assert a == -0.3 * Count(negatives, In(t)) as real by { TallyCount(negatives, t, -0.3); }
    assert b == -0.2 * Count(kws, RaisedIn(t)) as real by { KeywordTallyCount(kws, t); }
    assert c == 0.2 * Count(positives, In(t)) as real by { TallyCount(positives, t, 0.2); }
    Clamp(a + b + c)
  }

  /** The score is below zero only when something negative was found, and
      above zero only when a positive word was. */
  lemma SentimentSign(message: string)
    requires message != ""
    ensures AnalyzeSentiment(Some(message)) < 0.0 ==>
      Count(NegativeIndicators, In(Lower(message))) + Count(EscalationKeywords, RaisedIn(Lower(message))) > 0
    ensures AnalyzeSentiment(Some(message)) > 0.0 ==> Count(PositiveWords, In(Lower(message))) > 0
  {
  }

  // ----- escalation -----

  /** `priority_order.get(p, 1)`. */
  function Rank(p: string): int {
    if p == "urgent" then 3 else if p == "high" then 2 else 1
  }

  predicate KnownPriority(p: string) {
    p == "normal" || p == "high" || p == "urgent"
  }

  /** `keyword in message_lower`, for a keyword entry. */
  function Mentioned(text: string): ((string, string)) -> bool {
    (k: (string, string)) => Contains(text, k.0)
  }

  /** The running maximum of the keyword loop: a later priority replaces the
      current one only when it ranks strictly higher. */
  function Highest(ks: seq<(string, string)>, acc: string): (r: string)
    ensures r == acc || exists i :: 0 <= i < |ks| && r == ks[i].1
    ensures Rank(r) >= Rank(acc)
    ensures forall i :: 0 <= i < |ks| ==> Rank(r) >= Rank(ks[i].1)
    decreases |ks|
  {
    if |ks| == 0 then acc
    else
      var r := Highest(ks[1..], if Rank(ks[0].1) > Rank(acc) then ks[0].1 else acc);
      assert forall i :: 1 <= i < |ks| ==> ks[i] == ks[1..][i - 1];
      r
  }

  /** The last message in `m` mentions one of the repeat words. */
  predicate SoundsStuck(m: string) {
    exists w :: w in RepeatWords && Contains(Lower(m), w)
  }

  /** More than four messages of history, and at least two of the last four
      sound stuck. */
  predicate RepeatedIssues(history: Option<seq<string>>) {
    && history.Some?
    && |history.value| > 4
    && Count(history.value[|history.value| - 4..], SoundsStuck) >= 2
  }

  /** Some keyword of the given priority class occurs in `text`. */
  predicate KeywordHit(kws: seq<(string, string)>, text: string, cls: string -> bool) {
    exists k :: k in kws && cls(k.1) && Contains(text, k.0)
  }

  predicate IsUrgent(p: string) {
    p == "urgent"
  }

  datatype Escalation = Escalation(needsHandover: bool, reason: string, priority: string)

  function KeywordReasons(matched: seq<(string, string)>): (r: seq<string>)
    ensures |r| == |matched|
    ensures forall i :: 0 <= i < |r| ==> r[i] == "keyword:" + matched[i].0
  {
    seq(|matched|, i requires 0 <= i < |matched| => "keyword:" + matched[i].0)
  }

  /** The reasons `detect_escalation_need` collects, in order: `keyword:<k>`
      for each table keyword found, in table order, then
      `negative_sentiment`, then `repeated_issues`. */
  function Reasons(kws: seq<(string, string)>, t: string, negative: bool, repeated: bool): (r: seq<string>)
    ensures |r| == Count(kws, Mentioned(t)) + (if negative then 1 else 0) + (if repeated then 1 else 0)
    ensures forall i :: 0 <= i < Count(kws, Mentioned(t)) ==> r[i] == "keyword:" + Filter(kws, Mentioned(t))[i].0
    ensures negative ==> r[Count(kws, Mentioned(t))] == "negative_sentiment"
    ensures repeated ==> r[|r| - 1] == "repeated_issues"
  {
    KeywordReasons(Filter(kws, Mentioned(t)))
      + (if negative then ["negative_sentiment"] else [])
      + (if repeated then ["repeated_issues"] else [])
  }

  lemma JoinNonEmpty(xs: seq<string>, sep: string)
    requires |xs| > 0 && |xs[0]| > 0
    ensures |Join(xs, sep)| > 0
  {
  }

  /** `detect_escalation_need`. */
  function DetectEscalationNeed(message: Option<string>, history: Option<seq<string>>): (r: Escalation)
    ensures !Truthy(message) ==> r == Escalation(false, "", "normal")
    ensures KnownPriority(r.priority)
    ensures r.reason == "" <==> !r.needsHandover
    ensures Truthy(message) ==> (r.needsHandover <==>
      KeywordHit(EscalationKeywords, Lower(message.value), KnownPriority) || AnalyzeSentiment(message) < -0.5 || RepeatedIssues(history))
    ensures Truthy(message) ==> (r.priority == "urgent" <==> KeywordHit(EscalationKeywords, Lower(message.value), IsUrgent))
    ensures Truthy(message) ==> (r.priority == "normal" <==>
      !KeywordHit(EscalationKeywords, Lower(message.value), Raised) && AnalyzeSentiment(message) >= -0.5 && !RepeatedIssues(history))
    ensures Truthy(message) ==> (r.reason ==
      Join(Reasons(EscalationKeywords, Lower(message.value), AnalyzeSentiment(message) < -0.5, RepeatedIssues(history)), ", "))
  {
    if !Truthy(message) then Escalation(false, "", "normal")
    else
      KeywordPrioritiesKnown();
      Escalate(EscalationKeywords, Lower(message.value), AnalyzeSentiment(message) < -0.5, RepeatedIssues(history))
  }

  /** The decision of `detect_escalation_need` for any keyword table, once
      the sentiment and history checks have been made. */
  function Escalate(kws: seq<(string, string)>, t: string, negative: bool, repeated: bool): (r: Escalation)
    requires AllKnown(kws)
    ensures KnownPriority(r.priority)
    ensures r.reason == "" <==> !r.needsHandover
    ensures r.needsHandover <==> KeywordHit(kws, t, KnownPriority) || negative || repeated
    ensures r.priority == "urgent" <==> KeywordHit(kws, t, IsUrgent)
    ensures r.priority == "normal" <==> !KeywordHit(kws, t, Raised) && !negative && !repeated
    ensures r.reason == Join(Reasons(kws, t, negative, repeated), ", ")
  {
    var matched := Filter(kws, Mentioned(t));
    var top := Highest(matched, "normal");
    var reasons := Reasons(kws, t, negative, repeated);
    var p1 := if negative && top == "normal" then "high" else top;
    var p2 := if repeated && p1 == "normal" then "high" else p1;
    MatchedFacts(kws, t);
    TopKnown(kws, t);
    TopUrgent(kws, t);
    TopNormal(kws, t);
    if |reasons| > 0 then
      JoinNonEmpty(reasons, ", ");
      Escalation(true, Join(reasons, ", "), p2)
    else Escalation(false, Join(reasons, ", "), p2)
  }

  /** Every keyword entry carries one of the three known priorities. */
  predicate AllKnown(kws: seq<(string, string)>) {
    forall k :: k in kws ==> KnownPriority(k.1)
  }

  lemma KeywordPrioritiesKnown()
    ensures AllKnown(EscalationKeywords)
  {
    var kws := EscalationKeywords;
    assert forall i :: 0 <= i < |kws| ==> KnownPriority(kws[i].1);
    forall k | k in kws
      ensures KnownPriority(k.1)
    {
      var i :| 0 <= i < |kws| && kws[i] == k;
    }
  }

  /** A keyword was matched exactly when one occurs in the text. */
  lemma MatchedFacts(kws: seq<(string, string)>, t: string)
    requires AllKnown(kws)
    ensures |Filter(kws, Mentioned(t))| > 0 <==> KeywordHit(kws, t, KnownPriority)
  {
    var matched := Filter(kws, Mentioned(t));
    if KeywordHit(kws, t, KnownPriority) {
      var k :| k in kws && KnownPriority(k.1) && Contains(t, k.0);
      assert k in matched;
    }
    if |matched| > 0 {
      assert matched[0] in matched;
    }
  }

  /** The highest priority is a known one. */
  lemma TopKnown(kws: seq<(string, string)>, t: string)
    requires AllKnown(kws)
    ensures KnownPriority(Highest(Filter(kws, Mentioned(t)), "normal"))
  {
    var matched := Filter(kws, Mentioned(t));
    var top := Highest(matched, "normal");
    if top != "normal" {
      var i :| 0 <= i < |matched| && top == matched[i].1;
      assert matched[i] in kws;
    }
  }

  /** The highest priority is "urgent" exactly when an urgent keyword occurs. */
  lemma TopUrgent(kws: seq<(string, string)>, t: string)
    requires AllKnown(kws)
    ensures Highest(Filter(kws, Mentioned(t)), "normal") == "urgent" <==> KeywordHit(kws, t, IsUrgent)
  {
    if Highest(Filter(kws, Mentioned(t)), "normal") == "urgent" {
      UrgentFromKeyword(kws, t);
    }
    if KeywordHit(kws, t, IsUrgent) {
      UrgentKeywordWins(kws, t);
    }
  }

  /** An "urgent" result comes from an urgent keyword in the text. */
  lemma UrgentFromKeyword(kws: seq<(string, string)>, t: string)
    requires Highest(Filter(kws, Mentioned(t)), "normal") == "urgent"
    ensures KeywordHit(kws, t, IsUrgent)
  {
    var matched := Filter(kws, Mentioned(t));
    var i :| 0 <= i < |matched| && "urgent" == matched[i].1;
    assert matched[i] in kws && Contains(t, matched[i].0);
  }

  /** An urgent keyword in the text makes the result "urgent". */
  lemma UrgentKeywordWins(kws: seq<(string, string)>, t: string)
    requires AllKnown(kws) && KeywordHit(kws, t, IsUrgent)
    ensures Highest(Filter(kws, Mentioned(t)), "normal") == "urgent"
  {
    var matched := Filter(kws, Mentioned(t));
    var top := Highest(matched, "normal");
    TopKnown(kws, t);
    var k :| k in kws && IsUrgent(k.1) && Contains(t, k.0);
    assert k in matched;
    var i :| 0 <= i < |matched| && matched[i] == k;
    assert Rank(top) >= Rank(matched[i].1);
  }

  /** The highest priority stays "normal" exactly when no urgent or high
      keyword occurs. */
  lemma TopNormal(kws: seq<(string, string)>, t: string)
    requires AllKnown(kws)
    ensures Highest(Filter(kws, Mentioned(t)), "normal") == "normal" <==> !KeywordHit(kws, t, Raised)
  {
    var matched := Filter(kws, Mentioned(t));
    var top := Highest(matched, "normal");
    TopKnown(kws, t);
    if top != "normal" {
      var i :| 0 <= i < |matched| && top == matched[i].1;
      assert matched[i] in kws && Contains(t, matched[i].0);
      assert Raised(matched[i].1);
    }
    if KeywordHit(kws, t, Raised) {
      var k :| k in kws && Raised(k.1) && Contains(t, k.0);
      assert k in matched;
      var i :| 0 <= i < |matched| && matched[i] == k;
      assert Rank(top) >= Rank(matched[i].1);
    }
  }

  // ----- the store -----

  datatype Handover = Handover(
    id: int,
    sessionId: string,
    reason: string,
    priority: string,
    status: string,
    assignedTo: Option<string>,
    createdAt: string,
    resolvedAt: Option<string>,
    notes: Option<string>)

  /** No two records share an id. */
  predicate UniqueIds(hs: seq<Handover>) {
    forall i, j :: 0 <= i < |hs| && 0 <= j < |hs| && hs[i].id == hs[j].id ==> i == j
  }

  function Ids(hs: seq<Handover>): (ids: seq<int>)
    ensures |ids| == |hs| && forall i :: 0 <= i < |hs| ==> ids[i] == hs[i].id
  {
    seq(|hs|, i requires 0 <= i < |hs| => hs[i].id)
  }

  /** `_get_next_handover_id`. */
  function NextId(hs: seq<Handover>): (r: int)
    ensures |hs| == 0 ==> r == 1
    ensures forall i :: 0 <= i < |hs| ==> hs[i].id < r
    ensures |hs| > 0 ==> exists i :: 0 <= i < |hs| && hs[i].id == r - 1
  {
    NextFreeId(Ids(hs))
  }

  /** `create_handover`: the new record and the store it is appended to. */
  function Create(hs: seq<Handover>, sessionId: string, reason: string, priority: string,
                  notes: Option<string>, now: string): (r: (Handover, seq<Handover>))
    ensures r.1 == hs + [r.0]
    ensures r.0.status == "pending" && r.0.assignedTo.None? && r.0.resolvedAt.None?
    ensures r.0.sessionId == sessionId && r.0.reason == reason && r.0.priority == priority
    ensures r.0.notes == notes && r.0.createdAt == now
    ensures forall i :: 0 <= i < |hs| ==> hs[i].id < r.0.id
    ensures |hs| == 0 ==> r.0.id == 1
    ensures UniqueIds(hs) ==> UniqueIds(r.1)
  {
    var h := Handover(NextId(hs), sessionId, reason, priority, "pending", None, now, None, notes);
    (h, hs + [h])
  }

  /** Index of the first record with `id`, or -1. */
  function FirstWithId(hs: seq<Handover>, id: int): (r: int)
    ensures -1 <= r < |hs|
    ensures r == -1 <==> forall i :: 0 <= i < |hs| ==> hs[i].id != id
    ensures r >= 0 ==> hs[r].id == id && forall i :: 0 <= i < r ==> hs[i].id != id
    decreases |hs|
  {
    if |hs| == 0 then -1
    else if hs[0].id == id then 0
    else
      var r := FirstWithId(hs[1..], id);
      assert forall i :: 1 <= i < |hs| ==> hs[i] == hs[1..][i - 1];
      if r < 0 then -1 else r + 1
  }

  /** `get_handover`. */
  function Get(hs: seq<Handover>, id: int): (r: Option<Handover>)
    ensures r.None? <==> forall i :: 0 <= i < |hs| ==> hs[i].id != id
    ensures r.Some? ==> r.value in hs && r.value.id == id
  {
    var i := FirstWithId(hs, id);
    if i < 0 then None else Some(hs[i])
  }

  /** `get_pending_handovers`. */
  function Pending(hs: seq<Handover>): (r: seq<Handover>)
    ensures forall h :: h in r <==> h in hs && h.status == "pending"
    ensures IsSubsequence(r, hs)
  {
    FilterIsSubsequence(hs, IsPending);
    Filter(hs, IsPending)
  }

  predicate IsPending(h: Handover) {
    h.status == "pending"
  }

  /** The result of assign and resolve: the updated record (None for an
      unknown id) and the store. */
  datatype Update = Update(result: Option<Handover>, store: seq<Handover>)

  /** Only record `k` differs between the two stores, and ids are kept. */
  predicate OnlyAt(hs: seq<Handover>, store: seq<Handover>, k: nat) {
    && |store| == |hs| && k < |hs|
    && (forall i :: 0 <= i < |hs| && i != k ==> store[i] == hs[i])
    && store[k].id == hs[k].id
  }

  lemma OnlyAtKeepsIds(hs: seq<Handover>, store: seq<Handover>, k: nat)
    requires OnlyAt(hs, store, k) && UniqueIds(hs)
    ensures UniqueIds(store)
  {
    assert forall i :: 0 <= i < |hs| ==> store[i].id == hs[i].id;
  }

  /** `assign_handover`. */
  function Assign(hs: seq<Handover>, id: int, staff: string): (r: Update)
    ensures r.result.None? <==> forall i :: 0 <= i < |hs| ==> hs[i].id != id
    ensures r.result.None? ==> r.store == hs
    ensures r.result.Some? ==>
      var k := FirstWithId(hs, id);
      && OnlyAt(hs, r.store, k)
      && r.store[k] == r.result.value
      && r.result.value == hs[k].(status := "assigned", assignedTo := Some(staff))
  {
    var k := FirstWithId(hs, id);
    if k < 0 then Update(None, hs)
    else
      var h := hs[k].(status := "assigned", assignedTo := Some(staff));
      Update(Some(h), hs[k := h])
  }

  /** The notes of a resolved record: the old notes (or nothing) followed by
      the resolution line, when resolution notes were given. */
  function ResolvedNotes(prev: Option<string>, notes: Option<string>): (r: Option<string>)
    ensures !Truthy(notes) ==> r == prev
    ensures Truthy(notes) ==> r.Some? && IsSuffix("\nResolution: " + notes.value, r.value)
    ensures Truthy(notes) && Truthy(prev) ==> StartsWith(r.value, prev.value)
  {
    if !Truthy(notes) then prev
    else
      var prior := if Truthy(prev) then prev.value else "";
      var tail := "\nResolution: " + notes.value;
      assert (prior + tail)[|prior|..] == tail;
      assert (prior + tail)[..|prior|] == prior;
      Some(prior + tail)
  }

  /** `resolve_handover`. */
  function Resolve(hs: seq<Handover>, id: int, notes: Option<string>, now: string): (r: Update)
    ensures r.result.None? <==> forall i :: 0 <= i < |hs| ==> hs[i].id != id
    ensures r.result.None? ==> r.store == hs
    ensures r.result.Some? ==>
      var k := FirstWithId(hs, id);
      && OnlyAt(hs, r.store, k)
      && r.store[k] == r.result.value
      && r.result.value.status == "resolved"
      && r.result.value.resolvedAt == Some(now)
      && r.result.value.assignedTo == hs[k].assignedTo
      && r.result.value.notes == ResolvedNotes(hs[k].notes, notes)
      && r.result.value == hs[k].(status := "resolved", resolvedAt := Some(now), notes := ResolvedNotes(hs[k].notes, notes))
  {
    var k := FirstWithId(hs, id);
    if k < 0 then Update(None, hs)
    else
      var h := hs[k].(status := "resolved", resolvedAt := Some(now), notes := ResolvedNotes(hs[k].notes, notes));
      Update(Some(h), hs[k := h])
  }

  /** After an assignment, looking the id up finds the assigned record. */
  lemma AssignThenGet(hs: seq<Handover>, id: int, staff: string)
    requires Assign(hs, id, staff).result.Some?
    ensures Get(Assign(hs, id, staff).store, id) == Assign(hs, id, staff).result
  {
    var r := Assign(hs, id, staff);
    var k := FirstWithId(hs, id);
    assert FirstWithId(r.store, id) == k;
  }

  /** Create, assign and resolve keep ids unique. */
  lemma StorePreservesUniqueIds(hs: seq<Handover>, id: int, staff: string, notes: Option<string>, now: string)
    requires UniqueIds(hs)
    ensures UniqueIds(Assign(hs, id, staff).store)
    ensures UniqueIds(Resolve(hs, id, notes, now).store)
  {
    var k := FirstWithId(hs, id);
    if k >= 0 {
      OnlyAtKeepsIds(hs, Assign(hs, id, staff).store, k);
      OnlyAtKeepsIds(hs, Resolve(hs, id, notes, now).store, k);
    }
  }

  // ----- statistics -----

  datatype Stats = Stats(total: nat, pendingCount: nat, assignedCount: nat, resolvedCount: nat, byPriority: map<string, nat>)

  predicate KnownStatus(s: string) {
    s == "pending" || s == "assigned" || s == "resolved"
  }

  /** A record the counting dictionaries have a slot for. */
  predicate Countable(h: Handover) {
    KnownStatus(h.status) && KnownPriority(h.priority)
  }

  function HasStatus(s: string): Handover -> bool {
    (h: Handover) => h.status == s
  }

  function HasPriority(p: string): Handover -> bool {
    (h: Handover) => h.priority == p
  }

  /** Every countable record falls in exactly one status slot and exactly
      one priority slot. */
  lemma CountsAddUp(hs: seq<Handover>)
    requires forall h :: h in hs ==> Countable(h)
    ensures Count(hs, HasStatus("pending")) + Count(hs, HasStatus("assigned")) + Count(hs, HasStatus("resolved")) == |hs|
    ensures Count(hs, HasPriority("normal")) + Count(hs, HasPriority("high")) + Count(hs, HasPriority("urgent")) == |hs|
  {
    CountThree(hs, HasStatus("pending"), HasStatus("assigned"), HasStatus("resolved"));
    CountThree(hs, HasPriority("normal"), HasPriority("high"), HasPriority("urgent"));
  }

  /** `get_handover_stats` without the average resolution time. An unknown
      status or priority is the `KeyError` the counting raises: `None`. */
  function HandoverStats(hs: seq<Handover>): (r: Option<Stats>)
    ensures |hs| == 0 ==> r == Some(Stats(0, 0, 0, 0, map[]))
    ensures r.None? <==> exists h :: h in hs && !Countable(h)
    ensures r.Some? ==> r.value.total == |hs| == r.value.pendingCount + r.value.assignedCount + r.value.resolvedCount
    ensures r.Some? && |hs| > 0 ==>
      && r.value.byPriority.Keys == {"normal", "high", "urgent"}
      && r.value.byPriority["normal"] + r.value.byPriority["high"] + r.value.byPriority["urgent"] == |hs|
    ensures r.Some? ==> r.value.pendingCount == Count(hs, HasStatus("pending"))
    ensures r.Some? ==> r.value.assignedCount == Count(hs, HasStatus("assigned"))
    ensures r.Some? ==> r.value.resolvedCount == Count(hs, HasStatus("resolved"))
    ensures r.Some? ==> forall p :: p in r.value.byPriority ==> r.value.byPriority[p] == Count(hs, HasPriority(p))
  {
    if |hs| == 0 then Some(Stats(0, 0, 0, 0, map[]))
    else if exists h :: h in hs && !Countable(h) then None
    else
      CountsAddUp(hs);
      Some(Stats(|hs|,
        Count(hs, HasStatus("pending")), Count(hs, HasStatus("assigned")), Count(hs, HasStatus("resolved")),
        PriorityCounts(Count(hs, HasPriority("normal")), Count(hs, HasPriority("high")), Count(hs, HasPriority("urgent")))))
  }

  /** The `by_priority` dictionary once counted. */
  function PriorityCounts(normal: nat, high: nat, urgent: nat): (m: map<string, nat>)
    ensures m.Keys == {"normal", "high", "urgent"}
    ensures m["normal"] == normal && m["high"] == high && m["urgent"] == urgent
  {
    map["normal" := normal, "high" := high, "urgent" := urgent]
  }
}

=== FILE: handover_router.dfy ===
/** The handover endpoints' own logic: filtering, ordering and truncating
    the queue, and the escalation-detection endpoint. */
module HandoverRouter {
  import opened Basics
  import opened Sorting
  import opened Text
  import opened Handover

  /** `priority_order.get(h.get("priority", "normal"), 2)`: urgent first. */
  function QueueRank(h: Handover): int {
    if h.priority == "urgent" then 0 else if h.priority == "high" then 1 else 2
  }

  /** The sort key of the list endpoint: rank, then `created_at`. */
  predicate QueueOrder(x: Handover, y: Handover) {
    QueueRank(x) < QueueRank(y) || (QueueRank(x) == QueueRank(y) && LexLe(x.createdAt, y.createdAt))
  }

  lemma QueueOrderIsPreorder()
    ensures TotalPreorder(QueueOrder)
  {
    forall x, y
      ensures QueueOrder(x, y) || QueueOrder(y, x)
    {
      LexLeTotal(x.createdAt, y.createdAt);
    }
    forall x, y, z | QueueOrder(x, y) && QueueOrder(y, z)
      ensures QueueOrder(x, z)
    {
      if QueueRank(x) == QueueRank(y) == QueueRank(z) {
        LexLeTrans(x.createdAt, y.createdAt, z.createdAt);
      }
    }
  }

  /** A record passes an optional filter when the filter is unset or empty,
      or names its value. */
  predicate Passes(filter: Option<string>, value: string) {
    !Truthy(filter) || value == filter.value
  }

  function Matches(status: Option<string>, priority: Option<string>): Handover -> bool {
    (h: Handover) => Passes(status, h.status) && Passes(priority, h.priority)
  }

  /** The largest `limit` the endpoint accepts. */
  const MaxLimit: int := 100

  datatype Listing = Listing(handovers: seq<Handover>, total: nat)

  /** `list_handovers`; a `limit` over 100 fails validation (`None`). */
  function ListHandovers(hs: seq<Handover>, status: Option<string>, priority: Option<string>, limit: int): (r: Option<Listing>)
    ensures r.None? <==> limit > MaxLimit
    ensures r.Some? ==> r.value.total == Count(hs, Matches(status, priority))
    ensures r.Some? ==> forall h :: h in r.value.handovers ==>
      h in hs && Passes(status, h.status) && Passes(priority, h.priority)
    ensures r.Some? ==> SortedBy(r.value.handovers, QueueOrder)
    ensures r.Some? && limit >= 0 ==> |r.value.handovers| == Min(limit, r.value.total)
    ensures r.Some? && limit < 0 ==> |r.value.handovers| == Max(0, r.value.total + limit)
    ensures r.Some? ==> multiset(r.value.handovers) <= multiset(Filter(hs, Matches(status, priority)))
    ensures r.Some? ==> forall x, y ::
      x in r.value.handovers && y in multiset(Filter(hs, Matches(status, priority))) - multiset(r.value.handovers) ==>
      QueueOrder(x, y)
    ensures r.Some? && limit >= r.value.total ==>
      multiset(r.value.handovers) == multiset(Filter(hs, Matches(status, priority)))
    ensures r.Some? ==> r.value.handovers <= SortQueue(Filter(hs, Matches(status, priority)))
  {
    if limit > MaxLimit then None
    else Some(Listing(Shown(hs, status, priority, limit), Count(hs, Matches(status, priority))))
  }

  /** The records a valid `list_handovers` call returns: the matching ones,
      in queue order, cut at `limit`; none left out comes before one shown,
      and among ties the stored order decides which are shown (the result
      is a prefix of the stable sort). */
  function Shown(hs: seq<Handover>, status: Option<string>, priority: Option<string>, limit: int): (r: seq<Handover>)
    ensures forall h :: h in r ==> h in hs && Passes(status, h.status) && Passes(priority, h.priority)
    ensures SortedBy(r, QueueOrder)
    ensures limit >= 0 ==> |r| == Min(limit, Count(hs, Matches(status, priority)))
    ensures limit < 0 ==> |r| == Max(0, Count(hs, Matches(status, priority)) + limit)
    ensures multiset(r) <= multiset(Filter(hs, Matches(status, priority)))
    ensures forall x, y :: x in r && y in multiset(Filter(hs, Matches(status, priority))) - multiset(r) ==> QueueOrder(x, y)
    ensures limit >= Count(hs, Matches(status, priority)) ==>
      multiset(r) == multiset(Filter(hs, Matches(status, priority)))
    ensures r <= SortQueue(Filter(hs, Matches(status, priority)))
  {
    var matching := Filter(hs, Matches(status, priority));
    assert TotalPreorder(QueueOrder) by { QueueOrderIsPreorder(); }
    SortedHead(matching, QueueOrder, limit);
    var r := PyTake(SortQueue(matching), limit);
    assert |matching| == Count(hs, Matches(status, priority));
    forall h | h in r
      ensures h in hs && Passes(status, h.status) && Passes(priority, h.priority)
    {
      assert h in matching;
      assert Matches(status, priority)(h);
    }
    r
  }

  /** The list endpoint's `sort`: by rank, then `created_at`. */
  function SortQueue(xs: seq<Handover>): (r: seq<Handover>)
    ensures multiset(r) == multiset(xs)
    ensures SortedBy(r, QueueOrder)
  {
    QueueOrderIsPreorder();
    SortBy(xs, QueueOrder)
  }

  /** Records that tie on rank and `created_at` keep their stored order. */
  lemma SortQueueStable(xs: seq<Handover>, e: Handover)
    ensures Filter(SortQueue(xs), EquivTo(QueueOrder, e)) == Filter(xs, EquivTo(QueueOrder, e))
  {
    QueueOrderIsPreorder();
    SortStable(xs, QueueOrder, e);
  }

  datatype Queue = Queue(handovers: seq<Handover>, count: nat)

  /** `get_pending_handovers` of the router: the pending records by rank. */
  function PendingQueue(hs: seq<Handover>): (r: Queue)
    ensures r.count == |r.handovers|
    ensures multiset(r.handovers) == multiset(Pending(hs))
    ensures forall h :: h in r.handovers ==> h in hs && h.status == "pending"
    ensures SortedBy(r.handovers, ByKey(QueueRank))
  {
    ByKeyIsPreorder(QueueRank);
    var q := SortBy(Pending(hs), ByKey(QueueRank));
    assert forall h :: h in q ==> h in multiset(Pending(hs));
    Queue(q, |q|)
  }

  /** Pending records of equal rank keep their stored order. */
  lemma PendingStable(hs: seq<Handover>, e: Handover)
    ensures Filter(PendingQueue(hs).handovers, EquivTo(ByKey(QueueRank), e))
      == Filter(Pending(hs), EquivTo(ByKey(QueueRank), e))
  {
    ByKeyIsPreorder(QueueRank);
    SortStable(Pending(hs), ByKey(QueueRank), e);
  }

  datatype Detection = Detection(needsHandover: bool, reason: string, priority: string, sentiment: real)

  /** `detect_escalation`: a missing history is an empty one. */
  function DetectEscalation(message: string, history: Option<seq<string>>): (r: Detection)
    ensures message == "" ==> r == Detection(false, "", "normal", 0.0)
    ensures message != "" ==> (r.priority == "urgent" <==> KeywordHit(EscalationKeywords, Lower(message), IsUrgent))
    ensures r.needsHandover <==> r.reason != ""
    ensures -1.0 <= r.sentiment <= 1.0
    ensures var e := DetectEscalationNeed(Some(message), Some(history.GetOr([])));
      r.needsHandover == e.needsHandover && r.reason == e.reason && r.priority == e.priority
    ensures r.sentiment == AnalyzeSentiment(Some(message))
  {
    var e := DetectEscalationNeed(Some(message), Some(history.GetOr([])));
    Detection(e.needsHandover, e.reason, e.priority, AnalyzeSentiment(Some(message)))
  }

  /** Four messages or fewer of history never change the verdict. */
  lemma ShortHistoryIgnored(message: string, history: seq<string>)
    requires |history| <= 4
    ensures DetectEscalation(message, Some(history)) == DetectEscalation(message, None)
  {
  }
}

=== FILE: knowledge.dfy ===
/** The knowledge base front end: `add_document` cuts a text into overlapping
    windows that prefer to end at a line break, and `query_knowledge` joins
    the retrieved documents with `---` separators that the chat endpoint
    splits again. The vector store itself is not modelled. */
module Knowledge {
  import opened Basics
  import opened Text

  const ChunkSize: nat := 1000
  const Overlap: nat := 100
  const BatchSize: nat := 5000

  /** A stored chunk: its id, its window `[start, end)` and its text. */
  datatype Chunk = Chunk(id: string, start: nat, end: nat, text: string)

  /** `f"{doc_id}_{start}"` */
  function ChunkId(docId: string, start: nat): string {
    docId + "_" + NatToString(start)
  }

  lemma ChunkIdInjective(docId: string, a: nat, b: nat)
    requires ChunkId(docId, a) == ChunkId(docId, b)
    ensures a == b
  {
    var n := |docId| + 1;
    assert ChunkId(docId, a)[n..] == NatToString(a);
    assert ChunkId(docId, b)[n..] == NatToString(b);
    NatToStringInjective(a, b);
  }

  /** `s.rfind(c, lo, hi)`: the last index in `[lo, hi)` holding `c`, or -1. */
  function RFind(s: string, c: char, lo: nat, hi: nat): (r: int)
    requires lo <= hi <= |s|
    ensures r == -1 || (lo <= r < hi && s[r] == c)
    ensures r == -1 ==> forall k :: lo <= k < hi ==> s[k] != c
    ensures r != -1 ==> forall k :: r < k < hi ==> s[k] != c
    decreases hi - lo
  {
    if lo == hi then -1
    else if s[hi - 1] == c then hi - 1
    else RFind(s, c, lo, hi - 1)
  }

  predicate NoNewlineIn(text: string, lo: nat, hi: nat)
    requires hi <= |text|
  {
    forall k :: lo <= k < hi ==> text[k] != '\n'
  }

  /** Where a window that starts at `start` may end: at the full window
      (1000 characters or the end of the text) when it holds no line break
      past its midpoint, otherwise just after the last such line break. */
  predicate WindowEnd(text: string, start: nat, end: nat)
    requires start < |text|
  {
    var e := Min(start + ChunkSize, |text|);
    || (end == e && (e == |text| || NoNewlineIn(text, start + ChunkSize / 2 + 1, e)))
    || (e < |text| && start + ChunkSize / 2 < end - 1 < e && text[end - 1] == '\n' && NoNewlineIn(text, end, e))
  }

  /** A chunk of `text` as `add_document` stores it. */
  predicate GoodChunk(docId: string, text: string, c: Chunk) {
    && c.start < c.end <= |text|
    && c.end - c.start <= ChunkSize
    && c.text == text[c.start..c.end]
    && c.id == ChunkId(docId, c.start)
    && WindowEnd(text, c.start, c.end)
  }

  /** Chunks so far: well formed, starting at 0, each next one starting
      `Overlap` characters before the previous one ended. */
  predicate GoodPrefix(docId: string, text: string, cs: seq<Chunk>) {
    && (forall i :: 0 <= i < |cs| ==> GoodChunk(docId, text, cs[i]))
    && (|cs| > 0 ==> cs[0].start == 0)
    && (forall i :: 0 <= i < |cs| - 1 ==> cs[i + 1].start == cs[i].end - Overlap)
    && (forall i, j :: 0 <= i < j < |cs| ==> cs[i].start < cs[j].start)
    && (forall i :: 0 <= i < |cs| - 1 ==> cs[i].end < |text|)
  }

  /** A window that does not reach the end of the text is longer than half
      a chunk. */
  lemma WindowEndFar(text: string, start: nat, end: nat)
    requires start < |text| && end < |text|
    requires WindowEnd(text, start, end)
    ensures end > start + ChunkSize / 2 + 1
  {
  }

  lemma AppendChunk(docId: string, text: string, cs: seq<Chunk>, start: nat, end: nat)
    requires GoodPrefix(docId, text, cs)
    requires |cs| == 0 ==> start == 0
    requires |cs| > 0 ==> cs[|cs| - 1].end < |text| && start == cs[|cs| - 1].end - Overlap
    requires start < end <= |text| && end - start <= ChunkSize
    requires WindowEnd(text, start, end)
    ensures GoodPrefix(docId, text, cs + [Chunk(ChunkId(docId, start), start, end, text[start..end])])
  {
    var c := Chunk(ChunkId(docId, start), start, end, text[start..end]);
    var ns := cs + [c];
    AppendGoodChunks(docId, text, cs, c);
    if |cs| > 0 {
      AppendOrdered(docId, text, cs, c);
      AppendLinked(docId, text, cs, c);
      assert ns[0] == cs[0];
    } else {
      assert ns == [c];
    }
  }

  /** The new chunk starts `Overlap` before the last one ended, and that one
      stopped short of the end of the text. */
  lemma AppendLinked(docId: string, text: string, cs: seq<Chunk>, c: Chunk)
    requires GoodPrefix(docId, text, cs) && |cs| > 0
    requires cs[|cs| - 1].end < |text| && c.start == cs[|cs| - 1].end - Overlap
    ensures forall i :: 0 <= i < |cs + [c]| - 1 ==>
      (cs + [c])[i + 1].start == (cs + [c])[i].end - Overlap && (cs + [c])[i].end < |text|
  {
    var ns := cs + [c];
    forall i | 0 <= i < |ns| - 1
      ensures ns[i + 1].start == ns[i].end - Overlap && ns[i].end < |text|
    {
      assert ns[i] == cs[i];
      if i + 1 < |cs| {
        assert ns[i + 1] == cs[i + 1];
      }
    }
  }

  lemma AppendGoodChunks(docId: string, text: string, cs: seq<Chunk>, c: Chunk)
    requires forall i :: 0 <= i < |cs| ==> GoodChunk(docId, text, cs[i])
    requires GoodChunk(docId, text, c)
    ensures forall i :: 0 <= i < |cs + [c]| ==> GoodChunk(docId, text, (cs + [c])[i])
  {
    var ns := cs + [c];
    forall i | 0 <= i < |ns|
      ensures GoodChunk(docId, text, ns[i])
    {
      if i < |cs| {
        assert ns[i] == cs[i];
      }
    }
  }

  /** The new chunk starts after every earlier one, since the previous
      window is longer than the overlap. */
  lemma AppendOrdered(docId: string, text: string, cs: seq<Chunk>, c: Chunk)
    requires GoodPrefix(docId, text, cs) && |cs| > 0
    requires cs[|cs| - 1].end < |text| && c.start == cs[|cs| - 1].end - Overlap
    ensures forall i, j :: 0 <= i < j < |cs + [c]| ==> (cs + [c])[i].start < (cs + [c])[j].start
  {
    var ns := cs + [c];
    var last := cs[|cs| - 1];
    WindowEndFar(text, last.start, last.end);
    assert last.start < c.start;
    forall i, j | 0 <= i < j < |ns|
      ensures ns[i].start < ns[j].start
    {
      if j < |cs| {
        assert ns[i] == cs[i] && ns[j] == cs[j];
      } else if i < |cs| - 1 {
        assert cs[i].start < last.start;
      }
    }
  }

  /** The end `add_document` picks for the window starting at `start`. */
  function ChooseEnd(text: string, start: nat): (end: nat)
    requires start < |text|
    ensures start < end <= |text| && end - start <= ChunkSize
    ensures WindowEnd(text, start, end)
  {
    var e := Min(start + ChunkSize, |text|);
    if e < |text| then
      var nl := RFind(text, '\n', start, e);
      if nl != -1 && nl > start + ChunkSize / 2 then nl + 1 else e
    else e
  }

  lemma ChunkIdsDistinct(docId: string, text: string, cs: seq<Chunk>)
    requires GoodPrefix(docId, text, cs)
    ensures forall i, j :: 0 <= i < j < |cs| ==> cs[i].id != cs[j].id
  {
    forall i, j | 0 <= i < j < |cs|
      ensures cs[i].id != cs[j].id
    {
      if cs[i].id == cs[j].id {
        ChunkIdInjective(docId, cs[i].start, cs[j].start);
      }
    }
  }

  /** The chunking loop of `add_document`, including its two safety nets
      (which the invariants show never change `next_start`). */
  method ChunkDocument(docId: string, text: string) returns (chunks: seq<Chunk>)
    ensures GoodPrefix(docId, text, chunks)
    ensures |chunks| == 0 <==> |text| == 0
    ensures |chunks| > 0 ==> chunks[|chunks| - 1].end == |text|
    ensures forall i, j :: 0 <= i < j < |chunks| ==> chunks[i].id != chunks[j].id
  {
    chunks := [];
    var start: nat := 0;
    var lastStart: int := -1;
    while start < |text|
      invariant start <= |text|
      invariant lastStart <= start as int
      invariant GoodPrefix(docId, text, chunks)
      invariant |chunks| == 0 ==> start == 0
      invariant |chunks| > 0 ==> chunks[|chunks| - 1].end < |text| && start == chunks[|chunks| - 1].end - Overlap
      decreases |text| - start
    {
      var end := ChooseEnd(text, start);
      AppendChunk(docId, text, chunks, start, end);
      chunks := chunks + [Chunk(ChunkId(docId, start), start, end, text[start..end])];
      if end >= |text| {
        break;
      }
      WindowEndFar(text, start, end);
      var nextStart := end - Overlap;
      if nextStart <= lastStart {
        nextStart := lastStart + 1;
      }
      if nextStart <= start {
        nextStart := start + 1;
      }
      start := nextStart;
      lastStart := start;
    }
    ChunkIdsDistinct(docId, text, chunks);
  }

  /** Consecutive chunks share exactly `Overlap` characters, and together the
      chunks cover the text without gaps. */
  lemma ChunksOverlap(docId: string, text: string, chunks: seq<Chunk>, i: nat)
    requires GoodPrefix(docId, text, chunks)
    requires i + 1 < |chunks|
    ensures chunks[i].end - chunks[i + 1].start == Overlap
    ensures chunks[i].text[|chunks[i].text| - Overlap..] == chunks[i + 1].text[..Overlap]
  {
    var a, b := chunks[i], chunks[i + 1];
    assert a.end - a.start > Overlap;
    assert b.end - b.start > Overlap;
    assert a.text[|a.text| - Overlap..] == text[b.start..a.end];
    assert b.text[..Overlap] == text[b.start..a.end];
  }

  /** `for i in range(0, len(xs), size): xs[i:i + size]` */
  function Batches<T>(xs: seq<T>, size: nat): (r: seq<seq<T>>)
    requires size > 0
    ensures forall i :: 0 <= i < |r| ==> 0 < |r[i]| <= size
    ensures forall i :: 0 <= i < |r| - 1 ==> |r[i]| == size
    ensures |r| == 0 <==> |xs| == 0
    decreases |xs|
  {
    if |xs| == 0 then []
    else if |xs| <= size then [xs]
    else [xs[..size]] + Batches(xs[size..], size)
  }

  function Flatten<T>(xss: seq<seq<T>>): seq<T>
    decreases |xss|
  {
    if |xss| == 0 then [] else xss[0] + Flatten(xss[1..])
  }

  /** The batches hand every chunk to the store exactly once, in order. */
  lemma {:induction false} BatchesFlatten<T>(xs: seq<T>, size: nat)
    requires size > 0
    ensures Flatten(Batches(xs, size)) == xs
    decreases |xs|
  {
    if |xs| > size {
      BatchesFlatten(xs[size..], size);
      assert xs == xs[..size] + xs[size..];
    } else if |xs| > 0 {
      assert Flatten([xs]) == xs + Flatten([]);
    }
  }

  const Separator: string := "\n---\n"

  /** The documents of a query result, each followed by `"\n---\n"`. */
  function FormatDocs(docs: seq<string>): string
    decreases |docs|
  {
    if |docs| == 0 then "" else docs[0] + Separator + FormatDocs(docs[1..])
  }

  /** `query_knowledge`: Chroma returns one list of documents per query text. */
  function QueryContext(documents: seq<seq<string>>): string {
    FormatDocs(Flatten(documents))
  }

  /** `[c.strip() for c in pieces if c.strip()]` */
  function KeepStripped(pieces: seq<string>): (r: seq<string>)
    ensures forall i :: 0 <= i < |r| ==> r[i] != ""
    decreases |pieces|
  {
    if |pieces| == 0 then []
    else
      var s := Strip(pieces[0]);
      (if s != "" then [s] else []) + KeepStripped(pieces[1..])
  }

  /** The chat endpoint's reading of the context string (chat.py). */
  function SplitContext(context: string): seq<string> {
    KeepStripped(SplitOn(context, "---"))
  }

  /** The pieces `split("---")` produces from a formatted list whose first
      piece is preceded by `p`. */
  function Pieces(p: string, docs: seq<string>): seq<string>
    decreases |docs|
  {
    if |docs| == 0 then [p] else [p + docs[0] + "\n"] + Pieces("\n", docs[1..])
  }

  predicate DashesAt(s: string, j: nat) {
    j + 3 <= |s| && s[j] == '-' && s[j + 1] == '-' && s[j + 2] == '-'
  }

  lemma StartsWithDashes(s: string, j: nat)
    requires j <= |s|
    ensures StartsWith(s[j..], "---") <==> DashesAt(s, j)
  {
    if DashesAt(s, j) {
      assert s[j..][..3] == "---";
    }
  }

  /** A text without `---` has no three dashes in a row. */
  lemma NoDashes(d: string, j: nat)
    requires !Contains(d, "---")
    requires j <= |d|
    ensures !DashesAt(d, j)
  {
    StartsWithDashes(d, j);
    if DashesAt(d, j) {
      ContainsAt(d, "---", j);
    }
  }

  /** The characters of `p + d + Separator + rest` around the first separator. */
  lemma SeparatedChars(p: string, d: string, rest: string)
    ensures var s := p + d + Separator + rest;
      && |s| == |p| + |d| + 5 + |rest|
      && (forall i :: 0 <= i < |p| ==> s[i] == p[i])
      && (forall i :: 0 <= i < |d| ==> s[|p| + i] == d[i])
      && s[|p| + |d|] == '\n'
      && DashesAt(s, |p| + |d| + 1)
  {
  }

  lemma SeparatedParts(p: string, d: string, rest: string)
    ensures var s := p + d + Separator + rest;
      var k := |p| + |d| + 1;
      k + 3 <= |s| && s[..k] == p + d + "\n" && s[k + 3..] == "\n" + rest
  {
  }

  /** Three dashes in a row cannot start before position `k` of a text
      made of an optional line break, a dash-run-free `d` and a line break. */
  lemma NoEarlierDashes(s: string, p: string, d: string, j: nat)
    requires |p| <= 1 && (|p| == 1 ==> p[0] == '\n')
    requires |p| + |d| < |s|
    requires forall i :: 0 <= i < |p| ==> s[i] == p[i]
    requires forall i :: 0 <= i < |d| ==> s[|p| + i] == d[i]
    requires s[|p| + |d|] == '\n'
    requires !Contains(d, "---")
    requires j <= |p| + |d|
    ensures !DashesAt(s, j)
  {
    if |p| <= j && j + 3 <= |p| + |d| {
      NoDashes(d, j - |p|);
      assert d[j - |p|] == s[j];
      assert d[j - |p| + 1] == s[j + 1];
      assert d[j - |p| + 2] == s[j + 2];
    } else if j < |p| {
      assert s[j] == '\n';
    }
  }

  /** `Find` returns the position it is shown to be the first match at. */
  lemma FindAt(s: string, pat: string, k: nat)
    requires |pat| > 0 && k <= |s|
    requires StartsWith(s[k..], pat)
    requires forall j :: 0 <= j < k ==> !StartsWith(s[j..], pat)
    ensures Find(s, pat) == k
  {
  }

  /** No `---` starts before the separator that follows `d`. */
  lemma FirstSeparator(p: string, d: string, rest: string)
    requires p == "" || p == "\n"
    requires !Contains(d, "---")
    ensures var s := p + d + Separator + rest;
      Find(s, "---") == |p| + |d| + 1
  {
    var s := p + d + Separator + rest;
    var k := |p| + |d| + 1;
    SeparatedChars(p, d, rest);
    StartsWithDashes(s, k);
    forall j | 0 <= j < k
      ensures !StartsWith(s[j..], "---")
    {
      StartsWithDashes(s, j);
      NoEarlierDashes(s, p, d, j);
    }
    FindAt(s, "---", k);
  }

  lemma {:induction false} SplitFormatted(p: string, docs: seq<string>)
    requires p == "" || p == "\n"
    requires forall i :: 0 <= i < |docs| ==> !Contains(docs[i], "---")
    ensures SplitOn(p + FormatDocs(docs), "---") == Pieces(p, docs)
    decreases |docs|
  {
    var s := p + FormatDocs(docs);
    if |docs| == 0 {
      assert s == p;
      assert Find(s, "---") == -1;
    } else {
      var d, rest := docs[0], FormatDocs(docs[1..]);
      assert s == p + d + Separator + rest;
      FirstSeparator(p, d, rest);
      SeparatedParts(p, d, rest);
      SplitFormatted("\n", docs[1..]);
    }
  }

  lemma StripShort(p: string)
    requires p == "" || p == "\n"
    ensures Strip(p) == ""
  {
    if p == "\n" {
      assert TrimRight(p) == TrimRight(p[..0]);
    }
  }

  lemma {:induction false} KeepPieces(p: string, docs: seq<string>)
    requires p == "" || p == "\n"
    ensures KeepStripped(Pieces(p, docs)) == KeepStripped(docs)
    decreases |docs|
  {
    if |docs| == 0 {
      StripShort(p);
    } else {
      StripNewlines(p, docs[0]);
      KeepPieces("\n", docs[1..]);
    }
  }

  /** Round trip: splitting the formatted context gives back exactly the
      stripped, non-blank documents, provided no document contains `---`. */
  lemma ContextRoundTrip(docs: seq<string>)
    requires forall i :: 0 <= i < |docs| ==> !Contains(docs[i], "---")
    ensures SplitContext(FormatDocs(docs)) == KeepStripped(docs)
  {
    var s := FormatDocs(docs);
    SplitFormatted("", docs);
    EmptyPrefix(s);
    KeepPieces("", docs);
  }

  lemma EmptyPrefix(s: string)
    ensures "" + s == s
  {
  }
}

=== FILE: lru_cache.dfy ===
/** `LRUCache` and the module-level helpers of the response cache. The clock
    is an explicit `now` argument, and a query is its own key (the source
    hashes it with md5, which is injective for all practical purposes). */
module LruCache {
  import opened Basics
  import opened Text

  /** One cached response: its `OrderedDict` value together with its
      `timestamps` and `ttls` entries. Keeping the three side by side makes
      the three dictionaries share one key set by construction. */
  datatype Entry = Entry(key: string, value: string, stamp: real, ttl: int)

  /** The cache state: `entries` in the key order of the `OrderedDict`,
      least recently used first. */
  datatype Cache = Cache(maxSize: int, defaultTtl: int, entries: seq<Entry>, hits: nat, misses: nat)

  /** Constructor defaults of `LRUCache`. */
  const DefaultMaxSize: int := 1000
  const DefaultTtl: int := 3600
  /** The module's shared instance is built with `max_size=500`. */
  const GlobalMaxSize: int := 500
  /** `cache_response` and `get_or_set` pass this TTL. */
  const ResponseTtl: int := 3600

  /** The keys in recency order. */
  function KeysOf(es: seq<Entry>): (ks: seq<string>)
    ensures |ks| == |es|
    ensures forall i :: 0 <= i < |es| ==> ks[i] == es[i].key
    decreases |es|
  {
    if |es| == 0 then [] else KeysOf(es[..|es| - 1]) + [es[|es| - 1].key]
  }

  /** A dictionary holds each key once. */
  predicate Valid(c: Cache) {
    Distinct(KeysOf(c.entries))
  }

  function Empty(maxSize: int, defaultTtl: int): (c: Cache)
    ensures Valid(c) && |c.entries| == 0
  {
    Cache(maxSize, defaultTtl, [], 0, 0)
  }

  /** The entry stored under `key`, if any. */
  function Lookup(es: seq<Entry>, key: string): (r: Option<Entry>)
    ensures r.None? <==> key !in KeysOf(es)
    ensures r.Some? ==> r.value in es && r.value.key == key
    decreases |es|
  {
    if |es| == 0 then None
    else if es[|es| - 1].key == key then Some(es[|es| - 1])
    else
      var init := es[..|es| - 1];
      assert KeysOf(es) == KeysOf(init) + [es[|es| - 1].key];
      Lookup(init, key)
  }

  /** In a valid cache the entry under a key is the only one with that key. */
  lemma LookupUnique(es: seq<Entry>, e: Entry)
    requires Distinct(KeysOf(es)) && e in es
    ensures Lookup(es, e.key) == Some(e)
  {
    var i :| 0 <= i < |es| && es[i] == e;
    assert e.key in KeysOf(es);
    var f := Lookup(es, e.key).value;
    var j :| 0 <= j < |es| && es[j] == f;
    assert KeysOf(es)[i] == KeysOf(es)[j];
  }

  /** A filter keeps the keys of the entries it keeps, in the same order. */
  lemma {:induction false} KeysOfFilter(es: seq<Entry>, p: Entry -> bool, q: string -> bool)
    requires forall e :: p(e) == q(e.key)
    ensures KeysOf(Filter(es, p)) == Filter(KeysOf(es), q)
    decreases |es|
  {
    if |es| > 0 {
      var init := es[..|es| - 1];
      KeysOfFilter(init, p, q);
      assert KeysOf(es)[..|es| - 1] == KeysOf(init);
      if p(es[|es| - 1]) {
        var f := Filter(init, p);
        assert (f + [es[|es| - 1]])[..|f|] == f;
      }
    }
  }

  /** Entries at two positions of a valid cache have different keys. */
  lemma KeysDiffer(es: seq<Entry>, i: nat, j: nat)
    requires i < j < |es| && Distinct(KeysOf(es))
    ensures es[i].key != es[j].key
  {
    var ks := KeysOf(es);
    assert ks[i] == es[i].key && ks[j] == es[j].key;
  }

  /** Any filter keeps the keys distinct. */
  lemma FilterKeysDistinct(es: seq<Entry>, p: Entry -> bool)
    requires Distinct(KeysOf(es))
    ensures Distinct(KeysOf(Filter(es, p)))
  {
    var f := Filter(es, p);
    var ks := KeysOf(f);
    forall a, b | 0 <= a < b < |es|
      ensures es[a] != es[b]
    {
      KeysDiffer(es, a, b);
    }
    FilterDistinct(es, p);
    forall i, j | 0 <= i < j < |ks|
      ensures ks[i] != ks[j]
    {
      assert f[i] in es && f[j] in es;
      var a :| 0 <= a < |es| && es[a] == f[i];
      var b :| 0 <= b < |es| && es[b] == f[j];
      assert f[i] != f[j];
      if a < b {
        KeysDiffer(es, a, b);
      } else if b < a {
        KeysDiffer(es, b, a);
      }
    }
  }

  /** Every entry of `r` comes from `c`, and the counters and settings agree. */
  predicate Within(r: Cache, c: Cache) {
    && (forall e :: e in r.entries ==> e in c.entries)
    && r.hits == c.hits && r.misses == c.misses && r.maxSize == c.maxSize && r.defaultTtl == c.defaultTtl
  }

  /** `_is_expired`: strictly older than its TTL. */
  predicate Expired(e: Entry, now: real) {
    now - e.stamp > e.ttl as real
  }

  /** `ttl or self.default_ttl`: a missing or zero TTL means the default. */
  function TtlOf(c: Cache, ttl: Option<int>): (r: int)
    ensures ttl.Some? && ttl.value != 0 ==> r == ttl.value
    ensures ttl.None? || ttl.value == 0 ==> r == c.defaultTtl
  {
    if ttl.None? || ttl.value == 0 then c.defaultTtl else ttl.value
  }

  function KeyNot(key: string): Entry -> bool {
    (e: Entry) => e.key != key
  }

  /** `_remove`: drop `key` from all three dictionaries. */
  function Remove(c: Cache, key: string): (r: Cache)
    requires Valid(c)
    ensures Valid(r) && Within(r, c)
    ensures KeysOf(r.entries) == Filter(KeysOf(c.entries), NotEq(key))
    ensures key !in KeysOf(r.entries)
    ensures forall e :: e in c.entries && e.key != key ==> e in r.entries
  {
    var r := c.(entries := Filter(c.entries, KeyNot(key)));
    FilterKeysDistinct(c.entries, KeyNot(key));
    KeysOfFilter(c.entries, KeyNot(key), NotEq(key));
    r
  }

  /** `_remove(next(iter(self.cache)))`: drop the oldest entry. */
  function PopOldest(c: Cache): (r: Cache)
    requires Valid(c) && |c.entries| > 0
    ensures Valid(r) && Within(r, c)
    ensures r.entries == c.entries[1..]
  {
    assert KeysOf(c.entries[1..]) == KeysOf(c.entries)[1..];
    c.(entries := c.entries[1..])
  }

  /** Dropping the oldest entry is `_remove` applied to the first key. */
  lemma PopOldestIsRemove(c: Cache)
    requires Valid(c) && |c.entries| > 0
    ensures KeysOf(PopOldest(c).entries) == KeysOf(Remove(c, c.entries[0].key).entries)
  {
    assert KeysOf(c.entries[1..]) == KeysOf(c.entries)[1..];
    FilterOutHead(KeysOf(c.entries));
  }

  /** A suffix holds only entries of the whole. */
  lemma SliceWithin(es: seq<Entry>, k: nat)
    requires k <= |es|
    ensures forall e :: e in es[k..] ==> e in es
  {
    forall e | e in es[k..]
      ensures e in es
    {
      var i :| 0 <= i < |es| - k && es[k..][i] == e;
      assert es[k + i] == e;
    }
  }

  /** A suffix of a valid entry list is valid. */
  lemma SuffixValid(es: seq<Entry>, k: nat)
    requires k <= |es| && Distinct(KeysOf(es))
    ensures Distinct(KeysOf(es[k..]))
  {
    KeysOfSuffix(es, k);
    DistinctSuffix(KeysOf(es), k);
  }

  /** The keys of a suffix are the suffix of the keys. */
  lemma KeysOfSuffix(es: seq<Entry>, k: nat)
    requires k <= |es|
    ensures KeysOf(es[k..]) == KeysOf(es)[k..]
  {
    var a, b := KeysOf(es[k..]), KeysOf(es)[k..];
    forall i | 0 <= i < |a|
      ensures a[i] == b[i]
    {
      assert a[i] == es[k + i].key;
    }
  }

  /** The eviction loop of `set` on the entries: drop the oldest entry while
      there are at least `maxSize` of them. It stops early only on an empty
      list, where the source's `next(iter(...))` raises. */
  function EvictOldest(es: seq<Entry>, maxSize: int): (r: seq<Entry>)
    ensures |r| == if |es| < maxSize then |es| else Max(maxSize - 1, 0)
    ensures r == es[|es| - |r|..]
    decreases |es|
  {
    if |es| < maxSize || |es| == 0 then es
    else
      var r := EvictOldest(es[1..], maxSize);
      assert es[1..][|es| - 1 - |r|..] == es[|es| - |r|..];
      r
  }

  /** The eviction loop of `set` on the cache: it keeps a valid cache valid
      and only drops entries. */
  function Evict(c: Cache): (r: Cache)
    requires Valid(c)
    ensures Valid(r) && Within(r, c)
    ensures |r.entries| == if |c.entries| < c.maxSize then |c.entries| else Max(c.maxSize - 1, 0)
    ensures r.entries == c.entries[|c.entries| - |r.entries|..]
  {
    var es := EvictOldest(c.entries, c.maxSize);
    SuffixValid(c.entries, |c.entries| - |es|);
    SliceWithin(c.entries, |c.entries| - |es|);
    c.(entries := es)
  }

  /** The state `set` reaches before inserting: the old entry for `query`
      removed, then the oldest entries evicted. */
  function Prepare(c: Cache, query: string): (r: Cache)
    requires Valid(c)
    ensures Valid(r) && Within(r, c) && query !in KeysOf(r.entries)
    ensures IsSuffix(r.entries, Filter(c.entries, KeyNot(query)))
    ensures |r.entries| == Min(|Filter(c.entries, KeyNot(query))|, Max(c.maxSize - 1, 0))
  {
    var c1 := Remove(c, query);
    var r := Evict(c1);
    assert forall e :: e in r.entries ==> e in c1.entries;
    r
  }

  /** Adds a key that is not cached yet as the most recently used entry. */
  function Append(c: Cache, e: Entry): (r: Cache)
    requires Valid(c) && e.key !in KeysOf(c.entries)
    ensures Valid(r)
    ensures r.entries == c.entries + [e]
    ensures r.hits == c.hits && r.misses == c.misses && r.maxSize == c.maxSize && r.defaultTtl == c.defaultTtl
  {
    var r := c.(entries := c.entries + [e]);
    assert KeysOf(r.entries) == KeysOf(c.entries) + [e.key];
    r
  }

  datatype SetOutcome =
    | Stored(cache: Cache)
    /** `next(iter(self.cache))` on an empty cache: `max_size <= 0`. */
    | StopIteration(cache: Cache)

  /** `set(query, response, ttl)` at time `now`. */
  function Set(c: Cache, query: string, response: string, ttl: Option<int>, now: real): (r: SetOutcome)
    requires Valid(c)
    ensures Valid(r.cache)
    ensures r.Stored? <==> c.maxSize >= 1
    ensures r.StopIteration? ==> |r.cache.entries| == 0
    ensures r.Stored? ==> 1 <= |r.cache.entries| <= c.maxSize
    ensures r.Stored? ==>
      && r.cache.entries[|r.cache.entries| - 1] == Entry(query, response, now, TtlOf(c, ttl))
    ensures r.Stored? ==> IsSuffix(r.cache.entries[..|r.cache.entries| - 1], Filter(c.entries, KeyNot(query)))
    ensures r.Stored? ==> |r.cache.entries| == Min(|Filter(c.entries, KeyNot(query))|, c.maxSize - 1) + 1
    ensures r.cache.hits == c.hits && r.cache.misses == c.misses
  {
    var c2 := Prepare(c, query);
    var e := Entry(query, response, now, TtlOf(c, ttl));
    if |c2.entries| >= c2.maxSize then
      assert c.maxSize < 1;
      StopIteration(c2)
    else
      assert c.maxSize >= 1;
      var r := Append(c2, e);
      assert r.entries[..|r.entries| - 1] == c2.entries;
      Stored(r)
  }

  /** After `set(q, r)` a lookup of `q` finds `r`. */
  lemma SetThenLookup(c: Cache, query: string, response: string, ttl: Option<int>, now: real)
    requires Valid(c) && c.maxSize >= 1
    ensures var r := Set(c, query, response, ttl, now).cache;
      Lookup(r.entries, query) == Some(Entry(query, response, now, TtlOf(c, ttl)))
  {
    var r := Set(c, query, response, ttl, now).cache;
    LookupUnique(r.entries, r.entries[|r.entries| - 1]);
  }

  /** Eviction takes the least recently used entries: every key that was
      dropped was older than every key that survived. */
  lemma SetEvictsOldest(c: Cache, query: string, response: string, ttl: Option<int>, now: real)
    requires Valid(c) && c.maxSize >= 1
    ensures var r := Set(c, query, response, ttl, now).cache;
      forall i, j :: 0 <= i < j < |c.entries| && c.entries[i] in r.entries && c.entries[i].key != query ==>
        c.entries[j] in r.entries || c.entries[j].key == query
  {
    var es := Set(c, query, response, ttl, now).cache.entries;
    var kept := es[..|es| - 1];
    assert es == kept + [es[|es| - 1]];
    EntriesDistinct(c.entries);
    forall i, j | 0 <= i < j < |c.entries| && c.entries[i] in es && c.entries[i].key != query && c.entries[j].key != query
      ensures c.entries[j] in es
    {
      assert c.entries[i] in kept;
      SuffixOfFilterKeepsLater(c.entries, KeyNot(query), kept, i, j);
    }
  }

  /** Distinct keys make distinct entries. */
  lemma EntriesDistinct(es: seq<Entry>)
    requires Distinct(KeysOf(es))
    ensures Distinct(es)
  {
    forall i, j | 0 <= i < j < |es|
      ensures es[i] != es[j]
    {
      assert KeysOf(es)[i] != KeysOf(es)[j];
    }
  }

  datatype GetOutcome = GetOutcome(cache: Cache, value: Option<string>)

  /** `get(query)` at time `now`. */
  function Get(c: Cache, query: string, now: real): (r: GetOutcome)
    requires Valid(c)
    ensures Valid(r.cache)
    ensures r.cache.hits + r.cache.misses == c.hits + c.misses + 1
    ensures r.cache.maxSize == c.maxSize && r.cache.defaultTtl == c.defaultTtl
    ensures r.value.Some? <==> Lookup(c.entries, query).Some? && !Expired(Lookup(c.entries, query).value, now)
    ensures r.value.Some? ==>
      && r.value.value == Lookup(c.entries, query).value.value
      && r.cache.hits == c.hits + 1
      && r.cache.entries == Filter(c.entries, KeyNot(query)) + [Lookup(c.entries, query).value]
    ensures r.value.None? ==>
      && r.cache.misses == c.misses + 1
      && query !in KeysOf(r.cache.entries)
      && r.cache.entries == Filter(c.entries, KeyNot(query))
    ensures forall e :: e in r.cache.entries ==> e in c.entries
  {
    match Lookup(c.entries, query)
    case None =>
      FilterAll(c.entries, KeyNot(query));
      GetOutcome(c.(misses := c.misses + 1), None)
    case Some(e) =>
      var c1 := Remove(c, query);
      if Expired(e, now) then GetOutcome(c1.(misses := c1.misses + 1), None)
      else GetOutcome(Append(c1, e).(hits := c.hits + 1), Some(e.value))
  }

  /** `invalidate(pattern)`: `None` clears everything; otherwise exactly the
      entries whose response contains the pattern go, and the rest keep
      their recency order. */
  function Invalidate(c: Cache, pattern: Option<string>): (r: Cache)
    requires Valid(c)
    ensures Valid(r)
    ensures pattern.None? ==> |r.entries| == 0
    ensures pattern.Some? ==> forall e :: e in r.entries <==> e in c.entries && !Contains(e.value, pattern.value)
    ensures IsSubsequence(r.entries, c.entries)
    ensures r.hits == c.hits && r.misses == c.misses
  {
    if pattern.None? then
      SubsequenceEmpty(c.entries);
      c.(entries := [])
    else
      var keep := (e: Entry) => !Contains(e.value, pattern.value);
      FilterKeysDistinct(c.entries, keep);
      FilterIsSubsequence(c.entries, keep);
      c.(entries := Filter(c.entries, keep))
  }

  lemma SubsequenceEmpty(es: seq<Entry>)
    ensures IsSubsequence([], es)
  {
  }

  const NoCachePatterns: seq<string> :=
    ["my ", "i am", "i'm", "my name", "call me", "phone", "email", "today", "now", "current"]
  const CachePatterns: seq<string> :=
    ["how much", "what is", "where is", "rent", "buy", "property", "area", "location", "price", "bedroom"]

  /** The `for pattern in ...: if pattern in s` scan. */
  function AnyIn(patterns: seq<string>, s: string): (r: bool)
    ensures r <==> exists i :: 0 <= i < |patterns| && Contains(s, patterns[i])
    decreases |patterns|
  {
    |patterns| > 0 && (Contains(s, patterns[0]) || AnyIn(patterns[1..], s))
  }

  /** `should_cache`: personal queries never, short ones never, and
      otherwise only those that mention a property topic. */
  function ShouldCache(query: string): (r: bool)
    ensures r ==> |query| >= 10
    ensures r <==>
      && (forall i :: 0 <= i < |NoCachePatterns| ==> !Contains(Lower(query), NoCachePatterns[i]))
      && |query| >= 10
      && (exists i :: 0 <= i < |CachePatterns| && Contains(Lower(query), CachePatterns[i]))
  {
    var q := Lower(query);
    if AnyIn(NoCachePatterns, q) then false
    else if |query| < 10 then false
    else AnyIn(CachePatterns, q)
  }

  datatype Served = Served(cache: Cache, response: Option<string>)

  /** A hit: the key is cached and has not expired. */
  predicate Fresh(c: Cache, query: string, now: real) {
    Lookup(c.entries, query).Some? && !Expired(Lookup(c.entries, query).value, now)
  }

  /** The miss path of `get_or_set` for a query worth caching:
      `cache_response` with the caller's TTL (`ResponseTtl` by default). */
  function StoreComputed(c: Cache, query: string, computed: string, ttl: int, now: real): (r: Served)
    requires Valid(c)
    ensures Valid(r.cache)
    ensures c.maxSize >= 1 ==>
      r.response == Some(computed) && Lookup(r.cache.entries, query) == Some(Entry(query, computed, now, TtlOf(c, Some(ttl))))
    ensures c.maxSize < 1 ==> r.response == None
  {
    var s := Set(c, query, computed, Some(ttl), now);
    if s.Stored? then
      SetThenLookup(c, query, computed, Some(ttl), now);
      assert Lookup(s.cache.entries, query) == Some(Entry(query, computed, now, TtlOf(c, Some(ttl))));
      Served(s.cache, Some(computed))
    else
      assert c.maxSize < 1;
      Served(s.cache, None)
  }

  /** `get_or_set` on the shared cache, with the computed response as an
      input (it is only used on a miss) and the TTL handed on to
      `cache_response`. `response` is `None` when the store raised. */
  function GetOrSet(c: Cache, query: string, computed: string, ttl: int, now: real): (r: Served)
    requires Valid(c)
    ensures Valid(r.cache)
    ensures Fresh(c, query, now) ==> r.response == Some(Lookup(c.entries, query).value.value)
    ensures !Fresh(c, query, now) ==>
      if ShouldCache(query) then
        if c.maxSize >= 1 then
          r.response == Some(computed) && Lookup(r.cache.entries, query) == Some(Entry(query, computed, now, TtlOf(c, Some(ttl))))
        else r.response == None
      else r.response == Some(computed) && query !in KeysOf(r.cache.entries)
  {
    var g := Get(c, query, now);
    if g.value.Some? then Served(g.cache, g.value)
    else Computed(c, g, query, computed, ttl, now, ShouldCache(query))
  }

  /** The miss path of `get_or_set`: the computed response is returned, and
      stored when `cacheable` (the verdict of `should_cache`) holds. */
  function Computed(c: Cache, g: GetOutcome, query: string, computed: string, ttl: int, now: real,
                    cacheable: bool): (r: Served)
    requires Valid(g.cache) && g.value.None? && query !in KeysOf(g.cache.entries)
    requires g.cache.maxSize == c.maxSize && g.cache.defaultTtl == c.defaultTtl
    ensures Valid(r.cache)
    ensures cacheable && c.maxSize >= 1 ==>
      r.response == Some(computed) && Lookup(r.cache.entries, query) == Some(Entry(query, computed, now, TtlOf(c, Some(ttl))))
    ensures cacheable && c.maxSize < 1 ==> r.response == None
    ensures !cacheable ==> r.response == Some(computed) && query !in KeysOf(r.cache.entries)
  {
    if cacheable then
      assert TtlOf(g.cache, Some(ttl)) == TtlOf(c, Some(ttl));
      StoreComputed(g.cache, query, computed, ttl, now)
    else Served(g.cache, Some(computed))
  }
}

=== FILE: metrics.dfy ===
/** The metrics service's pure parts: the token-usage record, the hourly
    breakdown, and the aggregations over the metrics log (per-model usage,
    response-time statistics, error rate), plus the CSV export of daily
    statistics. The log is the sequence of records that parse; reading the
    file, the buffer and the database queries are not part of the model. */
module Metrics {
  import opened Basics
  import opened Text
  import opened Sorting
  import opened Grouping

  /** One line of the metrics log. `timestamp` is an ISO string. */
  datatype Metric =
    | ResponseTime(sessionId: string, value: real, model: Option<string>, timestamp: string)
    | TokenUsage(sessionId: string, tokensIn: int, tokensOut: int, total: int, model: Option<string>, timestamp: string)
    | ErrorEvent(errorType: string, timestamp: string)
    | HandoverEvent(sessionId: string, reason: string, priority: string, timestamp: string)
    | FeedbackEvent(sessionId: string, rating: int, category: Option<string>, timestamp: string)

  /** `record_token_usage`: the record it buffers, stamped `now`. */
  function RecordTokenUsage(sessionId: string, tokensIn: int, tokensOut: int, model: Option<string>, now: string): (m: Metric)
    ensures m.TokenUsage? && m.total == m.tokensIn + m.tokensOut
    ensures m.sessionId == sessionId && m.tokensIn == tokensIn && m.tokensOut == tokensOut
    ensures m.model == model && m.timestamp == now
  {
    TokenUsage(sessionId, tokensIn, tokensOut, tokensIn + tokensOut, model, now)
  }

  // ----- hourly breakdown -----

  /** `f"{hour:02d}:00"`. */
  function HourLabel(h: nat): (s: string)
    requires h < 24
    ensures |s| == 5 && s[2..] == ":00"
    ensures '0' <= s[0] <= '2' && '0' <= s[1] <= '9'
  {
    [DigitChar(h / 10), DigitChar(h % 10)] + ":00"
  }

  /** Reads the hour back from a label. */
  function LabelHour(s: string): int
    requires |s| >= 2
  {
    (s[0] as int - '0' as int) * 10 + (s[1] as int - '0' as int)
  }

  /** Every label reads back as its hour. */
  lemma HourLabelRoundTrip(h: nat)
    requires h < 24
    ensures LabelHour(HourLabel(h)) == h
  {
  }

  /** Labels of earlier hours sort first. */
  lemma HourLabelsAscend(h1: nat, h2: nat)
    requires h1 < h2 < 24
    ensures LexLe(HourLabel(h1), HourLabel(h2)) && HourLabel(h1) != HourLabel(h2)
  {
    var a, b := HourLabel(h1), HourLabel(h2);
    HourLabelRoundTrip(h1);
    HourLabelRoundTrip(h2);
    if a[0] == b[0] {
      assert a[1] < b[1];
      assert LexLe(a[1..], b[1..]);
    }
  }

  datatype HourCount = HourCount(hour: string, count: nat)

  /** `get_hourly_breakdown`; `rows` are the (hour, count) pairs of the
      day's query, and a repeated hour keeps its last count. */
  function HourlyBreakdown(rows: seq<(int, nat)>): (r: seq<HourCount>)
    ensures |r| == 24
    ensures forall h: nat :: h < 24 ==> r[h].hour == HourLabel(h) && LabelHour(r[h].hour) == h
    ensures forall h: nat :: h < 24 && (forall i :: 0 <= i < |rows| ==> rows[i].0 != h) ==> r[h].count == 0
    ensures forall h: nat, i :: h < 24 && LastAt(rows, h, i) ==> r[h].count == rows[i].1
  {
    var r := seq(24, (h: int) requires 0 <= h < 24 => HourCount(HourLabel(h), LastValue(rows, h, 0)));
    forall h: nat | h < 24
      ensures r[h].hour == HourLabel(h) && LabelHour(r[h].hour) == h
    {
      HourLabelRoundTrip(h);
    }
    r
  }

  // ----- per-model usage -----

  predicate IsUsage(m: Metric) {
    m.TokenUsage?
  }

  /** `metric.get("model", "unknown")` of a usage record: the stored model,
      which may be `None`. */
  function ModelOf(m: Metric): Option<string> {
    if m.TokenUsage? then m.model else None
  }

  function IsUsageOf(model: Option<string>): Metric -> bool {
    (m: Metric) => m.TokenUsage? && m.model == model
  }

  function TotalOf(m: Metric): int {
    if m.TokenUsage? then m.total else 0
  }

  function Totals(ms: seq<Metric>): (ts: seq<int>)
    ensures |ts| == |ms|
    ensures forall i :: 0 <= i < |ms| ==> ts[i] == TotalOf(ms[i])
  {
    seq(|ms|, i requires 0 <= i < |ms| => TotalOf(ms[i]))
  }

  datatype ModelUsage = ModelUsage(model: Option<string>, calls: nat, tokens: int)

  function UsageRows(gs: seq<Group<Option<string>, Metric>>): (r: seq<ModelUsage>)
    ensures |r| == |gs|
    ensures forall i :: 0 <= i < |gs| ==> r[i] == ModelUsage(gs[i].0, |gs[i].1|, SumInt(Totals(gs[i].1)))
  {
    seq(|gs|, i requires 0 <= i < |gs| => ModelUsage(gs[i].0, |gs[i].1|, SumInt(Totals(gs[i].1))))
  }

  /** `get_model_usage_stats`: per model, in first-seen order, the number of
      usage records and the sum of their totals. */
  function ModelUsageStats(log: seq<Metric>): (r: seq<ModelUsage>)
    ensures forall i, j :: 0 <= i < j < |r| ==> r[i].model != r[j].model
    ensures forall i :: 0 <= i < |r| ==> r[i].calls == Count(log, IsUsageOf(r[i].model)) > 0
    ensures forall i :: 0 <= i < |r| ==> r[i].tokens == SumInt(Totals(Filter(log, IsUsageOf(r[i].model))))
    ensures forall k :: 0 <= k < |log| && log[k].TokenUsage? ==> exists i :: 0 <= i < |r| && r[i].model == log[k].model
  {
    var usage := Filter(log, IsUsage);
    var gs := GroupBy(usage, ModelOf);
    var r := UsageRows(gs);
    UsageRowsCounted(log, usage, gs, r);
    forall k | 0 <= k < |log| && log[k].TokenUsage?
      ensures exists i :: 0 <= i < |r| && r[i].model == log[k].model
    {
      assert log[k] in usage;
      assert ModelOf(log[k]) in Keys(gs);
    }
    r
  }

  /** Models are listed in the order the usage records first show them. */
  lemma ModelsFirstSeen(log: seq<Metric>)
    ensures var r := ModelUsageStats(log);
      forall i, j :: 0 <= i < j < |r| ==> SeenFirst(Filter(log, IsUsage), ModelOf, r[i].model, r[j].model)
  {
    var usage := Filter(log, IsUsage);
    var gs := GroupBy(usage, ModelOf);
    var r := UsageRows(gs);
    assert ModelUsageStats(log) == r;
    GroupByFirstSeen(usage, ModelOf);
    forall i, j | 0 <= i < j < |r|
      ensures SeenFirst(usage, ModelOf, r[i].model, r[j].model)
    {
      assert r[i].model == gs[i].0 && r[j].model == gs[j].0;
    }
  }

  /** Each model's row counts that model's usage records, at least one, and
      sums their totals. */
  lemma UsageRowsCounted(log: seq<Metric>, usage: seq<Metric>,
                         gs: seq<Group<Option<string>, Metric>>, r: seq<ModelUsage>)
    requires usage == Filter(log, IsUsage)
    requires gs == GroupBy(usage, ModelOf) && r == UsageRows(gs)
    ensures forall i :: 0 <= i < |r| ==> r[i].calls == Count(log, IsUsageOf(r[i].model)) > 0
    ensures forall i :: 0 <= i < |r| ==> r[i].tokens == SumInt(Totals(Filter(log, IsUsageOf(r[i].model))))
  {
    forall i | 0 <= i < |r|
      ensures r[i].calls == Count(log, IsUsageOf(r[i].model)) > 0
      ensures r[i].tokens == SumInt(Totals(Filter(log, IsUsageOf(r[i].model))))
    {
      var model := gs[i].0;
      GroupsNonEmpty(usage, ModelOf, i);
      assert gs[i].1 == Filter(usage, HasKey(ModelOf, model));
      assert r[i] == ModelUsage(model, |gs[i].1|, SumInt(Totals(gs[i].1)));
      forall m: Metric
        ensures IsUsageOf(model)(m) == (IsUsage(m) && HasKey(ModelOf, model)(m))
      {
        assert HasKey(ModelOf, model)(m) == (ModelOf(m) == model);
      }
      FilterFilter(log, IsUsage, HasKey(ModelOf, model), IsUsageOf(model));
    }
  }

  /** Recording a usage adds one call and its tokens to its model's row. */
  lemma RecordedUsageCounted(log: seq<Metric>, sessionId: string, tokensIn: int, tokensOut: int, model: Option<string>, now: string)
    ensures var logged := log + [RecordTokenUsage(sessionId, tokensIn, tokensOut, model, now)];
      exists i :: (0 <= i < |ModelUsageStats(logged)| && ModelUsageStats(logged)[i].model == model
        && ModelUsageStats(logged)[i].calls == Count(log, IsUsageOf(model)) + 1
        && ModelUsageStats(logged)[i].tokens == SumInt(Totals(Filter(log, IsUsageOf(model)))) + tokensIn + tokensOut)
  {
    var m := RecordTokenUsage(sessionId, tokensIn, tokensOut, model, now);
    assert m.model == model && m.total == tokensIn + tokensOut;
    var i := RowAfter(log, m);
  }

  /** The row of a just-logged usage record's model counts it on top of the
      earlier records. */
  lemma RowAfter(log: seq<Metric>, m: Metric) returns (i: nat)
    requires m.TokenUsage?
    ensures i < |ModelUsageStats(log + [m])| && ModelUsageStats(log + [m])[i].model == m.model
    ensures ModelUsageStats(log + [m])[i].calls == Count(log, IsUsageOf(m.model)) + 1
    ensures ModelUsageStats(log + [m])[i].tokens == SumInt(Totals(Filter(log, IsUsageOf(m.model)))) + m.total
  {
    var logged := log + [m];
    assert logged[|log|] == m;
    i := RowFor(logged, |log|);
    UsageAppend(log, m);
  }

  /** The row of a usage record's model. */
  lemma RowFor(log: seq<Metric>, k: nat) returns (i: nat)
    requires k < |log| && log[k].TokenUsage?
    ensures i < |ModelUsageStats(log)| && ModelUsageStats(log)[i].model == log[k].model
  {
    var r := ModelUsageStats(log);
    i :| i < |r| && r[i].model == log[k].model;
  }

  /** One more usage record for a model: one more call, its total added. */
  lemma UsageAppend(log: seq<Metric>, m: Metric)
    requires m.TokenUsage?
    ensures Count(log + [m], IsUsageOf(m.model)) == Count(log, IsUsageOf(m.model)) + 1
    ensures SumInt(Totals(Filter(log + [m], IsUsageOf(m.model))))
      == SumInt(Totals(Filter(log, IsUsageOf(m.model)))) + m.total
  {
    var p := IsUsageOf(m.model);
    var before := Filter(log, p);
    assert (log + [m])[..|log|] == log;
    assert Filter(log + [m], p) == before + [m];
    var ts := Totals(before + [m]);
    assert ts[..|before|] == Totals(before);
  }

  // ----- response times -----

  function IsRecentResponse(cutoff: string): Metric -> bool {
    (m: Metric) => m.ResponseTime? && LexLe(cutoff, m.timestamp)
  }

  /** The `value`s of the response-time records at or after `cutoff`, in
      log order. */
  function ResponseTimes(log: seq<Metric>, cutoff: string): (ts: seq<real>)
    ensures |ts| == Count(log, IsRecentResponse(cutoff))
    ensures forall t :: t in ts ==> exists i :: 0 <= i < |log| && IsRecentResponse(cutoff)(log[i]) && log[i].value == t
    ensures forall i :: 0 <= i < |ts| ==>
      Filter(log, IsRecentResponse(cutoff))[i].ResponseTime? && ts[i] == Filter(log, IsRecentResponse(cutoff))[i].value
  {
    var rs := Filter(log, IsRecentResponse(cutoff));
    var ts := seq(|rs|, i requires 0 <= i < |rs| => ValueOf(rs[i]));
    forall i | 0 <= i < |ts|
      ensures rs[i].ResponseTime? && ts[i] == rs[i].value
    {
      assert rs[i] in rs;
    }
    forall t | t in ts
      ensures exists i :: 0 <= i < |log| && IsRecentResponse(cutoff)(log[i]) && log[i].value == t
    {
      var k :| 0 <= k < |ts| && ts[k] == t;
      assert rs[k] in rs;
      var i :| 0 <= i < |log| && log[i] == rs[k];
    }
    ts
  }

  function ValueOf(m: Metric): real {
    if m.ResponseTime? then m.value else 0.0
  }

  datatype ResponseStats = ResponseStats(avg: real, min: real, max: real, p95: real, count: nat)

  /** `int(count * 0.95)`, the index of the 95th percentile. */
  function P95Index(count: nat): (i: nat)
    ensures count > 0 ==> i < count
    ensures i * 100 <= count * 95 < (i + 1) * 100
  {
    count * 95 / 100
  }

  function RealLe(): (real, real) -> bool {
    ByRealKey((x: real) => x)
  }

  /** `xs[i] if i < len(xs) else xs[-1]`. */
  function AtOrLast(xs: seq<real>, i: nat): (x: real)
    requires |xs| > 0
    ensures x in xs
    ensures i < |xs| ==> x == xs[i]
  {
    if i < |xs| then xs[i] else xs[|xs| - 1]
  }

  /** `get_response_time_stats`, before rounding; `cutoff` is the ISO time
      `hours` hours ago. */
  function ResponseTimeStats(log: seq<Metric>, cutoff: string): (r: ResponseStats)
    ensures r.count == Count(log, IsRecentResponse(cutoff))
    ensures r.count == 0 ==> r == ResponseStats(0.0, 0.0, 0.0, 0.0, 0)
    ensures r.count > 0 ==> r.min in ResponseTimes(log, cutoff) && r.max in ResponseTimes(log, cutoff)
    ensures forall t :: t in ResponseTimes(log, cutoff) ==> r.min <= t <= r.max
    ensures r.count > 0 ==> r.p95 in ResponseTimes(log, cutoff) && r.min <= r.p95 <= r.max
    ensures r.count > 0 ==>
      Count(ResponseTimes(log, cutoff), Below(r.p95)) <= P95Index(r.count) < Count(ResponseTimes(log, cutoff), NotAbove(r.p95))
    ensures r.count > 0 ==> r.avg == MeanReal(ResponseTimes(log, cutoff))
    ensures r.min <= r.avg <= r.max
  {
    var ts := ResponseTimes(log, cutoff);
    if |ts| == 0 then ResponseStats(0.0, 0.0, 0.0, 0.0, 0)
    else
      var n := |ts|;
      ByRealKeyIsPreorder((x: real) => x);
      var sorted := SortBy(ts, RealLe());
      var i := P95Index(n);
      var p95 := AtOrLast(sorted, i);
      SortedFacts(ts, sorted);
      assert forall k :: 0 <= k < n ==> sorted[0] <= ts[k] <= sorted[n - 1] by {
        forall k | 0 <= k < n
          ensures sorted[0] <= ts[k] <= sorted[n - 1]
        {
          assert ts[k] in ts;
        }
      }
      SortedEnds(sorted, RealLe(), i);
      SortedRank(ts, sorted, i);
      MeanRealBounds(ts, sorted[0], sorted[n - 1]);
      ResponseStats(MeanReal(ts), sorted[0], sorted[n - 1], p95, n)
  }

  function Below(v: real): real -> bool {
    (x: real) => x < v
  }

  function NotAbove(v: real): real -> bool {
    (x: real) => x <= v
  }

  /** The `i`-th of the sorted times has rank `i`: at most `i` times lie
      strictly below it and more than `i` lie at or below it. */
  lemma SortedRank(ts: seq<real>, sorted: seq<real>, i: nat)
    requires multiset(sorted) == multiset(ts)
    requires SortedBy(sorted, RealLe()) && i < |sorted|
    ensures Count(ts, Below(sorted[i])) <= i < Count(ts, NotAbove(sorted[i]))
  {
    CountPerm(ts, sorted, Below(sorted[i]));
    CountPerm(ts, sorted, NotAbove(sorted[i]));
    FewerBelow(sorted, i);
    MoreNotAbove(sorted, i);
  }

  lemma FewerBelow(sorted: seq<real>, i: nat)
    requires SortedBy(sorted, RealLe()) && i < |sorted|
    ensures Count(sorted, Below(sorted[i])) <= i
  {
    var p := Below(sorted[i]);
    var tail := sorted[i..];
    assert forall x :: x in tail ==> !p(x) by {
      forall x | x in tail
        ensures !p(x)
      {
        var j :| 0 <= j < |tail| && tail[j] == x;
        assert RealLe()(sorted[i], sorted[i + j]) || j == 0;
      }
    }
    FilterNone(tail, p);
    assert sorted == sorted[..i] + tail;
    FilterAppend(sorted[..i], tail, p);
  }

  lemma MoreNotAbove(sorted: seq<real>, i: nat)
    requires SortedBy(sorted, RealLe()) && i < |sorted|
    ensures i < Count(sorted, NotAbove(sorted[i]))
  {
    var p := NotAbove(sorted[i]);
    var head := sorted[..i + 1];
    assert forall x :: x in head ==> p(x) by {
      forall x | x in head
        ensures p(x)
      {
        var j :| 0 <= j <= i && head[j] == x;
        assert RealLe()(sorted[j], sorted[i]) || j == i;
      }
    }
    FilterAll(head, p);
    assert sorted == head + sorted[i + 1..];
    FilterAppend(head, sorted[i + 1..], p);
  }

  /** The ends of the sorted times are their minimum and maximum. */
  lemma SortedFacts(ts: seq<real>, sorted: seq<real>)
    requires |ts| > 0 && multiset(sorted) == multiset(ts)
    requires SortedBy(sorted, RealLe())
    ensures |sorted| == |ts|
    ensures sorted[0] in ts && sorted[|sorted| - 1] in ts
    ensures forall t :: t in ts ==> sorted[0] <= t <= sorted[|sorted| - 1]
    ensures forall k :: 0 <= k < |sorted| ==> sorted[k] in ts
  {
    assert |sorted| == |multiset(sorted)| == |multiset(ts)| == |ts|;
    forall k | 0 <= k < |sorted|
      ensures sorted[k] in ts
    {
      assert sorted[k] in multiset(ts);
    }
    forall t | t in ts
      ensures sorted[0] <= t <= sorted[|sorted| - 1]
    {
      assert t in multiset(sorted);
      var k :| 0 <= k < |sorted| && sorted[k] == t;
      assert RealLe()(sorted[0], sorted[k]) || k == 0;
      assert RealLe()(sorted[k], sorted[|sorted| - 1]) || k == |sorted| - 1;
    }
  }

  /** `sum(xs) / len(xs)`. */
  function MeanReal(xs: seq<real>): (m: real)
    requires |xs| > 0
    ensures m * |xs| as real == SumReal(xs)
  {
    SumReal(xs) / |xs| as real
  }

  /** A mean lies between the bounds of what it averages. */
  lemma MeanRealBounds(xs: seq<real>, lo: real, hi: real)
    requires |xs| > 0
    requires forall i :: 0 <= i < |xs| ==> lo <= xs[i] <= hi
    ensures lo <= MeanReal(xs) <= hi
  {
    SumRealBounds(xs, lo, hi);
    DivBounds(SumReal(xs), |xs| as real, lo, hi);
  }

  lemma DivBounds(s: real, n: real, lo: real, hi: real)
    requires n > 0.0 && n * lo <= s <= n * hi
    ensures lo <= s / n <= hi
  {
    var m := s / n;
    assert m * n == s;
  }

  // ----- error rate -----

  function IsRecentError(cutoff: string): Metric -> bool {
    (m: Metric) => m.ErrorEvent? && LexLe(cutoff, m.timestamp)
  }

  function IsRecentErrorOf(cutoff: string, t: string): Metric -> bool {
    (m: Metric) => m.ErrorEvent? && LexLe(cutoff, m.timestamp) && m.errorType == t
  }

  function ErrorTypeOf(m: Metric): string {
    if m.ErrorEvent? then m.errorType else ""
  }

  datatype ErrorRate = ErrorRate(totalRequests: nat, errorCount: nat, ratePercent: real, errorsByType: seq<(string, nat)>)

  function TypeRows(gs: seq<Group<string, Metric>>): (r: seq<(string, nat)>)
    ensures |r| == |gs|
    ensures forall i :: 0 <= i < |gs| ==> r[i] == (gs[i].0, |gs[i].1|)
    ensures CountSum(r) == SizeSum(gs)
    decreases |gs|
  {
    if |gs| == 0 then []
    else
      var init := TypeRows(gs[..|gs| - 1]);
      assert (init + [(gs[|gs| - 1].0, |gs[|gs| - 1].1|)])[..|gs| - 1] == init;
      init + [(gs[|gs| - 1].0, |gs[|gs| - 1].1|)]
  }

  function CountSum(rows: seq<(string, nat)>): nat
    decreases |rows|
  {
    if |rows| == 0 then 0 else CountSum(rows[..|rows| - 1]) + rows[|rows| - 1].1
  }

  /** `get_error_rate`, before rounding; `cutoff` is the ISO time `hours`
      hours ago. `errorsByType` keeps the dict's insertion order. */
  function GetErrorRate(log: seq<Metric>, cutoff: string): (r: ErrorRate)
    ensures r.totalRequests == Count(log, IsRecentResponse(cutoff))
    ensures r.errorCount == Count(log, IsRecentError(cutoff))
    ensures r.totalRequests == 0 ==> r.ratePercent == 0.0
    ensures r.totalRequests > 0 ==> r.ratePercent == Percent(r.errorCount, r.totalRequests)
    ensures CountSum(r.errorsByType) == r.errorCount
    ensures forall i, j :: 0 <= i < j < |r.errorsByType| ==> r.errorsByType[i].0 != r.errorsByType[j].0
    ensures forall i :: 0 <= i < |r.errorsByType| ==>
      r.errorsByType[i].1 == Count(log, IsRecentErrorOf(cutoff, r.errorsByType[i].0)) > 0
    ensures FirstSeenOrder(Filter(log, IsRecentError(cutoff)), ErrorTypeOf, r.errorsByType)
  {
    var total := Count(log, IsRecentResponse(cutoff));
    var errors := Count(log, IsRecentError(cutoff));
    var rows := ErrorTypeRows(log, cutoff);
    ErrorTypesFirstSeen(log, cutoff);
    var rate := if total > 0 then Percent(errors, total) else 0.0;
    ErrorRate(total, errors, rate, rows)
  }

  /** `errors_by_type`: one row per error type, each counting the recent
      errors of that type, the counts adding up to all recent errors. */
  function ErrorTypeRows(log: seq<Metric>, cutoff: string): (rows: seq<(string, nat)>)
    ensures CountSum(rows) == Count(log, IsRecentError(cutoff))
    ensures forall i, j :: 0 <= i < j < |rows| ==> rows[i].0 != rows[j].0
    ensures forall i :: 0 <= i < |rows| ==> rows[i].1 == Count(log, IsRecentErrorOf(cutoff, rows[i].0)) > 0
  {
    var errors := Filter(log, IsRecentError(cutoff));
    var gs := GroupBy(errors, ErrorTypeOf);
    var rows := TypeRows(gs);
    assert CountSum(rows) == |errors| by { GroupSizesSum(errors, ErrorTypeOf); }
    assert forall i, j :: 0 <= i < j < |rows| ==> rows[i].0 != rows[j].0 by {
      forall i, j | 0 <= i < j < |rows|
        ensures rows[i].0 != rows[j].0
      {
        assert rows[i].0 == gs[i].0 && rows[j].0 == gs[j].0;
      }
    }
    TypeRowsCounted(log, cutoff, errors, gs, rows);
    rows
  }

  /** The error types are listed in the order the recent errors first show
      them, as the keys of the dict filled in one pass. */
  lemma ErrorTypesFirstSeen(log: seq<Metric>, cutoff: string)
    ensures FirstSeenOrder(Filter(log, IsRecentError(cutoff)), ErrorTypeOf, ErrorTypeRows(log, cutoff))
  {
    var errors := Filter(log, IsRecentError(cutoff));
    var gs := GroupBy(errors, ErrorTypeOf);
    var rows := TypeRows(gs);
    assert ErrorTypeRows(log, cutoff) == rows;
    GroupByFirstSeen(errors, ErrorTypeOf);
    forall i, j | 0 <= i < j < |rows|
      ensures SeenFirst(errors, ErrorTypeOf, rows[i].0, rows[j].0)
    {
      assert rows[i].0 == gs[i].0 && rows[j].0 == gs[j].0;
    }
  }

  /** Each type's row counts the recent errors of that type, at least one. */
  lemma TypeRowsCounted(log: seq<Metric>, cutoff: string, errors: seq<Metric>,
                        gs: seq<Group<string, Metric>>, rows: seq<(string, nat)>)
    requires errors == Filter(log, IsRecentError(cutoff))
    requires gs == GroupBy(errors, ErrorTypeOf) && rows == TypeRows(gs)
    ensures forall i :: 0 <= i < |rows| ==> rows[i].1 == Count(log, IsRecentErrorOf(cutoff, rows[i].0)) > 0
  {
    forall i | 0 <= i < |rows|
      ensures rows[i].1 == Count(log, IsRecentErrorOf(cutoff, rows[i].0)) > 0
    {
      var t := gs[i].0;
      GroupsNonEmpty(errors, ErrorTypeOf, i);
      assert gs[i].1 == Filter(errors, HasKey(ErrorTypeOf, t));
      assert rows[i] == (t, |gs[i].1|);
      forall m: Metric
        ensures IsRecentErrorOf(cutoff, t)(m) == (IsRecentError(cutoff)(m) && HasKey(ErrorTypeOf, t)(m))
      {
        assert HasKey(ErrorTypeOf, t)(m) == (ErrorTypeOf(m) == t);
      }
      FilterFilter(log, IsRecentError(cutoff), HasKey(ErrorTypeOf, t), IsRecentErrorOf(cutoff, t));
    }
  }

  /** Every recent error's type has a row. */
  lemma ErrorTypesListed(log: seq<Metric>, cutoff: string, k: nat)
    requires k < |log| && IsRecentError(cutoff)(log[k])
    ensures exists i :: (0 <= i < |GetErrorRate(log, cutoff).errorsByType|
      && GetErrorRate(log, cutoff).errorsByType[i].0 == log[k].errorType)
  {
    var errors := Filter(log, IsRecentError(cutoff));
    var gs := GroupBy(errors, ErrorTypeOf);
    assert log[k] in errors;
    assert ErrorTypeOf(log[k]) in Keys(gs);
    var i :| 0 <= i < |gs| && gs[i].0 == log[k].errorType;
    assert GetErrorRate(log, cutoff).errorsByType == TypeRows(gs);
  }

  // ----- CSV export -----

  /** One row of the day-by-day message query; `tokens` is `None` when the
      day's sum is NULL. */
  datatype MessageDay = MessageDay(date: string, count: nat, tokens: Option<nat>)

  function MessagePairs(rows: seq<MessageDay>): (ps: seq<(string, (nat, nat))>)
    ensures |ps| == |rows|
    ensures forall i :: 0 <= i < |rows| ==> ps[i] == (rows[i].date, (rows[i].count, rows[i].tokens.GetOr(0)))
  {
    seq(|rows|, i requires 0 <= i < |rows| => (rows[i].date, (rows[i].count, rows[i].tokens.GetOr(0))))
  }

  function FirstOf<V>(rows: seq<(string, V)>): (ks: seq<string>)
    ensures |ks| == |rows|
    ensures forall i :: 0 <= i < |rows| ==> ks[i] == rows[i].0
  {
    seq(|rows|, i requires 0 <= i < |rows| => rows[i].0)
  }

  function StringLe(): (string, string) -> bool {
    (a: string, b: string) => LexLe(a, b)
  }

  lemma StringLeIsPreorder()
    ensures TotalPreorder(StringLe())
  {
    forall a, b
      ensures StringLe()(a, b) || StringLe()(b, a)
    {
      LexLeTotal(a, b);
    }
    forall a, b, c | StringLe()(a, b) && StringLe()(b, c)
      ensures StringLe()(a, c)
    {
      LexLeTrans(a, b, c);
    }
  }

  /** A date of either query. */
  predicate DateOf(sessions: seq<(string, nat)>, messages: seq<MessageDay>, d: string) {
    (exists i :: 0 <= i < |sessions| && sessions[i].0 == d)
    || (exists i :: 0 <= i < |messages| && messages[i].date == d)
  }

  function DateKeys(sessions: seq<(string, nat)>, messages: seq<MessageDay>): (ks: seq<string>)
    ensures forall d :: d in ks <==> DateOf(sessions, messages, d)
  {
    var ks := FirstOf(sessions) + FirstOf(MessagePairs(messages));
    forall d | DateOf(sessions, messages, d)
      ensures d in ks
    {
      if exists i :: 0 <= i < |sessions| && sessions[i].0 == d {
        var i :| 0 <= i < |sessions| && sessions[i].0 == d;
        assert FirstOf(sessions)[i] == d;
      } else {
        var i :| 0 <= i < |messages| && messages[i].date == d;
        assert FirstOf(MessagePairs(messages))[i] == d;
      }
    }
    ks
  }

  /** `sorted(set(sessions_by_day) | set(messages_by_day))`. */
  function ExportDates(sessions: seq<(string, nat)>, messages: seq<MessageDay>): (ds: seq<string>)
    ensures forall d :: d in ds <==> DateOf(sessions, messages, d)
    ensures Distinct(ds)
    ensures SortedBy(ds, StringLe())
  {
    var keys := Dedup(DateKeys(sessions, messages));
    StringLeIsPreorder();
    var ds := SortBy(keys, StringLe());
    DistinctPerm(keys, ds);
    SameElements(keys, ds);
    ds
  }

  lemma SameElements<T>(xs: seq<T>, ys: seq<T>)
    requires multiset(xs) == multiset(ys)
    ensures forall x :: x in xs <==> x in ys
  {
    forall x
      ensures x in xs <==> x in ys
    {
      assert x in xs <==> x in multiset(xs);
      assert x in ys <==> x in multiset(ys);
    }
  }

  datatype CsvRow = CsvRow(date: string, sessions: nat, messages: nat, tokens: nat)

  /** The values written for each date; a side without the date gives 0. */
  function CsvRows(sessions: seq<(string, nat)>, messages: seq<MessageDay>): (r: seq<CsvRow>)
    ensures |r| == |ExportDates(sessions, messages)|
    ensures forall i :: 0 <= i < |r| ==> r[i].date == ExportDates(sessions, messages)[i]
    ensures forall i :: 0 <= i < |r| ==> r[i].sessions == LastValue(sessions, r[i].date, 0)
    ensures forall i :: 0 <= i < |r| ==>
      (r[i].messages, r[i].tokens) == LastValue(MessagePairs(messages), r[i].date, (0, 0))
  {
    var ds := ExportDates(sessions, messages);
    var ps := MessagePairs(messages);
    seq(|ds|, i requires 0 <= i < |ds| =>
      var m := LastValue(ps, ds[i], (0, 0));
      CsvRow(ds[i], LastValue(sessions, ds[i], 0), m.0, m.1))
  }

  const CsvHeader: string := "date,sessions,messages,tokens"

  function CsvLine(row: CsvRow): string {
    row.date + "," + NatToString(row.sessions) + "," + NatToString(row.messages) + "," + NatToString(row.tokens)
  }

  function CsvLines(rows: seq<CsvRow>): (ls: seq<string>)
    ensures |ls| == |rows|
    ensures forall i :: 0 <= i < |rows| ==> ls[i] == CsvLine(rows[i])
  {
    seq(|rows|, i requires 0 <= i < |rows| => CsvLine(rows[i]))
  }

  predicate NoNewline(s: string) {
    '\n' !in s
  }

  predicate NoNewlines(sessions: seq<(string, nat)>, messages: seq<MessageDay>) {
    (forall i :: 0 <= i < |sessions| ==> NoNewline(sessions[i].0))
    && (forall i :: 0 <= i < |messages| ==> NoNewline(messages[i].date))
  }

  /** The `csv` branch of `export_metrics`: the header, then one line per
      date. */
  function ExportCsv(sessions: seq<(string, nat)>, messages: seq<MessageDay>): (csv: string)
    ensures NoNewlines(sessions, messages) ==>
      var lines := SplitOn(csv, "\n");
      && |lines| == 1 + |ExportDates(sessions, messages)|
      && lines[0] == CsvHeader
      && forall i :: 0 <= i < |ExportDates(sessions, messages)| ==>
        lines[i + 1] == CsvLine(CsvRows(sessions, messages)[i])
  {
    var rows := CsvRows(sessions, messages);
    var lines := [CsvHeader] + CsvLines(rows);
    assert NoNewlines(sessions, messages) ==> SplitOn(Join(lines, "\n"), "\n") == lines by {
      if NoNewlines(sessions, messages) {
        LinesHaveNoNewline(sessions, messages);
        SplitJoin(lines, '\n');
      }
    }
    Join(lines, "\n")
  }

  /** Dates without a newline give lines without one. */
  lemma LinesHaveNoNewline(sessions: seq<(string, nat)>, messages: seq<MessageDay>)
    requires NoNewlines(sessions, messages)
    ensures forall i :: 0 <= i < |[CsvHeader] + CsvLines(CsvRows(sessions, messages))| ==>
      '\n' !in ([CsvHeader] + CsvLines(CsvRows(sessions, messages)))[i]
  {
    var rows := CsvRows(sessions, messages);
    var ls := CsvLines(rows);
    HeaderNoNewline();
    forall k | 0 <= k < |ls|
      ensures NoNewline(ls[k])
    {
      RowNoNewline(sessions, messages, k);
    }
    ConsNoNewline(CsvHeader, ls);
  }

  /** A line without a newline in front of such lines. */
  lemma ConsNoNewline(h: string, ls: seq<string>)
    requires NoNewline(h) && forall k :: 0 <= k < |ls| ==> NoNewline(ls[k])
    ensures forall i :: 0 <= i < |[h] + ls| ==> '\n' !in ([h] + ls)[i]
  {
    var lines := [h] + ls;
    forall i | 0 <= i < |lines|
      ensures '\n' !in lines[i]
    {
      if i > 0 {
        assert lines[i] == ls[i - 1];
      }
    }
  }

  /** One data line has no newline. */
  lemma RowNoNewline(sessions: seq<(string, nat)>, messages: seq<MessageDay>, k: nat)
    requires NoNewlines(sessions, messages)
    requires k < |ExportDates(sessions, messages)|
    ensures NoNewline(CsvLines(CsvRows(sessions, messages))[k])
  {
    var row := CsvRows(sessions, messages)[k];
    DateNoNewline(sessions, messages, k);
    CsvLineNoNewline(row);
  }

  lemma HeaderNoNewline()
    ensures NoNewline(CsvHeader)
  {
    forall i | 0 <= i < |CsvHeader|
      ensures CsvHeader[i] != '\n'
    {
    }
  }

  /** Every exported date comes from one of the two queries. */
  lemma DateNoNewline(sessions: seq<(string, nat)>, messages: seq<MessageDay>, i: nat)
    requires NoNewlines(sessions, messages)
    requires i < |ExportDates(sessions, messages)|
    ensures NoNewline(ExportDates(sessions, messages)[i])
  {
    var d := ExportDates(sessions, messages)[i];
    assert DateOf(sessions, messages, d);
  }

  /** The numbers are digits, so a line's only newline could come from its date. */
  lemma CsvLineNoNewline(row: CsvRow)
    requires NoNewline(row.date)
    ensures NoNewline(CsvLine(row))
  {
    NatToStringDigits(row.sessions);
    NatToStringDigits(row.messages);
    NatToStringDigits(row.tokens);
  }
}

=== FILE: rate_limiter.dfy ===
/** `RateLimitMiddleware`: a per-IP sliding window of request times with an
    exponential block on overflow, a separate window for the chat endpoint,
    and an IP whitelist. The clock is the `now` argument of each call. */
module RateLimiter {
  import opened Basics

  const DefaultRequestsPerMinute: int := 60
  const DefaultChatRequestsPerMinute: int := 10
  /** Length of the sliding window, in seconds. */
  const Window: int := 60
  /** The longest block, in seconds. */
  const MaxBlock: int := 3600
  const ChatPath: string := "/api/chat"

  /** `request_counts` and `chat_counts` are `defaultdict(list)`: a missing
      IP reads as the empty list. */
  datatype Limiter = Limiter(
    requestsPerMinute: int,
    chatRequestsPerMinute: int,
    requests: map<string, seq<real>>,
    chats: map<string, seq<real>>,
    blocked: map<string, real>,
    whitelist: set<string>)

  function New(requestsPerMinute: int, chatRequestsPerMinute: int): Limiter {
    Limiter(requestsPerMinute, chatRequestsPerMinute, map[], map[], map[], {})
  }

  function Times(m: map<string, seq<real>>, ip: string): seq<real> {
    if ip in m then m[ip] else []
  }

  /** `_cleanup_old_requests`: pop leading times older than the window. */
  function Cleanup(ts: seq<real>, now: real): (r: seq<real>)
    ensures IsSuffix(r, ts)
    ensures |r| > 0 ==> r[0] >= now - Window as real
    ensures forall i :: 0 <= i < |ts| - |r| ==> ts[i] < now - Window as real
    decreases |ts|
  {
    if |ts| > 0 && ts[0] < now - Window as real then
      var r := Cleanup(ts[1..], now);
      assert ts[1..][|ts| - 1 - |r|..] == ts[|ts| - |r|..];
      forall i | 1 <= i < |ts| - |r|
        ensures ts[i] < now - Window as real
      {
        assert ts[1..][i - 1] == ts[i];
      }
      r
    else ts
  }

  predicate NonDecreasing(ts: seq<real>) {
    forall i, j :: 0 <= i < j < |ts| ==> ts[i] <= ts[j]
  }

  /** On a sorted list, cleanup removes exactly the times before the cutoff. */
  lemma CleanupSorted(ts: seq<real>, now: real)
    requires NonDecreasing(ts)
    ensures forall t :: t in Cleanup(ts, now) ==> t >= now - Window as real
    ensures forall t :: t in ts && t >= now - Window as real ==> t in Cleanup(ts, now)
  {
    var r := Cleanup(ts, now);
    var k := |ts| - |r|;
    assert r == ts[k..];
    forall t | t in r
      ensures t >= now - Window as real
    {
      var i :| 0 <= i < |r| && r[i] == t;
      assert r[0] >= now - Window as real;
      assert ts[k + i] == t && ts[k] == r[0];
      if i > 0 {
        assert ts[k] <= ts[k + i];
      }
    }
    forall t | t in ts && t >= now - Window as real
      ensures t in r
    {
      var i :| 0 <= i < |ts| && ts[i] == t;
      assert i >= k;
      assert r[i - k] == t;
    }
  }

  /** `2 ** n`. */
  function Pow2(n: nat): (r: nat)
    ensures r >= 1
  {
    if n == 0 then 1 else 2 * Pow2(n - 1)
  }

  /** `min(60 * (2 ** min(violation_count, 5)), 3600)`. */
  function BlockDuration(violations: int): (d: int)
    requires violations >= 1
    ensures 120 <= d <= 1920
    ensures violations == 1 ==> d == 120
  {
    var e := Min(violations, 5);
    assert Pow2(e) <= 32 by { PowMono(e, 5); }
    assert Pow2(e) >= 2 by { PowMono(1, e); }
    Min(60 * Pow2(e), MaxBlock)
  }

  lemma {:induction false} PowMono(a: nat, b: nat)
    requires a <= b
    ensures Pow2(a) <= Pow2(b)
    decreases b
  {
    if a < b {
      PowMono(a, b - 1);
    }
  }

  datatype Verdict =
    | Pass
    /** 429 while blocked; `remaining` is `int(unblock - now)`. */
    | StillBlocked(remaining: int)
    /** 429 on reaching the general limit; the IP is now blocked. */
    | RateLimited(blockDuration: int)
    /** 429 on reaching the chat limit; no block. */
    | ChatLimited

  datatype Step = Step(limiter: Limiter, verdict: Verdict)

  /** `a` and `b` agree on every IP other than `ip`. */
  ghost predicate SameElsewhere(a: Limiter, b: Limiter, ip: string) {
    forall other :: other != ip ==>
      && Times(a.requests, other) == Times(b.requests, other)
      && Times(a.chats, other) == Times(b.chats, other)
      && (other in a.blocked <==> other in b.blocked)
      && (other in a.blocked ==> a.blocked[other] == b.blocked[other])
  }

  lemma SameElsewhereTrans(a: Limiter, b: Limiter, c: Limiter, ip: string)
    requires SameElsewhere(a, b, ip) && SameElsewhere(b, c, ip)
    ensures SameElsewhere(a, c, ip)
  {
  }

  /** The settings and the whitelist, which `dispatch` never changes. */
  predicate SameSettings(a: Limiter, b: Limiter) {
    && a.requestsPerMinute == b.requestsPerMinute
    && a.chatRequestsPerMinute == b.chatRequestsPerMinute
    && a.whitelist == b.whitelist
  }

  /** The windows after cleanup, as `dispatch` stores them back (reading a
      `defaultdict` creates the entry). */
  function Cleaned(l: Limiter, ip: string, now: real): (r: Limiter)
    ensures r.requests == l.requests[ip := Cleanup(Times(l.requests, ip), now)]
    ensures r.chats == l.chats[ip := Cleanup(Times(l.chats, ip), now)]
    ensures r.blocked == l.blocked && SameSettings(r, l)
    ensures SameElsewhere(r, l, ip)
  {
    l.(requests := l.requests[ip := Cleanup(Times(l.requests, ip), now)],
       chats := l.chats[ip := Cleanup(Times(l.chats, ip), now)])
  }

  /** The limit checks of `dispatch`, on windows that are already cleaned
      for `ip`. */
  function Admit(l: Limiter, ip: string, path: string, now: real): (s: Step)
    requires ip in l.requests && ip in l.chats
    ensures SameSettings(s.limiter, l) && SameElsewhere(s.limiter, l, ip)
    ensures s.verdict.Pass? || s.verdict.RateLimited? || s.verdict.ChatLimited?
    ensures s.verdict.RateLimited? <==> |l.requests[ip]| >= l.requestsPerMinute
    ensures s.verdict.RateLimited? ==>
      && s.verdict.blockDuration == BlockDuration(|l.requests[ip]| - l.requestsPerMinute + 1)
      && s.limiter.blocked == l.blocked[ip := now + s.verdict.blockDuration as real]
    ensures s.verdict.ChatLimited? <==>
      |l.requests[ip]| < l.requestsPerMinute && path == ChatPath && |l.chats[ip]| >= l.chatRequestsPerMinute
    ensures !s.verdict.RateLimited? ==> s.limiter.blocked == l.blocked
    ensures s.verdict.Pass? ==> s.limiter.requests == l.requests[ip := l.requests[ip] + [now]]
    ensures !s.verdict.Pass? ==> s.limiter.requests == l.requests
    ensures s.verdict.Pass? && path == ChatPath ==> s.limiter.chats == l.chats[ip := l.chats[ip] + [now]]
    ensures !(s.verdict.Pass? && path == ChatPath) ==> s.limiter.chats == l.chats
  {
    var reqs := l.requests[ip];
    var chats := l.chats[ip];
    if |reqs| >= l.requestsPerMinute then
      var d := BlockDuration(|reqs| - l.requestsPerMinute + 1);
      Step(l.(blocked := l.blocked[ip := now + d as real]), RateLimited(d))
    else if path == ChatPath && |chats| >= l.chatRequestsPerMinute then
      Step(l, ChatLimited)
    else
      var l1 := if path == ChatPath then l.(chats := l.chats[ip := chats + [now]]) else l;
      Step(l1.(requests := l1.requests[ip := reqs + [now]]), Pass)
  }

  /** `dispatch` for a request from `ip` to `path` at time `now`; `Pass`
      stands for handing the request on to `call_next`. */
  function Dispatch(l: Limiter, ip: string, path: string, now: real): (s: Step)
    ensures SameSettings(s.limiter, l) && SameElsewhere(s.limiter, l, ip)
    ensures ip in l.whitelist ==> s == Step(l, Pass)
    ensures ip !in l.whitelist && ip in l.blocked && now < l.blocked[ip] ==>
      s == Step(l, StillBlocked((l.blocked[ip] - now).Floor)) && s.verdict.remaining >= 0
    ensures ip !in l.whitelist && !(ip in l.blocked && now < l.blocked[ip]) ==>
      s == Admit(Cleaned(l.(blocked := l.blocked - {ip}), ip, now), ip, path, now)
  {
    if ip in l.whitelist then Step(l, Pass)
    else if ip in l.blocked && now < l.blocked[ip] then
      Step(l, StillBlocked((l.blocked[ip] - now).Floor))
    else
      var l1 := l.(blocked := l.blocked - {ip});
      var l2 := Cleaned(l1, ip, now);
      var s := Admit(l2, ip, path, now);
      SameElsewhereTrans(s.limiter, l2, l1, ip);
      SameElsewhereTrans(s.limiter, l1, l, ip);
      s
  }

  /** What a request that is not whitelisted and not still blocked does, in
      terms of the state before the call. */
  lemma DispatchChecked(l: Limiter, ip: string, path: string, now: real)
    requires ip !in l.whitelist && !(ip in l.blocked && now < l.blocked[ip])
    ensures var s := Dispatch(l, ip, path, now);
      var reqs, chats := Cleanup(Times(l.requests, ip), now), Cleanup(Times(l.chats, ip), now);
      && (s.verdict.RateLimited? <==> |reqs| >= l.requestsPerMinute)
      && (s.verdict.RateLimited? ==>
        && 120 <= s.verdict.blockDuration <= 1920
        && s.limiter.blocked == (l.blocked - {ip})[ip := now + s.verdict.blockDuration as real])
      && (s.verdict.ChatLimited? <==> |reqs| < l.requestsPerMinute && path == ChatPath && |chats| >= l.chatRequestsPerMinute)
      && (!s.verdict.RateLimited? ==> ip !in s.limiter.blocked)
      && (s.verdict.Pass? ==> s.limiter.requests == l.requests[ip := reqs + [now]])
      && (!s.verdict.Pass? ==> s.limiter.requests == l.requests[ip := reqs])
      && (s.verdict.Pass? && path == ChatPath ==> s.limiter.chats == l.chats[ip := chats + [now]])
      && (!(s.verdict.Pass? && path == ChatPath) ==> s.limiter.chats == l.chats[ip := chats])
  {
    var s := Admit(CheckedState(l, ip, now), ip, path, now);
    assert Dispatch(l, ip, path, now) == s;
    CheckedVerdict(l, ip, path, now);
    CheckedWindows(l, ip, path, now);
  }

  /** The state `Admit` sees: unblocked and cleaned for `ip`. */
  function CheckedState(l: Limiter, ip: string, now: real): (l2: Limiter)
    ensures l2.requests == l.requests[ip := Cleanup(Times(l.requests, ip), now)]
    ensures l2.chats == l.chats[ip := Cleanup(Times(l.chats, ip), now)]
    ensures l2.blocked == l.blocked - {ip}
    ensures SameSettings(l2, l)
  {
    Cleaned(l.(blocked := l.blocked - {ip}), ip, now)
  }

  /** The verdict and the block list after `Admit` on the checked state. */
  lemma CheckedVerdict(l: Limiter, ip: string, path: string, now: real)
    ensures var s := Admit(CheckedState(l, ip, now), ip, path, now);
      var reqs, chats := Cleanup(Times(l.requests, ip), now), Cleanup(Times(l.chats, ip), now);
      && (s.verdict.RateLimited? <==> |reqs| >= l.requestsPerMinute)
      && (s.verdict.RateLimited? ==>
        && 120 <= s.verdict.blockDuration <= 1920
        && s.limiter.blocked == (l.blocked - {ip})[ip := now + s.verdict.blockDuration as real])
      && (s.verdict.ChatLimited? <==> |reqs| < l.requestsPerMinute && path == ChatPath && |chats| >= l.chatRequestsPerMinute)
      && (!s.verdict.RateLimited? ==> ip !in s.limiter.blocked)
  {
    var l2 := CheckedState(l, ip, now);
    assert l2.requests[ip] == Cleanup(Times(l.requests, ip), now);
    assert l2.chats[ip] == Cleanup(Times(l.chats, ip), now);
  }

  /** The two windows after `Admit` on the checked state. */
  lemma CheckedWindows(l: Limiter, ip: string, path: string, now: real)
    ensures var s := Admit(CheckedState(l, ip, now), ip, path, now);
      var reqs, chats := Cleanup(Times(l.requests, ip), now), Cleanup(Times(l.chats, ip), now);
      && (s.verdict.Pass? ==> s.limiter.requests == l.requests[ip := reqs + [now]])
      && (!s.verdict.Pass? ==> s.limiter.requests == l.requests[ip := reqs])
      && (s.verdict.Pass? && path == ChatPath ==> s.limiter.chats == l.chats[ip := chats + [now]])
      && (!(s.verdict.Pass? && path == ChatPath) ==> s.limiter.chats == l.chats[ip := chats])
  {
    var l2 := CheckedState(l, ip, now);
    assert l2.requests[ip] == Cleanup(Times(l.requests, ip), now);
    assert l2.chats[ip] == Cleanup(Times(l.chats, ip), now);
  }

  /** No IP ever holds more than `requests_per_minute` times: one is added
      only when the cleaned list is below the limit. */
  ghost predicate Bounded(l: Limiter) {
    forall ip :: ip in l.requests ==> |l.requests[ip]| <= Max(l.requestsPerMinute, 0)
  }

  lemma NewBounded(rpm: int, chatRpm: int)
    ensures Bounded(New(rpm, chatRpm))
  {
  }

  lemma DispatchBounded(l: Limiter, ip: string, path: string, now: real)
    requires Bounded(l)
    ensures Bounded(Dispatch(l, ip, path, now).limiter)
  {
    var s := Dispatch(l, ip, path, now);
    if ip !in l.whitelist && !(ip in l.blocked && now < l.blocked[ip]) {
      DispatchChecked(l, ip, path, now);
    }
    forall x | x in s.limiter.requests
      ensures |s.limiter.requests[x]| <= Max(l.requestsPerMinute, 0)
    {
      if x != ip {
        assert Times(s.limiter.requests, x) == Times(l.requests, x);
      } else if ip in l.requests {
        assert |Cleanup(l.requests[ip], now)| <= |l.requests[ip]|;
      }
    }
  }

  /** In any reachable state the violation count is 1, so every block lasts
      exactly two minutes: the exponential backoff never grows. */
  lemma BlockIsTwoMinutes(l: Limiter, ip: string, path: string, now: real)
    requires Bounded(l) && l.requestsPerMinute >= 0
    requires Dispatch(l, ip, path, now).verdict.RateLimited?
    ensures Dispatch(l, ip, path, now).verdict.blockDuration == 120
  {
    var reqs := Cleanup(Times(l.requests, ip), now);
    DispatchChecked(l, ip, path, now);
    assert |reqs| <= |Times(l.requests, ip)|;
  }

  /** `add_to_whitelist`. */
  function AddToWhitelist(l: Limiter, ip: string): (r: Limiter)
    ensures r.whitelist == l.whitelist + {ip}
    ensures r.(whitelist := l.whitelist) == l
    ensures forall path, now :: Dispatch(r, ip, path, now) == Step(r, Pass)
  {
    l.(whitelist := l.whitelist + {ip})
  }

  /** `remove_from_whitelist`: `discard`, so an absent IP is no error. */
  function RemoveFromWhitelist(l: Limiter, ip: string): (r: Limiter)
    ensures r.whitelist == l.whitelist - {ip}
    ensures r.(whitelist := l.whitelist) == l
    ensures ip !in l.whitelist ==> r == l
  {
    l.(whitelist := l.whitelist - {ip})
  }
}

=== FILE: security.dfy ===
/** `security_service`: input sanitising, injection detectors, format
    validators and the combined report. Every regular expression of the
    detectors is an oracle `search(i, text)`: whether pattern number `i` of
    its family matches somewhere in `text`. */
module Security {
  import opened Basics
  import opened Text

  /** `re.search(PATTERNS[i], text)` for the patterns of one family. */
  type Search = (nat, string) -> bool

  /** Number of patterns in each family. */
  const SqlPatternCount: nat := 7
  const XssPatternCount: nat := 6
  const HarmfulPatternCount: nat := 2

  /** The confidence attached to each prompt-injection pattern, in order. */
  const PromptWeights: seq<real> :=
    [0.9, 0.9, 0.9, 0.7, 0.7, 0.7, 0.6, 0.9, 0.8, 0.9, 0.95, 0.8, 0.9, 0.9, 0.8, 0.5, 0.9]

  /** `confidence > 0.6` is an injection. */
  const InjectionThreshold: real := 0.6

  const HarmfulReasons: seq<string> := ["potentially harmful instructions", "hacking related"]

  // ----- sanitize_input -----

  /** `html.escape` of one character (with `quote=True`). */
  function EscapeChar(c: char): (r: string)
    ensures '<' !in r && '>' !in r && '"' !in r && '\'' !in r
    ensures c != '&' && c != '<' && c != '>' && c != '"' && c != '\'' ==> r == [c]
  {
    if c == '&' then "&amp;"
    else if c == '<' then "&lt;"
    else if c == '>' then "&gt;"
    else if c == '"' then "&quot;"
    else if c == '\'' then "&#x27;"
    else [c]
  }

  /** No character that `html.escape` rewrites. */
  predicate Plain(s: string) {
    forall i :: 0 <= i < |s| ==> s[i] != '&' && s[i] != '<' && s[i] != '>' && s[i] != '"' && s[i] != '\''
  }

  /** `html.escape(text)`: text with nothing to escape is left as it is. */
  function HtmlEscape(s: string): (r: string)
    ensures '<' !in r && '>' !in r && '"' !in r && '\'' !in r
    ensures |r| >= |s|
    ensures Plain(s) ==> r == s
    decreases |s|
  {
    if |s| == 0 then ""
    else
      assert s == s[..|s| - 1] + [s[|s| - 1]];
      HtmlEscape(s[..|s| - 1]) + EscapeChar(s[|s| - 1])
  }

  /** The reverse of `html.escape` for the five entities it writes. */
  function Unescape(s: string): string
    decreases |s|
  {
    if |s| == 0 then ""
    else if s[0] != '&' then [s[0]] + Unescape(s[1..])
    else if StartsWith(s, "&amp;") then "&" + Unescape(s[5..])
    else if StartsWith(s, "&lt;") then "<" + Unescape(s[4..])
    else if StartsWith(s, "&gt;") then ">" + Unescape(s[4..])
    else if StartsWith(s, "&quot;") then "\"" + Unescape(s[6..])
    else if StartsWith(s, "&#x27;") then "'" + Unescape(s[6..])
    else [s[0]] + Unescape(s[1..])
  }

  /** `html.escape` of a character, followed by more text, unescapes back. */
  lemma UnescapeChar(c: char, rest: string)
    ensures Unescape(EscapeChar(c) + rest) == [c] + Unescape(rest)
  {
    if c == '&' {
      UnescapeEntity("&amp;", rest);
    } else if c == '<' {
      UnescapeEntity("&lt;", rest);
    } else if c == '>' {
      UnescapeEntity("&gt;", rest);
    } else if c == '"' {
      UnescapeEntity("&quot;", rest);
    } else if c == '\'' {
      UnescapeEntity("&#x27;", rest);
    } else {
      assert ([c] + rest)[1..] == rest;
    }
  }

  /** One entity followed by more text: the entity is recognised, and none
      of the entities checked before it matches in its place. */
  lemma UnescapeEntity(ent: string, rest: string)
    requires ent in ["&amp;", "&lt;", "&gt;", "&quot;", "&#x27;"]
    ensures ent == "&amp;" ==> Unescape(ent + rest) == "&" + Unescape(rest)
    ensures ent == "&lt;" ==> Unescape(ent + rest) == "<" + Unescape(rest)
    ensures ent == "&gt;" ==> Unescape(ent + rest) == ">" + Unescape(rest)
    ensures ent == "&quot;" ==> Unescape(ent + rest) == "\"" + Unescape(rest)
    ensures ent == "&#x27;" ==> Unescape(ent + rest) == "'" + Unescape(rest)
  {
    var e := ent + rest;
    assert e[..|ent|] == ent && e[|ent|..] == rest;
    assert e[1] == ent[1];
    if |e| >= 5 { assert e[..5][1] == e[1]; }
    if |e| >= 4 { assert e[..4][1] == e[1]; }
    if |e| >= 6 { assert e[..6][1] == e[1]; }
  }

  /** Escaping loses nothing. */
  lemma {:induction false} EscapeRoundTrip(s: string)
    ensures Unescape(HtmlEscape(s)) == s
    decreases |s|
  {
    EscapeRoundTripFrom(s, 0);
    EscapeFromIsEscape(s);
  }

  /** Escaping from the front: the escape of `s[i..]` unescapes to `s[i..]`. */
  lemma {:induction false} EscapeRoundTripFrom(s: string, i: nat)
    requires i <= |s|
    ensures Unescape(EscapeFrom(s, i)) == s[i..]
    decreases |s| - i
  {
    if i < |s| {
      var rest := EscapeFrom(s, i + 1);
      EscapeRoundTripFrom(s, i + 1);
      assert EscapeFrom(s, i) == EscapeChar(s[i]) + rest;
      UnescapeChar(s[i], rest);
      assert s[i..] == [s[i]] + s[i + 1..];
    } else {
      assert EscapeFrom(s, i) == "";
    }
  }

  /** `html.escape` computed from the front. */
  function EscapeFrom(s: string, i: nat): string
    requires i <= |s|
    decreases |s| - i
  {
    if i == |s| then "" else EscapeChar(s[i]) + EscapeFrom(s, i + 1)
  }

  lemma {:induction false} EscapeFromIsEscape(s: string)
    ensures EscapeFrom(s, 0) == HtmlEscape(s)
    decreases |s|
  {
    if |s| > 0 {
      var init := s[..|s| - 1];
      EscapeFromIsEscape(init);
      EscapeFromSnoc(init, s[|s| - 1], 0);
      assert init + [s[|s| - 1]] == s;
    }
  }

  lemma {:induction false} EscapeFromSnoc(s: string, c: char, i: nat)
    requires i <= |s|
    ensures EscapeFrom(s + [c], i) == EscapeFrom(s, i) + EscapeChar(c)
    decreases |s| - i
  {
    if i < |s| {
      EscapeFromSnoc(s, c, i + 1);
    }
  }

  /** Drop the characters a pattern's matches cover (`re.sub(p, "", s)`);
      `marked[i]` says whether character `i` lies in a match. */
  function DeleteMarked(s: string, marked: seq<bool>): (r: string)
    ensures |r| <= |s|
    ensures forall c :: c in r ==> c in s
    ensures Unmarked(marked) ==> r == s
    decreases |s|
  {
    if |s| == 0 then ""
    else
      var rest := DeleteMarked(s[1..], if |marked| > 0 then marked[1..] else []);
      if |marked| > 0 && marked[0] then rest
      else
        assert s == [s[0]] + s[1..];
        [s[0]] + rest
  }

  /** A match mask that covers no character: the pattern did not match. */
  predicate Unmarked(marked: seq<bool>) {
    forall k :: 0 <= k < |marked| ==> !marked[k]
  }

  /** The six `re.sub` passes, in order, starting at pass `i`; when none
      of the remaining patterns matches, the text is unchanged. */
  function RemoveXss(s: string, xss: (nat, string) -> seq<bool>, i: nat): (r: string)
    requires i <= XssPatternCount
    ensures forall c :: c in r ==> c in s
    ensures (forall j :: i <= j < XssPatternCount ==> Unmarked(xss(j, s))) ==> r == s
    decreases XssPatternCount - i
  {
    if i == XssPatternCount then s
    else RemoveXss(DeleteMarked(s, xss(i, s)), xss, i + 1)
  }

  /** `sanitize_input`: escape, strip the XSS patterns, collapse whitespace.
      Whitespace normalising keeps the words of the stripped text, in order
      and apart, and every other character of it, in order. */
  function SanitizeInput(text: Option<string>, xss: (nat, string) -> seq<bool>): (r: string)
    ensures !Truthy(text) ==> r == ""
    ensures '<' !in r && '>' !in r
    ensures SingleSpaced(r)
    ensures Truthy(text) ==> Words(r) == Words(RemoveXss(HtmlEscape(text.value), xss, 0))
    ensures Truthy(text) ==> NonSpaceChars(r) == NonSpaceChars(RemoveXss(HtmlEscape(text.value), xss, 0))
  {
    if !Truthy(text) then ""
    else CollapseSpaces(RemoveXss(HtmlEscape(text.value), xss, 0))
  }

  /** Legitimate text survives: with nothing to escape and no XSS pattern
      matching, the words are kept in order and apart, every non-space
      character is kept in order, and text that is already single-spaced
      comes back exactly. */
  lemma SanitizeKeepsText(t: string, xss: (nat, string) -> seq<bool>)
    requires Plain(t)
    requires forall j :: 0 <= j < XssPatternCount ==> Unmarked(xss(j, t))
    ensures Words(SanitizeInput(Some(t), xss)) == Words(t)
    ensures NonSpaceChars(SanitizeInput(Some(t), xss)) == NonSpaceChars(t)
    ensures SingleSpaced(t) ==> SanitizeInput(Some(t), xss) == t
  {
  }

  // ----- detectors -----

  /** Indices `i` in `lo..hi` for which `matches(i)` holds, in order. */
  function MatchedFrom(matches: nat -> bool, lo: nat, hi: nat): (r: seq<nat>)
    requires lo <= hi
    ensures forall k :: 0 <= k < |r| ==> lo <= r[k] < hi && matches(r[k])
    ensures forall i :: lo <= i < hi && matches(i) ==> i in r
    ensures forall a, b :: 0 <= a < b < |r| ==> r[a] < r[b]
    ensures |r| <= hi - lo
    decreases hi - lo
  {
    if lo == hi then []
    else
      var rest := MatchedFrom(matches, lo + 1, hi);
      if matches(lo) then [lo] + rest else rest
  }

  datatype SqlResult = SqlResult(detected: bool, matched: seq<nat>)

  /** `detect_sql_injection`: the patterns run on `text.upper()`. */
  function DetectSqlInjection(text: Option<string>, search: Search): (r: SqlResult)
    ensures !Truthy(text) ==> r == SqlResult(false, [])
    ensures r.detected <==> |r.matched| > 0
    ensures Truthy(text) ==> forall i :: 0 <= i < SqlPatternCount ==>
      (i in r.matched <==> search(i, Upper(text.value)))
    ensures forall k :: 0 <= k < |r.matched| ==> r.matched[k] < SqlPatternCount
  {
    if !Truthy(text) then SqlResult(false, [])
    else
      var matched := MatchedFrom((i: nat) => search(i, Upper(text.value)), 0, SqlPatternCount);
      SqlResult(|matched| > 0, matched)
  }

  /** The highest weight among the matched patterns, 0.0 for none. */
  function MaxWeight(matched: seq<nat>): (m: real)
    requires forall k :: 0 <= k < |matched| ==> matched[k] < |PromptWeights|
    ensures 0.0 <= m <= 0.95
    ensures forall k :: 0 <= k < |matched| ==> PromptWeights[matched[k]] <= m
    ensures |matched| == 0 <==> m == 0.0
    ensures |matched| > 0 ==> exists k :: 0 <= k < |matched| && m == PromptWeights[matched[k]]
    decreases |matched|
  {
    if |matched| == 0 then 0.0
    else
      var w := PromptWeights[matched[0]];
      var m := MaxWeight(matched[1..]);
      assert forall k :: 1 <= k < |matched| ==> matched[k] == matched[1..][k - 1];
      if w >= m then w else m
  }

  /** `max_confidence`, raised by 0.1 per match beyond the second and
      capped at 1.0. */
  function Confidence(matched: seq<nat>): (c: real)
    requires forall k :: 0 <= k < |matched| ==> matched[k] < |PromptWeights|
    ensures 0.0 <= c <= 1.0
    ensures c >= MaxWeight(matched)
    ensures |matched| <= 2 ==> c == MaxWeight(matched)
    ensures |matched| > 2 ==> c == MinReal(1.0, MaxWeight(matched) + 0.1 * (|matched| - 2) as real)
  {
    var m := MaxWeight(matched);
    if |matched| > 2 then MinReal(1.0, m + 0.1 * (|matched| - 2) as real) else m
  }

  datatype PromptResult = PromptResult(detected: bool, confidence: real, matched: seq<nat>)

  /** `detect_prompt_injection`: the patterns run on `text.lower()`. */
  function DetectPromptInjection(text: Option<string>, search: Search): (r: PromptResult)
    ensures !Truthy(text) ==> r == PromptResult(false, 0.0, [])
    ensures 0.0 <= r.confidence <= 1.0
    ensures r.detected <==> r.confidence > InjectionThreshold
    ensures r.confidence == 0.0 <==> |r.matched| == 0
    ensures Truthy(text) ==> forall i :: 0 <= i < |PromptWeights| ==>
      (i in r.matched <==> search(i, Lower(text.value)))
    ensures forall k :: 0 <= k < |r.matched| ==>
      r.matched[k] < |PromptWeights| && PromptWeights[r.matched[k]] <= r.confidence
  {
    if !Truthy(text) then PromptResult(false, 0.0, [])
    else ScanPrompt(Lower(text.value), search)
  }

  /** The scan of a non-empty, lower-cased text. */
  function ScanPrompt(t: string, search: Search): (r: PromptResult)
    ensures 0.0 <= r.confidence <= 1.0
    ensures r.detected <==> r.confidence > InjectionThreshold
    ensures r.confidence == 0.0 <==> |r.matched| == 0
    ensures forall i :: 0 <= i < |PromptWeights| ==> (i in r.matched <==> search(i, t))
    ensures forall k :: 0 <= k < |r.matched| ==>
      r.matched[k] < |PromptWeights| && PromptWeights[r.matched[k]] <= r.confidence
  {
    var matched := MatchedFrom((i: nat) => search(i, t), 0, |PromptWeights|);
    ConfidenceFacts(matched);
    PromptResult(Confidence(matched) > InjectionThreshold, Confidence(matched), matched)
  }

  /** The confidence is zero exactly when nothing matched (every weight is
      positive), and at least the weight of each match. */
  lemma ConfidenceFacts(matched: seq<nat>)
    requires forall k :: 0 <= k < |matched| ==> matched[k] < |PromptWeights|
    ensures Confidence(matched) == 0.0 <==> |matched| == 0
    ensures forall k :: 0 <= k < |matched| ==> PromptWeights[matched[k]] <= Confidence(matched)
  {
    if |matched| > 0 {
      var m := MaxWeight(matched);
      var k :| 0 <= k < |matched| && m == PromptWeights[matched[k]];
      WeightPositive(matched[k]);
    }
  }

  lemma WeightPositive(i: nat)
    requires i < |PromptWeights|
    ensures PromptWeights[i] > 0.0
  {
  }

  /** Matching any pattern weighted above 0.6 is an injection on its own. */
  lemma HeavyPatternDetected(text: string, search: Search, i: nat)
    requires text != "" && i < |PromptWeights| && PromptWeights[i] > InjectionThreshold
    requires search(i, Lower(text))
    ensures DetectPromptInjection(Some(text), search).detected
  {
    var r := DetectPromptInjection(Some(text), search);
    var k :| 0 <= k < |r.matched| && r.matched[k] == i;
  }

  /** Four matches are an injection whatever their weights: the lowest
      weight is 0.5, and two extra matches add 0.2. */
  lemma FourMatchesDetected(text: string, search: Search)
    ensures |DetectPromptInjection(Some(text), search).matched| >= 4 ==>
      DetectPromptInjection(Some(text), search).detected
  {
    var r := DetectPromptInjection(Some(text), search);
    if |r.matched| >= 4 {
      ConfidenceOfFour(r.matched);
    }
  }

  /** Every weight is at least 0.5. */
  lemma WeightsAtLeastHalf(i: nat)
    requires i < |PromptWeights|
    ensures PromptWeights[i] >= 0.5
  {
  }

  lemma ConfidenceOfFour(matched: seq<nat>)
    requires forall k :: 0 <= k < |matched| ==> matched[k] < |PromptWeights|
    requires |matched| >= 4
    ensures Confidence(matched) > InjectionThreshold
  {
    WeightsAtLeastHalf(matched[0]);
    var m := MaxWeight(matched);
    assert m >= 0.5;
    assert 0.1 * (|matched| - 2) as real >= 0.2;
  }

  /** Harmful pattern `i` is the first that matches the lower-cased text. */
  predicate FirstHarmful(text: string, search: Search, i: nat) {
    i < HarmfulPatternCount && search(i, Lower(text)) && forall j :: 0 <= j < i ==> !search(j, Lower(text))
  }

  datatype Safety = Safety(isSafe: bool, reason: string)

  /** `check_content_safety`: the first harmful pattern that matches
      `text.lower()` gives the reason. */
  function CheckContentSafety(text: Option<string>, search: Search): (r: Safety)
    ensures !Truthy(text) ==> r == Safety(true, "")
    ensures r.isSafe <==> !Truthy(text) || forall i :: 0 <= i < HarmfulPatternCount ==> !search(i, Lower(text.value))
    ensures r.isSafe ==> r.reason == ""
    ensures !r.isSafe ==> (exists i: nat :: FirstHarmful(text.value, search, i) && r.reason == HarmfulReasons[i])
  {
    if !Truthy(text) then Safety(true, "")
    else
      var t := Lower(text.value);
      if search(0, t) then assert FirstHarmful(text.value, search, 0); Safety(false, HarmfulReasons[0])
      else if search(1, t) then assert FirstHarmful(text.value, search, 1); Safety(false, HarmfulReasons[1])
      else Safety(true, "")
  }

  datatype Report = Report(
    inputLength: nat,
    sqlDetected: bool,
    sqlPatternsMatched: nat,
    promptDetected: bool,
    promptConfidence: real,
    promptPatternsMatched: nat,
    contentSafe: bool,
    contentReason: string,
    overallRisk: string)

  /** `generate_security_report` (the confidence unrounded). */
  function SecurityReport(text: string, sql: Search, prompt: Search, harmful: Search): (r: Report)
    ensures r.overallRisk == "high" || r.overallRisk == "low"
    ensures r.overallRisk == "high" <==>
      || DetectSqlInjection(Some(text), sql).detected
      || DetectPromptInjection(Some(text), prompt).detected
      || !CheckContentSafety(Some(text), harmful).isSafe
    ensures text == "" ==> r.overallRisk == "low" && r.sqlPatternsMatched == 0 && r.promptPatternsMatched == 0
    ensures r.sqlDetected <==> r.sqlPatternsMatched > 0
    ensures r.inputLength == |text|
    ensures r.sqlDetected == DetectSqlInjection(Some(text), sql).detected
    ensures r.sqlPatternsMatched == |DetectSqlInjection(Some(text), sql).matched|
    ensures r.promptDetected == DetectPromptInjection(Some(text), prompt).detected
    ensures r.promptConfidence == DetectPromptInjection(Some(text), prompt).confidence
    ensures r.promptPatternsMatched == |DetectPromptInjection(Some(text), prompt).matched|
    ensures r.contentSafe == CheckContentSafety(Some(text), harmful).isSafe
    ensures r.contentReason == CheckContentSafety(Some(text), harmful).reason
  {
    var s := DetectSqlInjection(Some(text), sql);
    var p := DetectPromptInjection(Some(text), prompt);
    var c := CheckContentSafety(Some(text), harmful);
    Report(|text|, s.detected, |s.matched|, p.detected, p.confidence, |p.matched|, c.isSafe, c.reason,
      if s.detected || p.detected || !c.isSafe then "high" else "low")
  }

  // ----- validators -----

  predicate IsHexLower(c: char) {
    '0' <= c <= '9' || 'a' <= c <= 'f'
  }

  predicate AllHex(s: string) {
    forall i :: 0 <= i < |s| ==> IsHexLower(s[i])
  }

  /** Lengths of the hexadecimal groups of a UUID. */
  const UuidGroups: seq<nat> := [8, 4, 4, 4, 12]

  /** Matches `[0-9a-f]{g0}-[0-9a-f]{g1}-...` against the whole of `s`,
      one group at a time as the regular expression does. */
  function MatchGroups(s: string, groups: seq<nat>): bool
    decreases |groups|
  {
    if |groups| == 0 then false
    else if |groups| == 1 then |s| == groups[0] && AllHex(s)
    else
      var g := groups[0];
      |s| > g && AllHex(s[..g]) && s[g] == '-' && MatchGroups(s[g + 1..], groups[1..])
  }

  /** The positions of the four hyphens of a UUID. */
  predicate HyphenAt(i: int) {
    i == 8 || i == 13 || i == 18 || i == 23
  }

  /** The UUID shape stated position by position. */
  predicate UuidShape(s: string) {
    |s| == 36 && forall i :: 0 <= i < 36 ==> if HyphenAt(i) then s[i] == '-' else IsHexLower(s[i])
  }

  /** Each last-`k`-groups matcher accepts exactly the shape starting at the
      corresponding offset. */
  lemma MatchLastGroup(s: string)
    ensures MatchGroups(s, [12]) <==> |s| == 12 && AllHex(s)
  {
  }

  lemma MatchStep(s: string, g: nat, rest: seq<nat>)
    requires |rest| > 0
    ensures MatchGroups(s, [g] + rest) <==>
      |s| > g && AllHex(s[..g]) && s[g] == '-' && MatchGroups(s[g + 1..], rest)
  {
    assert ([g] + rest)[1..] == rest;
  }

  /** The group-by-group matcher decides exactly the UUID shape. */
  lemma MatchGroupsIsUuid(s: string)
    ensures MatchGroups(s, UuidGroups) <==> UuidShape(s)
  {
    MatchStep(s, 8, [4, 4, 4, 12]);
    if |s| > 8 {
      var s1 := s[9..];
      MatchStep(s1, 4, [4, 4, 12]);
      if |s1| > 4 {
        var s2 := s1[5..];
        assert s2 == s[14..];
        MatchStep(s2, 4, [4, 12]);
        if |s2| > 4 {
          var s3 := s2[5..];
          assert s3 == s[19..];
          MatchStep(s3, 4, [12]);
          if |s3| > 4 {
            var s4 := s3[5..];
            assert s4 == s[24..];
            MatchLastGroup(s4);
            if UuidShape(s) {
              assert AllHex(s[..8]) && AllHex(s1[..4]) && AllHex(s2[..4]) && AllHex(s3[..4]) && AllHex(s4);
            }
            if MatchGroups(s, UuidGroups) {
              forall i | 0 <= i < 36
                ensures if HyphenAt(i) then s[i] == '-' else IsHexLower(s[i])
              {
                if i < 8 { assert s[..8][i] == s[i]; }
                else if 8 < i < 13 { assert s1[..4][i - 9] == s[i]; }
                else if 13 < i < 18 { assert s2[..4][i - 14] == s[i]; }
                else if 18 < i < 23 { assert s3[..4][i - 19] == s[i]; }
                else if 23 < i { assert s4[i - 24] == s[i]; }
              }
            }
          }
        }
      }
    }
  }

  /** Python's `$` also matches just before one final line break. */
  predicate EndAnchored(s: string, shape: string -> bool) {
    shape(s) || (|s| > 0 && s[|s| - 1] == '\n' && shape(s[..|s| - 1]))
  }

  /** `validate_session_id`. */
  function ValidateSessionId(sessionId: Option<string>): (r: bool)
    ensures r <==> Truthy(sessionId) && EndAnchored(Lower(sessionId.value), UuidShape)
  {
    if !Truthy(sessionId) then false
    else
      var t := Lower(sessionId.value);
      MatchGroupsIsUuid(t);
      if |t| > 0 then MatchGroupsIsUuid(t[..|t| - 1]); MatchGroups(t, UuidGroups) || (t[|t| - 1] == '\n' && MatchGroups(t[..|t| - 1], UuidGroups))
      else MatchGroups(t, UuidGroups)
  }

  predicate IsAlpha(c: char) {
    'a' <= c <= 'z' || 'A' <= c <= 'Z'
  }

  predicate IsDigit(c: char) {
    '0' <= c <= '9'
  }

  /** `[a-zA-Z0-9._%+-]` */
  predicate LocalChar(c: char) {
    IsAlpha(c) || IsDigit(c) || c == '.' || c == '_' || c == '%' || c == '+' || c == '-'
  }

  /** `[a-zA-Z0-9.-]` */
  predicate DomainChar(c: char) {
    IsAlpha(c) || IsDigit(c) || c == '.' || c == '-'
  }

  predicate AllOf(s: string, p: char -> bool) {
    forall i :: 0 <= i < |s| ==> p(s[i])
  }

  /** The email shape as the regular expression states it: some split of
      `s` into a local part, `@`, a domain, `.` and a top-level domain. */
  ghost predicate EmailSplit(s: string) {
    exists a: nat, d: nat :: a < d < |s| && IsEmailSplit(s, a, d)
  }

  /** `s[a]` is the `@` and `s[d]` the final `.` of an email address. */
  predicate IsEmailSplit(s: string, a: nat, d: nat)
    requires a < d < |s|
  {
    && s[a] == '@' && s[d] == '.'
    && a >= 1 && AllOf(s[..a], LocalChar)
    && d - a - 1 >= 1 && AllOf(s[a + 1..d], DomainChar)
    && |s| - d - 1 >= 2 && AllOf(s[d + 1..], IsAlpha)
  }

  /** First index of `c` in `s`, or -1. */
  function IndexOfChar(s: string, c: char): (r: int)
    ensures -1 <= r < |s|
    ensures r >= 0 ==> s[r] == c && forall k :: 0 <= k < r ==> s[k] != c
    ensures r == -1 ==> forall k :: 0 <= k < |s| ==> s[k] != c
    decreases |s|
  {
    if |s| == 0 then -1
    else if s[0] == c then 0
    else
      var r := IndexOfChar(s[1..], c);
      if r < 0 then -1 else r + 1
  }

  /** Last index of `c` in `s`, or -1. */
  function LastIndexOfChar(s: string, c: char): (r: int)
    ensures -1 <= r < |s|
    ensures r >= 0 ==> s[r] == c && forall k :: r < k < |s| ==> s[k] != c
    ensures r == -1 ==> forall k :: 0 <= k < |s| ==> s[k] != c
    decreases |s|
  {
    if |s| == 0 then -1
    else if s[|s| - 1] == c then |s| - 1
    else LastIndexOfChar(s[..|s| - 1], c)
  }

  /** The executable check: split at the first `@` and the last `.`. */
  function EmailShape(s: string): bool {
    var a := IndexOfChar(s, '@');
    var d := LastIndexOfChar(s, '.');
    a >= 0 && a < d && IsEmailSplit(s, a, d)
  }

  /** Neither the local part nor the domain may hold an `@`, and the
      top-level domain holds no `.`, so the split the regular expression
      finds is the one at the first `@` and the last `.`. */
  lemma EmailShapeIff(s: string)
    ensures EmailShape(s) <==> EmailSplit(s)
  {
    if EmailSplit(s) {
      var a: nat, d: nat :| a < d < |s| && IsEmailSplit(s, a, d);
      var a' := IndexOfChar(s, '@');
      var d' := LastIndexOfChar(s, '.');
      forall k | 0 <= k < a
        ensures s[k] != '@'
      {
        assert LocalChar(s[..a][k]);
      }
      forall k | a < k < |s|
        ensures s[k] != '@'
      {
        if k < d { assert DomainChar(s[a + 1..d][k - a - 1]); }
        else if k > d { assert IsAlpha(s[d + 1..][k - d - 1]); }
      }
      forall k | d < k < |s|
        ensures s[k] != '.'
      {
        assert IsAlpha(s[d + 1..][k - d - 1]);
      }
      assert a' == a && d' == d;
    }
  }

  /** `validate_email`. */
  function ValidateEmail(email: Option<string>): (r: bool)
    ensures r <==> Truthy(email) && EndAnchored(email.value, EmailShape)
  {
    if !Truthy(email) then false
    else
      var e := email.value;
      EmailShape(e) || (e[|e| - 1] == '\n' && EmailShape(e[..|e| - 1]))
  }

  /** The accepted addresses are exactly those the regular expression
      describes. */
  lemma ValidateEmailIff(email: string)
    requires email != ""
    ensures ValidateEmail(Some(email)) <==>
      EmailSplit(email) || (email[|email| - 1] == '\n' && EmailSplit(email[..|email| - 1]))
  {
    EmailShapeIff(email);
    EmailShapeIff(email[..|email| - 1]);
  }

  /** `mask_api_key`. */
  function MaskApiKey(key: Option<string>): (r: string)
    ensures !Truthy(key) || |key.value| < 10 ==> r == "***"
    ensures Truthy(key) && |key.value| >= 10 ==>
      |r| == 11 && r[..4] == key.value[..4] && r[4..7] == "..." && r[7..] == key.value[|key.value| - 4..]
  {
    if !Truthy(key) || |key.value| < 10 then "***"
    else
      var k := key.value;
      k[..4] + "..." + k[|k| - 4..]
  }

  /** The mask shows at most the first four and the last four characters:
      keys that agree there get the same mask. */
  lemma MaskHidesMiddle(k1: string, k2: string)
    requires |k1| >= 10 && |k2| >= 10
    requires k1[..4] == k2[..4] && k1[|k1| - 4..] == k2[|k2| - 4..]
    ensures MaskApiKey(Some(k1)) == MaskApiKey(Some(k2))
  {
  }
}

=== FILE: semantic_cache.dfy ===
/** `SemanticCache`: a dictionary from query to response, matched exactly or
    by word-set Jaccard similarity, capped at 200 entries by dropping the 50
    oldest. */
module SemanticCache {
  import opened Basics
  import opened Text

  const DefaultThreshold: real := 0.85
  /** Above this many entries, `set` trims the cache. */
  const MaxEntries: nat := 200
  /** How many of the oldest entries a trim drops. */
  const TrimCount: nat := 50

  /** The distinct lower-cased words of `s` (`set(s.lower().split())`). */
  function WordSet(s: string): set<string> {
    set w | w in Words(Lower(s))
  }

  /** `_similarity`: Jaccard index of the two word sets, and 0.0 when either
      side has no words. */
  function Similarity(s1: string, s2: string): (r: real)
    ensures 0.0 <= r <= 1.0
    ensures |Words(Lower(s1))| == 0 || |Words(Lower(s2))| == 0 ==> r == 0.0
    ensures |Words(Lower(s1))| > 0 && |Words(Lower(s2))| > 0 ==> (r == 1.0 <==> WordSet(s1) == WordSet(s2))
  {
    var w1, w2 := Words(Lower(s1)), Words(Lower(s2));
    if |w1| == 0 || |w2| == 0 then 0.0
    else
      var a, b := WordSet(s1), WordSet(s2);
      JaccardBounds(a, b, w1[0]);
      Ratio(|a * b|, |a + b|)
  }

  /** `n / d` as a real, for `n <= d`: a fraction in [0, 1] that is 1 exactly
      when the two counts agree. */
  function Ratio(n: nat, d: nat): (r: real)
    requires 0 < d && n <= d
    ensures 0.0 <= r <= 1.0
    ensures r == 1.0 <==> n == d
  {
    (n as real) / (d as real)
  }

  /** The intersection is never larger than the union, and is as large only
      when the two sets are equal. */
  lemma JaccardBounds(a: set<string>, b: set<string>, w: string)
    requires w in a
    ensures 0 < |a + b| && |a * b| <= |a + b|
    ensures |a * b| == |a + b| <==> a == b
  {
    SubsetNotLarger({w}, a + b);
    SubsetNotLarger(a * b, a + b);
    if a != b {
      assert a * b < a + b;
      ProperSubsetSmaller(a * b, a + b);
    } else {
      assert a * b == a + b;
    }
  }

  /** The similarity does not depend on the argument order. */
  lemma SimilaritySymmetric(s1: string, s2: string)
    ensures Similarity(s1, s2) == Similarity(s2, s1)
  {
    assert WordSet(s1) * WordSet(s2) == WordSet(s2) * WordSet(s1);
    assert WordSet(s1) + WordSet(s2) == WordSet(s2) + WordSet(s1);
  }

  /** A query with at least one word is fully similar to itself. */
  lemma SimilarityRefl(s: string)
    requires |Words(Lower(s))| > 0
    ensures Similarity(s, s) == 1.0
  {
  }

  /** The cache: `(query, response)` pairs in dictionary insertion order. */
  datatype Cache = Cache(threshold: real, entries: seq<(string, string)>)

  function Queries(es: seq<(string, string)>): (qs: seq<string>)
    ensures |qs| == |es|
    ensures forall i :: 0 <= i < |es| ==> qs[i] == es[i].0
    decreases |es|
  {
    if |es| == 0 then [] else Queries(es[..|es| - 1]) + [es[|es| - 1].0]
  }

  /** A dictionary holds each key once. */
  predicate IsDict(es: seq<(string, string)>) {
    Distinct(Queries(es))
  }

  /** What every reachable state satisfies: a dictionary of at most 200 entries. */
  predicate Valid(c: Cache) {
    IsDict(c.entries) && |c.entries| <= MaxEntries
  }

  function Empty(threshold: real): (c: Cache)
    ensures Valid(c) && |c.entries| == 0
  {
    Cache(threshold, [])
  }

  /** Index of the entry for `query`, or -1. */
  function IndexOf(es: seq<(string, string)>, query: string): (i: int)
    ensures -1 <= i < |es|
    ensures i == -1 <==> query !in Queries(es)
    ensures i >= 0 ==> es[i].0 == query
    decreases |es|
  {
    if |es| == 0 then -1
    else if es[|es| - 1].0 == query then |es| - 1
    else
      assert Queries(es) == Queries(es[..|es| - 1]) + [es[|es| - 1].0];
      IndexOf(es[..|es| - 1], query)
  }

  /** In a dictionary, the entry whose key is `query` is unique. */
  lemma IndexOfUnique(es: seq<(string, string)>, i: nat)
    requires IsDict(es) && i < |es|
    ensures IndexOf(es, es[i].0) == i
  {
    var j := IndexOf(es, es[i].0);
    assert Queries(es)[i] == Queries(es)[j];
  }

  /** `i` is the first entry similar enough to `query`. */
  predicate FirstSimilar(es: seq<(string, string)>, query: string, threshold: real, i: nat) {
    && i < |es|
    && Similarity(query, es[i].0) >= threshold
    && forall j :: 0 <= j < i ==> Similarity(query, es[j].0) < threshold
  }

  /** The `for cached_query, response in self.cache.items()` scan. */
  function FindSimilar(es: seq<(string, string)>, query: string, threshold: real): (r: Option<string>)
    ensures r.None? <==> forall j :: 0 <= j < |es| ==> Similarity(query, es[j].0) < threshold
    ensures r.Some? ==> exists i: nat :: FirstSimilar(es, query, threshold, i) && r.value == es[i].1
    decreases |es|
  {
    if |es| == 0 then None
    else if Similarity(query, es[0].0) >= threshold then
      assert FirstSimilar(es, query, threshold, 0);
      Some(es[0].1)
    else
      var r := FindSimilar(es[1..], query, threshold);
      if r.Some? then
        var i: nat :| FirstSimilar(es[1..], query, threshold, i) && r.value == es[1..][i].1;
        FirstSimilarShift(es, query, threshold, i);
        r
      else
        NoneSimilarShift(es, query, threshold);
        r
  }

  /** A first match in the tail, after a head that does not match, is the
      first match of the whole. */
  lemma FirstSimilarShift(es: seq<(string, string)>, query: string, threshold: real, i: nat)
    requires |es| > 0 && Similarity(query, es[0].0) < threshold
    requires FirstSimilar(es[1..], query, threshold, i)
    ensures FirstSimilar(es, query, threshold, i + 1) && es[i + 1] == es[1..][i]
  {
    forall j | 0 < j < i + 1
      ensures Similarity(query, es[j].0) < threshold
    {
      assert es[j] == es[1..][j - 1];
    }
  }

  lemma NoneSimilarShift(es: seq<(string, string)>, query: string, threshold: real)
    requires |es| > 0 && Similarity(query, es[0].0) < threshold
    requires forall j :: 0 <= j < |es| - 1 ==> Similarity(query, es[1..][j].0) < threshold
    ensures forall j :: 0 <= j < |es| ==> Similarity(query, es[j].0) < threshold
  {
    forall j | 0 < j < |es|
      ensures Similarity(query, es[j].0) < threshold
    {
      assert es[j] == es[1..][j - 1];
    }
  }

  /** `get`: the exact entry first, then the first similar one. */
  function Get(c: Cache, query: string): (r: Option<string>)
    ensures query in Queries(c.entries) ==> r == Some(c.entries[IndexOf(c.entries, query)].1)
    ensures query !in Queries(c.entries) ==> r == FindSimilar(c.entries, query, c.threshold)
  {
    var i := IndexOf(c.entries, query);
    if i >= 0 then Some(c.entries[i].1)
    else FindSimilar(c.entries, query, c.threshold)
  }

  /** `self.cache[query] = response`: an existing key keeps its position,
      a new key goes last. */
  function Put(es: seq<(string, string)>, query: string, response: string): (r: seq<(string, string)>)
    requires IsDict(es)
    ensures IsDict(r)
    ensures query in Queries(es) ==> Queries(r) == Queries(es)
    ensures query !in Queries(es) ==> Queries(r) == Queries(es) + [query]
    ensures IndexOf(r, query) >= 0 && r[IndexOf(r, query)] == (query, response)
    ensures forall i :: 0 <= i < |es| && es[i].0 != query ==> r[i] == es[i]
    ensures forall x :: x in r && x.0 != query ==> x in es
  {
    var i := IndexOf(es, query);
    if i >= 0 then
      var r := es[i := (query, response)];
      assert Queries(r) == Queries(es);
      IndexOfUnique(r, i);
      r
    else
      var r := es + [(query, response)];
      assert Queries(r) == Queries(es) + [query];
      IndexOfUnique(r, |es|);
      r
  }

  /** The size limit of `set`: over 200 entries, the 50 oldest keys go. */
  function Trim(es: seq<(string, string)>): (r: seq<(string, string)>)
    requires IsDict(es)
    ensures IsDict(r)
    ensures |es| <= MaxEntries ==> r == es
    ensures |es| > MaxEntries ==> Queries(r) == Queries(es)[TrimCount..]
    ensures |es| <= MaxEntries + 1 ==> |r| <= MaxEntries
    ensures forall x :: x in r ==> x in es
    ensures |es| > 0 ==> |r| > 0 && r[|r| - 1] == es[|es| - 1]
  {
    if |es| > MaxEntries then
      assert Queries(es[TrimCount..]) == Queries(es)[TrimCount..];
      es[TrimCount..]
    else es
  }

  /** The value `get` returns for a key stored in a dictionary. */
  lemma GetStored(c: Cache, query: string, response: string)
    requires IsDict(c.entries) && (query, response) in c.entries
    ensures Get(c, query) == Some(response)
  {
    var i :| 0 <= i < |c.entries| && c.entries[i] == (query, response);
    IndexOfUnique(c.entries, i);
  }

  /** `set`: store, then drop the 50 oldest keys when over 200 entries. */
  function Set(c: Cache, query: string, response: string): (r: Cache)
    requires IsDict(c.entries)
    ensures IsDict(r.entries) && r.threshold == c.threshold
    ensures Valid(c) ==> Valid(r)
    ensures Valid(c) ==> Get(r, query) == Some(response)
    ensures Valid(c) && query in Queries(c.entries) ==> Queries(r.entries) == Queries(c.entries)
    ensures Valid(c) && query !in Queries(c.entries) && |c.entries| < MaxEntries ==>
      Queries(r.entries) == Queries(c.entries) + [query]
    ensures Valid(c) && query !in Queries(c.entries) && |c.entries| == MaxEntries ==>
      Queries(r.entries) == Queries(c.entries)[TrimCount..] + [query]
    ensures forall x :: x in r.entries && x.0 != query ==> x in c.entries
  {
    var r := Cache(c.threshold, Trim(Put(c.entries, query, response)));
    if Valid(c) then SetStores(c, query, response, r); r else r
  }

  /** The new pair survives the trim: an updated key causes no trim, and a
      new key is last. */
  lemma SetStores(c: Cache, query: string, response: string, r: Cache)
    requires Valid(c) && r == Cache(c.threshold, Trim(Put(c.entries, query, response)))
    ensures Get(r, query) == Some(response)
    ensures query !in Queries(c.entries) && |c.entries| == MaxEntries ==>
      Queries(r.entries) == Queries(c.entries)[TrimCount..] + [query]
  {
    if query !in Queries(c.entries) {
      NewKeyStored(c, query, response, r);
    } else {
      OldKeyStored(c, query, response, r);
    }
    GetStored(r, query, response);
  }

  /** A new key is appended, and the trim of a full cache keeps it. */
  lemma NewKeyStored(c: Cache, query: string, response: string, r: Cache)
    requires Valid(c) && r == Cache(c.threshold, Trim(Put(c.entries, query, response)))
    requires query !in Queries(c.entries)
    ensures (query, response) in r.entries
    ensures |c.entries| == MaxEntries ==> Queries(r.entries) == Queries(c.entries)[TrimCount..] + [query]
  {
    var es := Put(c.entries, query, response);
    assert IndexOf(c.entries, query) == -1;
    assert es == c.entries + [(query, response)];
    if |c.entries| == MaxEntries {
      assert |es| == MaxEntries + 1;
      assert Queries(r.entries) == Queries(es)[TrimCount..];
      assert Queries(es) == Queries(c.entries) + [query];
      assert r.entries[|r.entries| - 1] == (query, response);
    } else {
      assert r.entries == es;
      assert es[|es| - 1] == (query, response);
    }
  }

  /** An existing key is updated in place, and nothing is trimmed. */
  lemma OldKeyStored(c: Cache, query: string, response: string, r: Cache)
    requires Valid(c) && r == Cache(c.threshold, Trim(Put(c.entries, query, response)))
    requires query in Queries(c.entries)
    ensures (query, response) in r.entries
  {
    var es := Put(c.entries, query, response);
    assert |Queries(es)| == |Queries(c.entries)|;
    assert r.entries == es;
    var i := IndexOf(es, query);
    assert es[i] == (query, response);
  }

  /** `clear`. */
  function Clear(c: Cache): (r: Cache)
    ensures Valid(r) && r.threshold == c.threshold
    ensures forall q :: Get(r, q).None?
  {
    Cache(c.threshold, [])
  }
}

=== FILE: sorting.dfy ===
/** Python's `list.sort(key=..., reverse=...)`: a stable sort. The order is
    given as a total preorder `le`; elements that `le` cannot tell apart keep
    their input order. */
module Sorting {
  import opened Basics

  ghost predicate Total<T(!new)>(le: (T, T) -> bool) {
    forall a, b :: le(a, b) || le(b, a)
  }

  ghost predicate Transitive<T(!new)>(le: (T, T) -> bool) {
    forall a, b, c :: le(a, b) && le(b, c) ==> le(a, c)
  }

  ghost predicate TotalPreorder<T(!new)>(le: (T, T) -> bool) {
    Total(le) && Transitive(le)
  }

  predicate SortedBy<T>(xs: seq<T>, le: (T, T) -> bool) {
    forall i, j :: 0 <= i < j < |xs| ==> le(xs[i], xs[j])
  }

  /** The elements `le` ranks equal to `e`. */
  function EquivTo<T>(le: (T, T) -> bool, e: T): T -> bool {
    y => le(y, e) && le(e, y)
  }

  /** Ascending order of an integer key (`sort(key=k)`). */
  function ByKey<T>(key: T -> int): (T, T) -> bool {
    (a, b) => key(a) <= key(b)
  }

  /** Descending order of an integer key (`sort(key=k, reverse=True)`). */
  function ByKeyDesc<T>(key: T -> int): (T, T) -> bool {
    (a, b) => key(a) >= key(b)
  }

  /** Ascending order of a real key. */
  function ByRealKey<T>(key: T -> real): (T, T) -> bool {
    (a, b) => key(a) <= key(b)
  }

  lemma ByKeyIsPreorder<T(!new)>(key: T -> int)
    ensures TotalPreorder(ByKey(key))
    ensures TotalPreorder(ByKeyDesc(key))
  {
  }

  lemma ByRealKeyIsPreorder<T(!new)>(key: T -> real)
    ensures TotalPreorder(ByRealKey(key))
  {
  }

  /** Inserts `x` before the first element it does not come after. */
  function Insert<T(!new)>(x: T, s: seq<T>, le: (T, T) -> bool): (r: seq<T>)
    requires TotalPreorder(le)
    requires SortedBy(s, le)
    ensures |r| == |s| + 1
    ensures multiset(r) == multiset(s) + multiset{x}
    ensures SortedBy(r, le)
    decreases |s|
  {
    if |s| == 0 then [x]
    else if le(x, s[0]) then
      assert forall j :: 0 <= j < |s| ==> le(x, s[j]) by {
        forall j | 0 <= j < |s|
          ensures le(x, s[j])
        {
          if j > 0 {
            assert le(s[0], s[j]);
          }
        }
      }
      [x] + s
    else
      var t := Insert(x, s[1..], le);
      assert le(s[0], x);
      BoundKept(s[0], s[1..], x, t, le);
      SortedCons(s[0], t, le);
      assert s == [s[0]] + s[1..];
      [s[0]] + t
  }

  /** A lower bound of `s` and of `x` bounds every element of a permutation
      of `s + [x]`. */
  lemma BoundKept<T>(y: T, s: seq<T>, x: T, t: seq<T>, le: (T, T) -> bool)
    requires forall k :: 0 <= k < |s| ==> le(y, s[k])
    requires le(y, x) && multiset(t) == multiset(s) + multiset{x}
    ensures forall j :: 0 <= j < |t| ==> le(y, t[j])
  {
    forall j | 0 <= j < |t|
      ensures le(y, t[j])
    {
      assert t[j] in multiset(t);
      if t[j] != x {
        assert t[j] in multiset(s);
        var k :| 0 <= k < |s| && s[k] == t[j];
      }
    }
  }

  /** A lower bound put in front of a sorted sequence keeps it sorted. */
  lemma SortedCons<T>(y: T, t: seq<T>, le: (T, T) -> bool)
    requires SortedBy(t, le) && forall j :: 0 <= j < |t| ==> le(y, t[j])
    ensures SortedBy([y] + t, le)
  {
    var r := [y] + t;
    forall i, j | 0 <= i < j < |r|
      ensures le(r[i], r[j])
    {
      assert r[j] == t[j - 1];
      if i > 0 {
        assert r[i] == t[i - 1];
      }
    }
  }

  /** Stable insertion sort. */
  function SortBy<T(!new)>(xs: seq<T>, le: (T, T) -> bool): (r: seq<T>)
    requires TotalPreorder(le)
    ensures |r| == |xs|
    ensures multiset(r) == multiset(xs)
    ensures SortedBy(r, le)
    decreases |xs|
  {
    if |xs| == 0 then []
    else
      assert xs == [xs[0]] + xs[1..];
      Insert(xs[0], SortBy(xs[1..], le), le)
  }

  lemma {:induction false} InsertStable<T(!new)>(x: T, s: seq<T>, le: (T, T) -> bool, e: T)
    requires TotalPreorder(le)
    requires SortedBy(s, le)
    ensures Filter(Insert(x, s, le), EquivTo(le, e)) == Filter([x], EquivTo(le, e)) + Filter(s, EquivTo(le, e))
    decreases |s|
  {
    var p := EquivTo(le, e);
    if |s| == 0 {
      assert Insert(x, s, le) == [x] + s;
      FilterAppend([x], s, p);
    } else if le(x, s[0]) {
      assert Insert(x, s, le) == [x] + s;
      FilterAppend([x], s, p);
    } else {
      var t := Insert(x, s[1..], le);
      assert Insert(x, s, le) == [s[0]] + t;
      InsertStable(x, s[1..], le, e);
      FilterAppend([s[0]], t, p);
      FilterAppend([s[0]], s[1..], p);
      assert s == [s[0]] + s[1..];
      var fx, f0, rest := Filter([x], p), Filter([s[0]], p), Filter(s[1..], p);
      assert Filter(Insert(x, s, le), p) == f0 + (fx + rest);
      assert Filter(s, p) == f0 + rest;
      NotBothEquivalent(le, e, x, s[0]);
      FilterSingleton(x, p);
      FilterSingleton(s[0], p);
      SwapAroundEmpty(f0, fx, rest);
    }
  }

  /** An element strictly after `y` is never equivalent to the same `e` as `y`. */
  lemma NotBothEquivalent<T(!new)>(le: (T, T) -> bool, e: T, x: T, y: T)
    requires TotalPreorder(le)
    requires !le(x, y)
    ensures !(EquivTo(le, e)(x) && EquivTo(le, e)(y))
  {
  }

  lemma FilterSingleton<T>(x: T, p: T -> bool)
    ensures Filter([x], p) == if p(x) then [x] else []
  {
    assert [x][..0] == [];
  }

  lemma SwapAroundEmpty<T>(a: seq<T>, b: seq<T>, c: seq<T>)
    requires a == [] || b == []
    ensures a + (b + c) == b + (a + c)
  {
    if a == [] {
      assert a + (b + c) == b + c;
      assert a + c == c;
    } else {
      assert b + c == c;
      assert b + (a + c) == a + c;
    }
  }

  /** Stability: the elements equivalent to any `e` appear in the output in
      exactly their input order. */
  lemma {:induction false} SortStable<T(!new)>(xs: seq<T>, le: (T, T) -> bool, e: T)
    requires TotalPreorder(le)
    ensures Filter(SortBy(xs, le), EquivTo(le, e)) == Filter(xs, EquivTo(le, e))
    decreases |xs|
  {
    if |xs| > 0 {
      SortStable(xs[1..], le, e);
      InsertStable(xs[0], SortBy(xs[1..], le), le, e);
      FilterAppend([xs[0]], xs[1..], EquivTo(le, e));
      assert xs == [xs[0]] + xs[1..];
    }
  }

  lemma SortedPrefix<T>(xs: seq<T>, le: (T, T) -> bool, k: nat)
    requires SortedBy(xs, le) && k <= |xs|
    ensures SortedBy(xs[..k], le)
  {
  }

  /** A sorted sequence starts with an element that comes before all others
      and ends with one that comes after all others. */
  lemma SortedEnds<T(!new)>(xs: seq<T>, le: (T, T) -> bool, i: nat)
    requires TotalPreorder(le)
    requires SortedBy(xs, le) && i < |xs|
    ensures le(xs[0], xs[i]) && le(xs[i], xs[|xs| - 1])
  {
  }

  /** `sorted[:limit]` stays sorted, holds only elements of `sorted`, and is
      all of it once `limit` reaches the length. */
  lemma TakeSortedBy<T>(sorted: seq<T>, le: (T, T) -> bool, limit: int)
    requires SortedBy(sorted, le)
    ensures SortedBy(PyTake(sorted, limit), le)
    ensures forall x :: x in PyTake(sorted, limit) ==> x in multiset(sorted)
    ensures limit >= |sorted| ==> PyTake(sorted, limit) == sorted
  {
    var shown := PyTake(sorted, limit);
    SortedPrefix(sorted, le, |shown|);
    forall x | x in shown
      ensures x in multiset(sorted)
    {
      var i :| 0 <= i < |shown| && shown[i] == x;
      assert sorted[i] == x;
    }
  }

  /** `sorted(xs, key)[:limit]`: as many elements as the slice allows, a
      sorted sub-multiset of `xs` whose every element comes no later than
      any element it leaves out, and all of `xs` once `limit` reaches its
      length. */
  lemma SortedHead<T(!new)>(xs: seq<T>, le: (T, T) -> bool, limit: int)
    requires TotalPreorder(le)
    ensures limit >= 0 ==> |PyTake(SortBy(xs, le), limit)| == Min(limit, |xs|)
    ensures limit < 0 ==> |PyTake(SortBy(xs, le), limit)| == Max(0, |xs| + limit)
    ensures SortedBy(PyTake(SortBy(xs, le), limit), le)
    ensures multiset(PyTake(SortBy(xs, le), limit)) <= multiset(xs)
    ensures forall x :: x in PyTake(SortBy(xs, le), limit) ==> x in xs
    ensures forall x, y :: x in PyTake(SortBy(xs, le), limit) && y in multiset(xs) - multiset(PyTake(SortBy(xs, le), limit)) ==>
      le(x, y)
    ensures limit >= |xs| ==> multiset(PyTake(SortBy(xs, le), limit)) == multiset(xs)
  {
    var s := SortBy(xs, le);
    var r := PyTake(s, limit);
    TakeSortedBy(s, le, limit);
    SplitOrder(s, le, |r|);
    forall x | x in r
      ensures x in xs
    {
      assert x in multiset(xs);
    }
  }

  /** In a sorted sequence, everything before a cut comes no later than
      anything after it, counted with multiplicity. */
  lemma SplitOrder<T>(s: seq<T>, le: (T, T) -> bool, k: nat)
    requires SortedBy(s, le) && k <= |s|
    ensures multiset(s[..k]) <= multiset(s)
    ensures forall x, y :: x in s[..k] && y in multiset(s) - multiset(s[..k]) ==> le(x, y)
  {
    assert s == s[..k] + s[k..];
    assert multiset(s) == multiset(s[..k]) + multiset(s[k..]);
    forall x, y | x in s[..k] && y in multiset(s) - multiset(s[..k])
      ensures le(x, y)
    {
      var i :| 0 <= i < k && s[..k][i] == x;
      assert y in multiset(s[k..]);
      var j :| 0 <= j < |s[k..]| && s[k..][j] == y;
      assert s[i] == x && s[k + j] == y;
    }
  }
}

=== FILE: text.dfy ===
/** Strings as `seq<char>`: the handful of Python `str` operations the
    services rely on (`lower`, `in`, `split`, `strip`, `join`, decimal
    formatting). Whitespace is Python's full set; case mapping covers ASCII
    letters only. */
module Text {

  /** Python `str.isspace`, the whitespace of `split()` and `strip()`: the
      ASCII controls 9..13 and 28..31, the space, and the Unicode spaces and
      separators U+0085, U+00A0, U+1680, U+2000..U+200A, U+2028, U+2029,
      U+202F, U+205F and U+3000. */
  predicate IsSpace(c: char) {
    || ('\U{0009}' <= c <= '\U{000D}')
    || ('\U{001C}' <= c <= '\U{0020}')
    || c == '\U{0085}' || c == '\U{00A0}' || c == '\U{1680}'
    || ('\U{2000}' <= c <= '\U{200A}')
    || c == '\U{2028}' || c == '\U{2029}' || c == '\U{202F}' || c == '\U{205F}' || c == '\U{3000}'
  }

  predicate AllSpace(s: string) {
    forall i :: 0 <= i < |s| ==> IsSpace(s[i])
  }

  predicate NoSpace(s: string) {
    forall i :: 0 <= i < |s| ==> !IsSpace(s[i])
  }

  function LowerChar(c: char): char {
    if 'A' <= c <= 'Z' then (c as int + 32) as char else c
  }

  function Lower(s: string): (r: string)
    ensures |r| == |s|
    ensures forall i :: 0 <= i < |s| ==> r[i] == LowerChar(s[i])
  {
    seq(|s|, i requires 0 <= i < |s| => LowerChar(s[i]))
  }

  /** Lowering a prefix is a prefix of the lowered string. */
  lemma LowerPrefix(s: string, k: nat)
    requires k <= |s|
    ensures Lower(s)[..k] == Lower(s[..k])
  {
  }

  /** Lowering a slice is a slice of the lowered string. */
  lemma LowerSlice(s: string, i: nat, j: nat)
    requires i <= j <= |s|
    ensures Lower(s)[i..j] == Lower(s[i..j])
  {
  }

  function UpperChar(c: char): char {
    if 'a' <= c <= 'z' then (c as int - 32) as char else c
  }

  function Upper(s: string): (r: string)
    ensures |r| == |s|
    ensures forall i :: 0 <= i < |s| ==> r[i] == UpperChar(s[i])
  {
    seq(|s|, i requires 0 <= i < |s| => UpperChar(s[i]))
  }

  predicate StartsWith(s: string, p: string) {
    |p| <= |s| && s[..|p|] == p
  }

  /** Python's `p in s`. */
  predicate Contains(s: string, p: string)
    decreases |s|
  {
    StartsWith(s, p) || (|s| > 0 && Contains(s[1..], p))
  }

  /** `p` occurs in `s` starting at index `i`. */
  predicate OccursAt(s: string, p: string, i: nat) {
    i <= |s| && StartsWith(s[i..], p)
  }

  /** An occurrence in the tail of `s` is an occurrence in `s`, one further on. */
  lemma OccursInTail(s: string, p: string, i: nat)
    requires |s| > 0
    ensures OccursAt(s[1..], p, i) <==> OccursAt(s, p, i + 1)
  {
    if i <= |s| - 1 {
      assert s[1..][i..] == s[i + 1..];
    }
  }

  /** `Contains` holds exactly when `p` occurs at some index of `s`. */
  lemma {:induction false} ContainsIff(s: string, p: string)
    ensures Contains(s, p) <==> exists i: nat :: OccursAt(s, p, i)
    decreases |s|
  {
    assert s[0..] == s;
    if |s| > 0 {
      ContainsIff(s[1..], p);
      if StartsWith(s, p) {
        assert OccursAt(s, p, 0);
      }
      if Contains(s[1..], p) {
        var i: nat :| OccursAt(s[1..], p, i);
        OccursInTail(s, p, i);
      }
      if exists i: nat :: OccursAt(s, p, i) {
        var i: nat :| OccursAt(s, p, i);
        if i > 0 {
          OccursInTail(s, p, i - 1);
        } else {
          assert StartsWith(s, p);
        }
      }
    } else {
      if StartsWith(s, p) {
        assert OccursAt(s, p, 0);
      }
      if exists i: nat :: OccursAt(s, p, i) {
        var i: nat :| OccursAt(s, p, i);
        assert i == 0 && StartsWith(s, p);
      }
    }
  }

  lemma ContainsAt(s: string, p: string, i: nat)
    requires i <= |s| && StartsWith(s[i..], p)
    ensures Contains(s, p)
  {
    ContainsIff(s, p);
    assert OccursAt(s, p, i);
  }

  /** Leftmost occurrence of a non-empty `p` in `s` (`str.find`), or -1. */
  function Find(s: string, p: string): (r: int)
    requires |p| > 0
    ensures r == -1 || (0 <= r <= |s| - |p| && StartsWith(s[r..], p))
    ensures r == -1 ==> forall j :: 0 <= j <= |s| ==> !StartsWith(s[j..], p)
    ensures r >= 0 ==> forall j :: 0 <= j < r ==> !StartsWith(s[j..], p)
    decreases |s|
  {
    if StartsWith(s, p) then 0
    else if |s| == 0 then -1
    else
      var k := Find(s[1..], p);
      assert forall j :: 1 <= j <= |s| ==> s[1..][j - 1..] == s[j..];
      if k < 0 then -1 else k + 1
  }

  /** Python's `s.split(sep)` for a non-empty separator. */
  function SplitOn(s: string, sep: string): (r: seq<string>)
    requires |sep| > 0
    ensures |r| >= 1
    decreases |s|
  {
    var i := Find(s, sep);
    if i < 0 then [s] else [s[..i]] + SplitOn(s[i + |sep|..], sep)
  }

  /** Python's `sep.join(xs)`. */
  function Join(xs: seq<string>, sep: string): string
    decreases |xs|
  {
    if |xs| == 0 then ""
    else if |xs| == 1 then xs[0]
    else xs[0] + sep + Join(xs[1..], sep)
  }

  /** Every character of `sep.join(xs)` comes from `sep` or from one of
      the parts. */
  lemma {:induction false} JoinChars(xs: seq<string>, sep: string, c: char)
    requires c in Join(xs, sep)
    ensures c in sep || exists i :: 0 <= i < |xs| && c in xs[i]
    decreases |xs|
  {
    if |xs| > 1 {
      var t := Join(xs[1..], sep);
      assert Join(xs, sep) == xs[0] + sep + t;
      if c in t {
        JoinChars(xs[1..], sep, c);
        if c !in sep {
          var i :| 0 <= i < |xs[1..]| && c in xs[1..][i];
          assert c in xs[i + 1];
        }
      }
    }
  }

  /** Whitespace only as single `' '` characters between non-space ones:
      no leading or trailing whitespace and no runs. */
  predicate SingleSpaced(r: string) {
    forall i :: 0 <= i < |r| && IsSpace(r[i]) ==>
      r[i] == ' ' && 0 < i < |r| - 1 && !IsSpace(r[i - 1]) && !IsSpace(r[i + 1])
  }

  /** Joining non-empty words without whitespace by one space is
      single-spaced. */
  lemma {:induction false} JoinSingleSpaced(xs: seq<string>)
    requires forall i :: 0 <= i < |xs| ==> |xs[i]| > 0 && NoSpace(xs[i])
    ensures SingleSpaced(Join(xs, " "))
    ensures |xs| > 0 ==> |Join(xs, " ")| > 0 && !IsSpace(Join(xs, " ")[0])
    decreases |xs|
  {
    if |xs| > 1 {
      var w, t := xs[0], Join(xs[1..], " ");
      JoinSingleSpaced(xs[1..]);
      var r := w + " " + t;
      assert Join(xs, " ") == r;
      forall i | 0 <= i < |r| && IsSpace(r[i])
        ensures r[i] == ' ' && 0 < i < |r| - 1 && !IsSpace(r[i - 1]) && !IsSpace(r[i + 1])
      {
        if i == |w| {
          assert r[i - 1] == w[|w| - 1] && r[i + 1] == t[0];
        } else if i > |w| {
          var j := i - |w| - 1;
          assert r[i] == t[j];
          if j > 0 {
            assert r[i - 1] == t[j - 1];
          }
          assert r[i + 1] == t[j + 1];
        }
      }
    }
  }

  /** `" ".join(s.split())`: the words of `s` are kept, in order and apart,
      every non-space character is kept in order, and text that is already
      single-spaced comes back unchanged. */
  function CollapseSpaces(s: string): (r: string)
    ensures SingleSpaced(r)
    ensures Words(r) == Words(s)
    ensures forall c :: c in r ==> c == ' ' || c in s
    ensures NonSpaceChars(r) == NonSpaceChars(s)
    ensures SingleSpaced(s) ==> r == s
  {
    var ws := Words(s);
    JoinSingleSpaced(ws);
    WordsOfJoin(ws);
    forall c | c in Join(ws, " ")
      ensures c == ' ' || c in s
    {
      JoinChars(ws, " ", c);
    }
    WordsKeepChars(s);
    if SingleSpaced(s) then
      WordsOfSingleSpaced(s);
      Join(ws, " ")
    else
      Join(ws, " ")
  }

  /** Splitting words joined by single spaces gives the words back. */
  lemma {:induction false} WordsOfJoin(ws: seq<string>)
    requires forall i :: 0 <= i < |ws| ==> |ws[i]| > 0 && NoSpace(ws[i])
    ensures Words(Join(ws, " ")) == ws
    decreases |ws|
  {
    if |ws| == 1 {
      var w := ws[0];
      assert Words(w) == [w] by {
        WordLengthOf(w, "");
        assert w + "" == w && w[..|w|] == w && w[|w|..] == "";
        WordsCons(w);
      }
    } else if |ws| > 1 {
      var w, j := ws[0], Join(ws[1..], " ");
      WordsOfJoin(ws[1..]);
      assert Join(ws, " ") == w + (" " + j);
      WordsAfterWord(w, j);
      assert ws == [w] + ws[1..];
    }
  }

  /** A word, one space and more text split into the word and the words of
      the rest. */
  lemma WordsAfterWord(w: string, j: string)
    requires |w| > 0 && NoSpace(w)
    ensures Words(w + (" " + j)) == [w] + Words(j)
  {
    var t := w + (" " + j);
    WordLengthOf(w, " " + j);
    assert t[0] == w[0];
    WordsCons(t);
    assert t[..|w|] == w && t[|w|..] == " " + j;
    assert (" " + j)[1..] == j;
  }

  /** A word followed by nothing or by whitespace is exactly the run that
      `WordLength` measures. */
  lemma WordLengthOf(w: string, rest: string)
    requires NoSpace(w)
    requires |rest| == 0 || IsSpace(rest[0])
    ensures WordLength(w + rest) == |w|
  {
    var t := w + rest;
    var n := WordLength(t);
    assert n <= |w| by {
      if |w| < |t| {
        assert t[|w|] == rest[0];
      }
    }
    assert forall i :: 0 <= i < |w| ==> t[i] == w[i];
  }

  /** The non-whitespace characters of `s`, in order. */
  function NonSpaceChars(s: string): (r: string)
    ensures NoSpace(r)
    ensures |r| <= |s|
    decreases |s|
  {
    if |s| == 0 then ""
    else if IsSpace(s[0]) then NonSpaceChars(s[1..])
    else [s[0]] + NonSpaceChars(s[1..])
  }

  lemma {:induction false} NonSpaceAppend(a: string, b: string)
    ensures NonSpaceChars(a + b) == NonSpaceChars(a) + NonSpaceChars(b)
    decreases |a|
  {
    if |a| > 0 {
      assert (a + b)[1..] == a[1..] + b;
      NonSpaceAppend(a[1..], b);
    } else {
      assert a + b == b;
    }
  }

  /** A word without whitespace is its own non-space part. */
  lemma {:induction false} NonSpaceOfWord(w: string)
    requires NoSpace(w)
    ensures NonSpaceChars(w) == w
    decreases |w|
  {
    if |w| > 0 {
      assert NoSpace(w[1..]) by {
        forall i | 0 <= i < |w[1..]| ensures !IsSpace(w[1..][i]) {
          assert w[1..][i] == w[i + 1];
        }
      }
      NonSpaceOfWord(w[1..]);
      assert w == [w[0]] + w[1..];
    }
  }

  /** A text that starts with a word splits into that word and the words
      of the rest. */
  lemma WordsCons(s: string)
    requires |s| > 0 && !IsSpace(s[0])
    ensures WordLength(s) > 0
    ensures Words(s) == [s[..WordLength(s)]] + Words(s[WordLength(s)..])
  {
  }

  /** Joining a word in front of more words. */
  lemma JoinCons(w: string, ws: seq<string>)
    ensures Join([w] + ws, " ") == if |ws| == 0 then w else w + " " + Join(ws, " ")
  {
    assert ([w] + ws)[1..] == ws;
  }

  /** One word in front: if joining `ws` keeps the non-space characters of
      `rest`, joining `[w] + ws` keeps those of `w + rest`. */
  lemma KeepCharsCons(w: string, rest: string, ws: seq<string>)
    requires NoSpace(w)
    requires NonSpaceChars(Join(ws, " ")) == NonSpaceChars(rest)
    ensures NonSpaceChars(Join([w] + ws, " ")) == NonSpaceChars(w + rest)
  {
    assert NonSpaceChars(w + rest) == w + NonSpaceChars(rest) by {
      NonSpaceOfWord(w);
      NonSpaceAppend(w, rest);
    }
    if |ws| > 0 {
      var j := Join(ws, " ");
      assert Join([w] + ws, " ") == w + (" " + j) by {
        JoinCons(w, ws);
      }
      assert NonSpaceChars(w + (" " + j)) == w + NonSpaceChars(j) by {
        NonSpaceOfWord(w);
        NonSpaceAppend(w, " " + j);
        assert (" " + j)[1..] == j;
      }
    } else {
      assert Join([w] + ws, " ") == w by {
        JoinCons(w, ws);
      }
      assert NonSpaceChars(w) == w + NonSpaceChars(rest) by {
        NonSpaceOfWord(w);
      }
    }
  }

  /** Splitting into words and joining them with single spaces loses no
      non-space character and reorders none. */
  lemma {:induction false} WordsKeepChars(s: string)
    ensures NonSpaceChars(Join(Words(s), " ")) == NonSpaceChars(s)
    decreases |s|
  {
    if |s| > 0 {
      if IsSpace(s[0]) {
        WordsKeepChars(s[1..]);
      } else {
        var n := WordLength(s);
        var w, rest := s[..n], s[n..];
        WordsKeepChars(rest);
        WordPrefix(s, n);
        WordsCons(s);
        KeepCharsWord(s, w, rest);
      }
    }
  }

  /** The word that starts `s` has no whitespace. */
  lemma WordPrefix(s: string, n: nat)
    requires n == WordLength(s)
    ensures NoSpace(s[..n]) && s == s[..n] + s[n..]
  {
    forall i | 0 <= i < n ensures !IsSpace(s[..n][i]) {
      assert s[..n][i] == s[i];
    }
  }

  /** The step of `WordsKeepChars` past the word `w` that starts `s`. */
  lemma KeepCharsWord(s: string, w: string, rest: string)
    requires s == w + rest && NoSpace(w)
    requires Words(s) == [w] + Words(rest)
    requires NonSpaceChars(Join(Words(rest), " ")) == NonSpaceChars(rest)
    ensures NonSpaceChars(Join(Words(s), " ")) == NonSpaceChars(s)
  {
    KeepCharsCons(w, rest, Words(rest));
  }

  /** A suffix of single-spaced text that starts just after one of its
      spaces is single-spaced. */
  lemma SingleSpacedAfter(t: string, n: nat)
    requires SingleSpaced(t)
    requires n + 1 < |t| && !IsSpace(t[n + 1])
    ensures SingleSpaced(t[n + 1..])
  {
    var u := t[n + 1..];
    forall i | 0 <= i < |u| && IsSpace(u[i])
      ensures u[i] == ' ' && 0 < i < |u| - 1 && !IsSpace(u[i - 1]) && !IsSpace(u[i + 1])
    {
      assert u[i] == t[n + 1 + i];
      assert i != 0;
      assert u[i - 1] == t[n + i] && u[i + 1] == t[n + 2 + i];
    }
  }

  /** Single-spaced text is exactly its words joined by single spaces. */
  lemma {:induction false} WordsOfSingleSpaced(t: string)
    requires SingleSpaced(t)
    ensures Join(Words(t), " ") == t
    decreases |t|
  {
    if |t| > 0 {
      assert !IsSpace(t[0]);
      var n := WordLength(t);
      WordsCons(t);
      if n == |t| {
        assert t[n..] == "" && t[..n] == t;
        JoinCons(t, []);
      } else {
        assert t[n] == ' ' && n + 1 < |t| && !IsSpace(t[n + 1]);
        SingleSpacedAfter(t, n);
        WordsOfSingleSpaced(t[n + 1..]);
        WordsAfterSpace(t, n);
        JoinAround(t, n, Words(t[n..]));
      }
    }
  }

  /** The words after a space are the words after the character past it,
      and there is at least one when that character is not a space. */
  lemma WordsAfterSpace(t: string, n: nat)
    requires n + 1 < |t| && IsSpace(t[n]) && !IsSpace(t[n + 1])
    ensures Words(t[n..]) == Words(t[n + 1..]) && |Words(t[n..])| > 0
  {
    var u := t[n + 1..];
    assert t[n..][1..] == u;
    assert u[0] == t[n + 1];
    WordsCons(u);
  }

  /** A word, one space, and words that join back to the rest of `t`. */
  lemma JoinAround(t: string, n: nat, ws: seq<string>)
    requires n + 1 < |t| && t[n] == ' '
    requires |ws| > 0 && Join(ws, " ") == t[n + 1..]
    ensures Join([t[..n]] + ws, " ") == t
  {
    JoinCons(t[..n], ws);
    assert t == t[..n] + " " + t[n + 1..];
  }

  function TrimLeft(s: string): (r: string)
    ensures |r| <= |s| && r == s[|s| - |r|..]
    ensures |r| > 0 ==> !IsSpace(r[0])
    ensures AllSpace(s[..|s| - |r|])
    decreases |s|
  {
    if |s| > 0 && IsSpace(s[0]) then
      var t := TrimLeft(s[1..]);
      assert s[..|s| - |t|] == [s[0]] + s[1..][..|s| - 1 - |t|];
      t
    else s
  }

  function TrimRight(s: string): (r: string)
    ensures |r| <= |s| && r == s[..|r|]
    ensures |r| > 0 ==> !IsSpace(r[|r| - 1])
    ensures AllSpace(s[|r|..])
    decreases |s|
  {
    if |s| > 0 && IsSpace(s[|s| - 1]) then
      var t := TrimRight(s[..|s| - 1]);
      t
    else s
  }

  /** Python's `s.strip()`. */
  function Strip(s: string): (r: string)
    ensures |r| == 0 || (!IsSpace(r[0]) && !IsSpace(r[|r| - 1]))
  {
    TrimLeft(TrimRight(s))
  }

  lemma {:induction false} TrimRightPrepend(c: char, x: string)
    ensures TrimRight([c] + x) == if |TrimRight(x)| == 0 then TrimRight([c]) else [c] + TrimRight(x)
    decreases |x|
  {
    if |x| > 0 {
      var x' := x[..|x| - 1];
      assert ([c] + x)[..|[c] + x| - 1] == [c] + x';
      if IsSpace(x[|x| - 1]) {
        TrimRightPrepend(c, x');
      }
    } else {
      assert [c] + x == [c];
    }
  }

  /** Surrounding a text with line breaks does not change what `strip` keeps. */
  lemma StripNewlines(p: string, d: string)
    requires p == "" || p == "\n"
    ensures Strip(p + d + "\n") == Strip(d)
  {
    var s := p + d + "\n";
    assert s[..|s| - 1] == p + d;
    assert TrimRight(s) == TrimRight(p + d);
    if p == "\n" {
      assert p + d == ['\n'] + d;
      TrimRightPrepend('\n', d);
      if |TrimRight(d)| > 0 {
        var t := TrimRight(d);
        assert (['\n'] + t)[1..] == t;
      }
    } else {
      assert p + d == d;
    }
  }

  /** Python's `s.split()`: maximal runs of non-space characters. */
  function Words(s: string): (r: seq<string>)
    ensures forall i :: 0 <= i < |r| ==> |r[i]| > 0 && NoSpace(r[i])
    ensures forall i, j :: 0 <= i < |r| && 0 <= j < |r[i]| ==> r[i][j] in s
    decreases |s|
  {
    if |s| == 0 then []
    else if IsSpace(s[0]) then Words(s[1..])
    else
      var n := WordLength(s);
      [s[..n]] + Words(s[n..])
  }

  /** Length of the run of non-space characters that starts `s`. */
  function WordLength(s: string): (n: nat)
    ensures n <= |s|
    ensures forall i :: 0 <= i < n ==> !IsSpace(s[i])
    ensures n < |s| ==> IsSpace(s[n])
    ensures |s| > 0 && !IsSpace(s[0]) ==> n > 0
    decreases |s|
  {
    if |s| == 0 || IsSpace(s[0]) then 0 else 1 + WordLength(s[1..])
  }

  function DigitChar(d: nat): char
    requires d < 10
  {
    ('0' as int + d) as char
  }

  /** Decimal rendering of a natural number (Python `str(n)`). */
  function NatToString(n: nat): (r: string)
    ensures |r| >= 1
    ensures (|r| == 1) == (n < 10)
    decreases n
  {
    if n < 10 then [DigitChar(n)] else NatToString(n / 10) + [DigitChar(n % 10)]
  }

  /** A rendered number is all decimal digits. */
  lemma {:induction false} NatToStringDigits(n: nat)
    ensures forall i :: 0 <= i < |NatToString(n)| ==> '0' <= NatToString(n)[i] <= '9'
    decreases n
  {
    if n >= 10 {
      NatToStringDigits(n / 10);
    }
  }

  /** Distinct numbers print differently. */
  lemma {:induction false} NatToStringInjective(a: nat, b: nat)
    requires NatToString(a) == NatToString(b)
    ensures a == b
    decreases a
  {
    var s := NatToString(a);
    if a >= 10 && b >= 10 {
      assert s[|s| - 1] == DigitChar(a % 10) == DigitChar(b % 10);
      assert s[..|s| - 1] == NatToString(a / 10) == NatToString(b / 10);
      NatToStringInjective(a / 10, b / 10);
    }
  }

  /** Python's `<=` on strings: lexicographic by code point. */
  predicate LexLe(a: string, b: string)
    decreases |a|
  {
    |a| == 0 || (|b| > 0 && (a[0] < b[0] || (a[0] == b[0] && LexLe(a[1..], b[1..]))))
  }

  lemma {:induction false} LexLeTotal(a: string, b: string)
    ensures LexLe(a, b) || LexLe(b, a)
    decreases |a|
  {
    if |a| > 0 && |b| > 0 && a[0] == b[0] {
      LexLeTotal(a[1..], b[1..]);
    }
  }

  lemma {:induction false} LexLeTrans(a: string, b: string, c: string)
    requires LexLe(a, b) && LexLe(b, c)
    ensures LexLe(a, c)
    decreases |a|
  {
    if |a| > 0 && a[0] == b[0] && b[0] == c[0] {
      LexLeTrans(a[1..], b[1..], c[1..]);
    }
  }

  lemma {:induction false} LexLeRefl(a: string)
    ensures LexLe(a, a)
    decreases |a|
  {
    if |a| > 0 {
      LexLeRefl(a[1..]);
    }
  }

  /** The first occurrence of `c` in `a + [c] + b` is just after `a` when
      `a` has none. */
  lemma FindAfter(a: string, c: char, b: string)
    requires c !in a
    ensures Find(a + [c] + b, [c]) == |a|
  {
    var s := a + [c] + b;
    assert s[|a|..][..1] == [c];
    forall j | 0 <= j < |a|
      ensures !StartsWith(s[j..], [c])
    {
      assert s[j..][0] == a[j];
      assert a[j] in a;
    }
  }

  /** A character that does not occur is not found. */
  lemma FindAbsent(s: string, c: char)
    requires c !in s
    ensures Find(s, [c]) == -1
  {
    forall j | 0 <= j < |s|
      ensures !StartsWith(s[j..], [c])
    {
      assert s[j..][0] == s[j];
      assert s[j] in s;
    }
  }

  /** Splitting `a + [c] + rest` on `c` yields `a` first when `a` has no `c`. */
  lemma SplitCons(a: string, c: char, rest: string)
    requires c !in a
    ensures SplitOn(a + [c] + rest, [c]) == [a] + SplitOn(rest, [c])
  {
    var s := a + [c] + rest;
    FindAfter(a, c, rest);
    assert s[..|a|] == a;
    assert s[|a| + 1..] == rest;
  }

  /** Splitting on a character undoes joining on it, when no piece holds
      that character. */
  lemma {:induction false} SplitJoin(xs: seq<string>, c: char)
    requires |xs| >= 1
    requires forall i :: 0 <= i < |xs| ==> c !in xs[i]
    ensures SplitOn(Join(xs, [c]), [c]) == xs
    decreases |xs|
  {
    if |xs| > 1 {
      var tail := xs[1..];
      var rest := Join(tail, [c]);
      assert c !in xs[0];
      assert Join(xs, [c]) == xs[0] + [c] + rest;
      SplitCons(xs[0], c, rest);
      forall i | 0 <= i < |tail|
        ensures c !in tail[i]
      {
        assert tail[i] == xs[i + 1];
      }
      SplitJoin(tail, c);
      assert xs == [xs[0]] + tail;
    } else {
      FindAbsent(xs[0], c);
      assert Join(xs, [c]) == xs[0];
    }
  }
}
